=== FILE: README.md ===
# Scout annotation engine and preview backend, in Dafny

Scout lets a user draw annotations over a map and ask a backend to turn a
screenshot of it into a generated "preview" photograph. This project models
the parts of Scout that hold its logic:

- **Geo-anchored annotations** (`GeoSession`, `MapAnnotations`, `MapToolbar`).
  The map view keeps a list of pins and pen paths in longitude/latitude. It
  persists the list to local storage. It projects the list to the screen and
  renders it as pins, SVG paths, a translucent preview of the path being
  drawn, and a search marker.
- **Screen-space annotations** (`ScreenOverlay`, `OverlayToolbar`). The older
  canvas overlay supports pen, marker, circle, rectangle and text tools. It
  has a draggable toolbar with a colour palette and a size slider.
- **Camera controls** (`CameraControls`). These are the time, date, focal
  length and weather pickers, the 12-hour time label and the preview request
  payload.
- **Client utilities** (`Validation`, `Formatting`). These are the form
  validators and the file-name builder for a generated image.
- **Backend** (`Store`, `FilesRouter`, `GenerationService`, `GenerationRouter`,
  `ImagesRouter`):
  - the in-memory database (two insertion-ordered dicts and a request list);
  - the upload route, which queues a preview request;
  - the generation service's handling of the model's answer and errors;
  - the background task that records the outcome on the request;
  - the generated-image routes.

The model also has shared support modules:

- `Wrappers`: `Option` and `Result`.
- `Decimal`: integer ⇄ decimal text, with a parser proved to invert the printer.
- `Text`: ASCII lower-casing, `startsWith` and substring search.
- `OrderedDict`: Python's insertion-ordered `dict`.
- `RangeInput`: an HTML range input clamping its value.
- `Geometry`: points and the projector.

Conventions:

- Screen coordinates are integers.
- Geographic coordinates and sizes derived by division are reals.
- The map projector is a function parameter that may answer "no position".
- Clocks and fresh ids (`Date.now()`, `uuid4`) are parameters.
- The generative model's answer, or the error it raised, is an input datatype.

The map view renders its overlay elements in the document order of
`MapView.js` lines 308-445: all pins first, then all paths, then the preview
of the path being drawn, then the search marker. This holds whatever the
order of the annotation list. `GeoSession.Render` states this order through
`GeoSession.Layered`. On screen the CSS z-index decides first: stored paths
sit at 998, beneath pins, the preview and the search marker at 999.
`GeoSession.StackingInRender` states the resulting stacking.

## Model

| member | source | states |
|---|---|---|
| Decimal.IntToString | frontend/src/components/Map/MapAnnotations.js:39 | the text of a coordinate is non-empty, starts with `-` exactly for negative values and is otherwise all digits |
| Decimal.ParseIntRoundTrip | frontend/src/components/Map/MapAnnotations.js:39 | reading back the decimal text of any integer followed by a non-digit gives that integer and leaves the rest of the text untouched |
| Decimal.IntToStringInjective | frontend/src/components/Map/MapAnnotations.js:39 | two different integers never print the same |
| Text.AsciiLower | backend/app/services/generation_service.py:119 | `str.lower()` on the error text, restricted to ASCII: each capital becomes its small letter, everything else is kept, length unchanged |
| Text.Contains | backend/app/services/generation_service.py:119 | Python's `in` on strings: true exactly when some position starts a copy of the needle |
| OrderedDict.Get | backend/app/routers/images.py:27-30 | lookup fails exactly when the key is absent and otherwise returns the value stored under it |
| OrderedDict.Set | backend/app/routers/files.py:37-43 | assigning a present key rewrites its value in place; a new key is appended at the end; all other entries keep their position and value |
| OrderedDict.GetAfterSet | backend/app/routers/generation.py:33-39 | after `d[k] = v`, `d.get(k)` is `v`, and keys stay unique |
| OrderedDict.GetOtherAfterSet | backend/app/routers/generation.py:33-39 | assigning one key never changes the lookup of another |
| OrderedDict.SetKeepsOthers | backend/app/routers/files.py:37-43 | after one assignment, every other key's lookup is as before |
| OrderedDict.Remove | backend/app/routers/files.py:127-128 | `pop` keeps exactly the other entries, in order, and the key is gone |
| OrderedDict.RemoveConcat | backend/app/routers/files.py:128 | popping from a joined entry list pops from each part, so survivors keep their order |
| OrderedDict.RemoveOne | backend/app/routers/files.py:128 | a single entry is dropped exactly when it has the popped key |
| OrderedDict.RemoveMiddle | backend/app/routers/files.py:127-128 | popping a key held once, between other entries, leaves exactly the entries before it followed by those after it |
| OrderedDict.GetAfterRemove | backend/app/routers/images.py:98 | after `pop(k)` the key is absent, every other key's lookup is unchanged, and keys stay unique |
| OrderedDict.RemoveSize | backend/app/routers/files.py:121 | popping a present key shrinks a dict by exactly one entry |
| OrderedDict.RemoveAbsent | backend/app/routers/images.py:95-96 | removing an absent key changes nothing |
| RangeInput.Value | frontend/src/AnnotationToolbar.js:193-198 | a range input always reports a value inside `min..max`; an in-range value is kept and one outside is clamped to the nearer bound |
| MapAnnotations.StrokeWidth | frontend/src/components/Map/MapAnnotations.js:92 | `Math.max(2, size / 4)`: at least 2 and at least a quarter of the size, and equal to one of them |
| MapAnnotations.ReduceShape | frontend/src/components/Map/MapAnnotations.js:38-40 | the reduction over points yields one moveto to the first point followed by one lineto per later point, in order |
| MapAnnotations.PathDataCommandCounts | frontend/src/components/Map/MapAnnotations.js:38-40 | path data over n ≥ 1 points contains exactly one `M` and n − 1 `L` commands |
| MapAnnotations.ParseCoordsRoundTrip | frontend/src/components/Map/MapAnnotations.js:39 | the `x y` text of a point reads back to that point |
| MapAnnotations.ReduceRoundTrip | frontend/src/components/Map/MapAnnotations.js:38-40 | for any coordinate formatter with an inverse reader, the path data reads back to exactly the points it was built from |
| MapAnnotations.PathData | frontend/src/components/Map/MapAnnotations.js:38-40 | no points give empty path data; the SVG path data of at least one point parses back to exactly those points, in order, so no point is lost or reordered |
| MapAnnotations.PinAnnotation | frontend/src/components/Map/MapAnnotations.js:3-33 | renders nothing exactly when there is no screen position; otherwise a dot of the pin's size and colour whose click removes this pin's id |
| MapAnnotations.PathAnnotation | frontend/src/components/Map/MapAnnotations.js:35-67 | renders nothing exactly below two points; otherwise a stroke whose path data parses back to the points, with the annotation's colour and width, whose click removes this path's id |
| MapAnnotations.CurrentPathPreview | frontend/src/components/Map/MapAnnotations.js:69-100 | renders nothing exactly below two points; otherwise a stroke at opacity 0.7 and width max(2, size/4) with no click handler, whose path data parses back to the points |
| MapAnnotations.SearchMarker | frontend/src/components/Map/MapAnnotations.js:102-128 | renders nothing exactly when there is no screen position; otherwise a dot there |
| GeoSession.SaveThenLoad | frontend/src/components/Map/MapView.js:189-191 | what is saved under the storage key is what loads back; no other key is touched |
| GeoSession.Init | frontend/src/components/Map/MapView.js:17-25 | a mounted view starts with the select tool, colour `#007bff`, size 20, not drawing, and the saved list (empty when nothing is saved) |
| GeoSession.Click | frontend/src/components/Map/MapView.js:74-90 | with the pin tool a click appends one pin at the clicked place with the current colour and size; any other tool changes nothing |
| GeoSession.MouseDown | frontend/src/components/Map/MapView.js:92-98 | with the pen a press starts drawing a path holding just the pressed place; other tools change nothing |
| GeoSession.MouseMove | frontend/src/components/Map/MapView.js:100-112 | while drawing with the pen the cursor is appended to the path; otherwise nothing changes |
| GeoSession.MouseUp | frontend/src/components/Map/MapView.js:114-127 | a pen path of more than one point is committed with stroke width max(2, size/4); in every case drawing stops and the path is cleared |
| GeoSession.ToolChange | frontend/src/components/Map/MapView.js:129-133 | switching tools abandons any path in progress and keeps the annotations and style |
| GeoSession.ClearAll | frontend/src/components/Map/MapView.js:143-147 | clearing empties the list and stops drawing; the tool stays |
| GeoSession.WithoutId | frontend/src/components/Map/MapView.js:161-163 | `filter(ann => ann.id !== id)`: an annotation survives exactly when it was there and has another id |
| GeoSession.WithoutIdConcat | frontend/src/components/Map/MapView.js:161-163 | filtering distributes over concatenation, so survivors keep their relative order |
| GeoSession.WithoutAbsentId | frontend/src/components/Map/MapView.js:161-163 | removing an id nobody carries leaves the list unchanged |
| GeoSession.Remove | frontend/src/components/Map/MapView.js:160-163 | after removal no annotation carries the id, and nothing but the list changes |
| GeoSession.InitConsistent | frontend/src/components/Map/MapView.js:20-23 | a view mounted from a saved list whose paths have two points is consistent |
| GeoSession.StepKeepsConsistent | frontend/src/components/Map/MapView.js:114-127 | no event, from the map or the toolbar, ever stores a path with fewer than two points, and a path is in progress only while drawing with the pen |
| GeoSession.ReloadAfterStep | frontend/src/components/Map/MapView.js:188-191 | reloading right after any event restores exactly the list that event produced |
| GeoSession.InitStyled | frontend/src/components/Map/MapView.js:18-19 | the initial colour is a palette colour and the initial size lies on the size slider |
| GeoSession.ToolbarKeepsStyle | frontend/src/components/Map/MapView.js:135-141 | whatever the toolbar asks of the view, given palette colours, the style stays a palette colour and a slider size |
| GeoSession.MapEventsKeepStyle | frontend/src/components/Map/MapView.js:74-147 | map events other than colour and size changes leave the style untouched |
| GeoSession.Resolve | frontend/src/components/Map/MapView.js:150-158 | projecting a path keeps only points with a screen position, each the projection of some path point; when every point projects, the result is exactly the projections in path order |
| GeoSession.ResolveConcat | frontend/src/components/Map/MapView.js:345 | `map(...).filter(Boolean)` works piece by piece: resolving a joined path gives the joined results, so points keep their path order |
| GeoSession.ResolveOne | frontend/src/components/Map/MapView.js:345 | a single point resolves to its projection, or to nothing when it has no screen position |
| GeoSession.PinLayer | frontend/src/components/Map/MapView.js:309-341 | at most one dot per annotation; every rendered pin dot comes from a pin annotation with a screen position there and removes that pin's id when clicked |
| GeoSession.PinLayerComplete | frontend/src/components/Map/MapView.js:309-311 | every pin with a screen position is drawn |
| GeoSession.PinLayerConcat | frontend/src/components/Map/MapView.js:309 | the pin layer of a joined list is the two layers joined, so dots follow list order |
| GeoSession.PinLayerOne | frontend/src/components/Map/MapView.js:309-338 | one annotation gives a dot of its size and colour at its screen position, removing its id, exactly when it is a pin with a screen position |
| GeoSession.PathLayer | frontend/src/components/Map/MapView.js:344-378 | at most one stroke per annotation; every stroke comes from a path annotation with at least two projected points, its path data reads back to exactly those points, and a click removes that path's id |
| GeoSession.PathLayerComplete | frontend/src/components/Map/MapView.js:344-346 | every path with at least two points that have a screen position is drawn |
| GeoSession.PathLayerConcat | frontend/src/components/Map/MapView.js:344 | the path layer of a joined list is the two layers joined, so strokes follow list order |
| GeoSession.PathLayerOne | frontend/src/components/Map/MapView.js:344-375 | one annotation gives a stroke exactly when it is a path with at least two resolvable points; the stroke reads back to those points and carries the path's colour, width and id |
| GeoSession.PreviewLayer | frontend/src/components/Map/MapView.js:381-414 | at most one preview, translucent and not clickable; none unless drawing a path of two or more points of which two resolve; then exactly one, reading back to the resolved points, in the selected colour and width max(2, size/4) |
| GeoSession.SearchLayer | frontend/src/components/Map/MapView.js:416-445 | a search dot exactly when there is a search result with a screen position, and then at that position |
| GeoSession.Render | frontend/src/components/Map/MapView.js:308-445 | in document order, whatever the list order, pin dots come first, then path strokes, then the preview, then the search dot, which is last when there is one |
| GeoSession.StackingInRender | frontend/src/components/Map/MapView.js:308-445 | with stored paths at z-index 998 and everything else at 999, every stored path stroke shows beneath every pin, the preview and the search marker, and the search marker shows above everything |
| GeoSession.RenderShowsAnnotation | frontend/src/components/Map/MapView.js:308-378 | every pin with a screen position and every path with two resolvable points appears in what the view draws |
| GeoSession.Step | frontend/src/components/Map/MapView.js:74-163 | only clicks, releases, clearing and removal change the list; a colour or size choice changes only that field; clicks and removal leave the path in progress alone |
| GeoSession.RenderWithoutMap | frontend/src/components/Map/MapView.js:150-158 | with no map to project through, nothing at all is rendered, and nothing raises |
| GeoSession.NothingResolves | frontend/src/components/Map/MapView.js:151 | with no map, no point of any path gets a screen position |
| GeoSession.NoPins | frontend/src/components/Map/MapView.js:309-311 | with no map, the pin layer is empty |
| GeoSession.NoPaths | frontend/src/components/Map/MapView.js:344-350 | with no map, the path layer is empty |
| GeoSession.ClickRemovesItsAnnotation | frontend/src/components/Map/MapView.js:161-163 | every clickable rendered element names an annotation that exists, and clicking it removes every annotation with that id |
| MapToolbar.ToolFromId | frontend/src/AnnotationToolbar.js:13-17 | every button id reads back to the tool that reports it |
| MapToolbar.GetSizeLabel | frontend/src/AnnotationToolbar.js:30-34 | Small exactly up to 16, Medium exactly in 17..20, Large exactly above 20 |
| MapToolbar.SizeLabelMonotone | frontend/src/AnnotationToolbar.js:30-34 | a larger size never gets a smaller label |
| MapToolbar.Handle | frontend/src/AnnotationToolbar.js:36-226 | collapsed, only the open button acts; expanded, each button sends exactly its one request, and the slider sends a clamped size in 12..32 |
| ScreenOverlay.Init | src/AnnotationOverlay.js:3-15 | a fresh overlay takes the parent's tool and annotations, is not drawing, and has an empty path and a press point at the origin |
| ScreenOverlay.MouseDown | src/AnnotationOverlay.js:96-134 | no tool does nothing; the pen seeds its path; the marker commits at once; text commits only a non-empty typed string; circle and rectangle start a gesture |
| ScreenOverlay.MouseMove | src/AnnotationOverlay.js:136-186 | only a pen gesture changes state, by appending the cursor to the path |
| ScreenOverlay.MouseUp | src/AnnotationOverlay.js:188-230 | outside a gesture nothing happens; otherwise the released shape, if any, is appended and the gesture ends with an empty path |
| ScreenOverlay.MouseLeave | src/AnnotationOverlay.js:248-251 | leaving the canvas abandons the gesture and commits nothing |
| ScreenOverlay.StepAppendsOnly | src/AnnotationOverlay.js:96-251 | every pointer event keeps the committed list or appends exactly one shape at its end; new props replace it with the parent's list |
| ScreenOverlay.NoToolNoChange | src/AnnotationOverlay.js:97 | with no tool selected, pointer events change nothing |
| ScreenOverlay.StepKeepsPenStrokes | src/AnnotationOverlay.js:193 | no pointer event stores a pen stroke with fewer than two points, and a parent's list without such strokes keeps none |
| ScreenOverlay.PenMovesExtend | src/AnnotationOverlay.js:141-142 | during a pen gesture, a run of moves appends exactly those points, in order |
| ScreenOverlay.PenGesture | src/AnnotationOverlay.js:96-230 | press at p, moves qs, release: the stroke `[p] + qs` is stored exactly when there was a move; the release point never joins it |
| ScreenOverlay.ShapeGesture | src/AnnotationOverlay.js:96-230 | a circle or rectangle gesture stores one shape from the press point to the release point, whatever the moves, even when they coincide |
| ScreenOverlay.RectangleReachesEnd | src/AnnotationOverlay.js:73-77 | a rectangle painted from its press corner with signed width and height reaches exactly its release corner |
| ScreenOverlay.CirclePassesThroughEnd | src/AnnotationOverlay.js:63-71 | a circle is centred on its press point and its squared radius is the squared distance to the release point, positive unless they coincide |
| ScreenOverlay.PenPaint | src/AnnotationOverlay.js:41-50 | a stroke paints nothing with at most one point, and otherwise moves to its first point and lines through all points in order |
| ScreenOverlay.TextPaint | src/AnnotationOverlay.js:79-83 | text is painted at four times the size, with "Text" standing in for an empty string |
| ScreenOverlay.Redraw | src/AnnotationOverlay.js:28-30 | the canvas repaints one figure per annotation, in list order |
| ScreenOverlay.RedrawFollowsProps | src/AnnotationOverlay.js:9-30 | after new props the canvas repaints exactly the figures of the parent's list, so an emptied list leaves a blank canvas |
| ScreenOverlay.Preview | src/AnnotationOverlay.js:141-185 | outside a gesture no preview is painted; a pen preview is the path so far plus the cursor, from its first point to the cursor; circle and rectangle previews are painted in the selected colour |
| ScreenOverlay.PenPreviewMatchesCommit | src/AnnotationOverlay.js:141-230 | the pen preview painted at a move is the stroke a release right after that move commits |
| ScreenOverlay.DrawShape | src/AnnotationOverlay.js:33-85 | only a pen stroke of at most one point paints nothing; every figure uses the annotation's colour; a marker is a dot of radius 8 at its point, a circle a ring centred on its press point, a rectangle a frame from its press corner, a pen stroke a polyline of its width |
| ScreenOverlay.Step | src/AnnotationOverlay.js:3-251 | moves and leaving keep the committed list; pointer events keep tool, colour and size; new props take the parent's tool, colour, size and list and leave a gesture in progress alone |
| ScreenOverlay.PreviewMatchesCommit | src/AnnotationOverlay.js:141-230 | releasing where the last circle or rectangle preview was drawn commits the very figure the preview showed |
| OverlayToolbar.ToolFromId | src/AnnotationToolbar.js:13-19 | every tool button id reads back to the tool that reports it |
| OverlayToolbar.Init | src/AnnotationToolbar.js:3-7 | no tool, the first palette colour, size 3, not dragging, and the panel 20 px down against the right edge of the map (800 px wide when unknown), never left of 0 |
| OverlayToolbar.SelectTool | src/AnnotationToolbar.js:23-26 | clicking the selected tool deselects it, any other selects it, and the click is always reported |
| OverlayToolbar.SelectTwice | src/AnnotationToolbar.js:23-26 | two clicks on the same tool restore the selection exactly when it was that tool or nothing |
| OverlayToolbar.SelectColor | src/AnnotationToolbar.js:28-31 | the colour is stored and reported unchanged |
| OverlayToolbar.SlideSize | src/AnnotationToolbar.js:33-36 | the stored and reported size always lies in 1..10, and equals the slider value when that does |
| OverlayToolbar.ExitAnnotate | src/AnnotationToolbar.js:219-223 | exiting drops the tool and tells the parent |
| OverlayToolbar.ClearAll | src/AnnotationToolbar.js:237-240 | clearing tells the parent to clear and drops the tool |
| OverlayToolbar.MouseDown | src/AnnotationToolbar.js:38-49 | only a press on the header starts a drag, and it remembers the cursor's offset from the panel within the map |
| OverlayToolbar.MouseMove | src/AnnotationToolbar.js:51-65 | while dragging, the panel moves so that the cursor keeps its grab offset; otherwise nothing changes |
| OverlayToolbar.MouseUp | src/AnnotationToolbar.js:67-69 | releasing the mouse button ends any drag and changes nothing else |
| OverlayToolbar.DragFollowsPointer | src/AnnotationToolbar.js:38-65 | after grabbing the header, the panel moves by exactly the cursor's displacement, and not at all if the cursor stays put |
| OverlayToolbar.Reset | src/AnnotationToolbar.js:96-100 | a reset position from the parent moves the panel there; without one nothing changes |
| OverlayToolbar.Step | src/AnnotationToolbar.js:23-69 | each button press reports exactly one notice to the parent; drags and resets report none |
| OverlayToolbar.InitSettled | src/AnnotationToolbar.js:3-7 | the initial colour is from the palette and the initial size lies on the slider |
| OverlayToolbar.StepKeepsSettled | src/AnnotationToolbar.js:21-36 | given palette colours, every press keeps the style a palette colour and a slider size, and a style change is reported as stored |
| CameraControls.Merge | frontend/src/CameraControls.js:52-67 | the settings with exactly the changed control's field replaced |
| CameraControls.NotifyChange | frontend/src/CameraControls.js:52-67 | the parent receives the merged settings exactly when it passed a callback |
| CameraControls.Handle | frontend/src/CameraControls.js:27-50 | each control stores exactly its new value (the clamped hour or focal length, the picked date, the listed weather) and keeps the other fields; a pick closes the dropdown and an out-of-range pick changes nothing; the toggle only toggles; the new settings are reported exactly when a callback exists |
| CameraControls.HandleChangesOneField | frontend/src/CameraControls.js:27-67 | each field changes only under its own control, and then takes that control's value; the reported record is the whole new one |
| CameraControls.FormatTimeShape | frontend/src/CameraControls.js:69-73 | on 0..23 the label shows an hour in 1..12, 12 for midnight and noon, and PM exactly from noon on |
| CameraControls.MidnightAndNoon | frontend/src/CameraControls.js:69-73 | 0 shows as "12:00 AM", 12 as "12:00 PM", 23 as "11:00 PM" |
| CameraControls.FormatTime | frontend/src/CameraControls.js:69-73 | every hour 0..23 is read back from its label |
| CameraControls.FormatTimeInjective | frontend/src/CameraControls.js:69-73 | two different hours never share a label |
| CameraControls.Payload | frontend/src/CameraControls.js:317-325 | the request body carries the screenshot, the ISO date text, the focal length and the weather unchanged |
| CameraControls.PayloadHourRoundTrip | frontend/src/CameraControls.js:321 | the hour travels as text that reads back to exactly the same number |
| Validation.ValidateImageFile | frontend/src/utils/validation.js:2-18 | no file, then a type not starting with `image/`, then more than 10 MiB are each rejected with their own error, and only otherwise is the file valid |
| Validation.TenMebibyteBoundary | frontend/src/utils/validation.js:12-15 | exactly 10 MiB is accepted and one byte more is not |
| Validation.Note | frontend/src/utils/validation.js:24-40 | a failed check sets its key's message; other keys are untouched |
| Validation.ValidateCameraSettings | frontend/src/utils/validation.js:21-46 | valid exactly when there are no errors; each field has an error exactly when JavaScript finds it falsy; a focal length errs exactly when absent or outside 10..500, with the matching message |
| Validation.CameraSettingsAccepted | frontend/src/utils/validation.js:21-46 | settings are accepted exactly when date, hour and weather are truthy and the focal length is present within 10..500 inclusive |
| Validation.MidnightCountsAsMissing | frontend/src/utils/validation.js:28-30 | a numeric hour 0 is reported as missing, while the text "0" is not |
| Validation.ValidateCoordinates | frontend/src/utils/validation.js:49-59 | valid exactly inside both inclusive ranges; a bad longitude is reported first, a bad latitude only when the longitude is fine |
| Formatting.Lower | frontend/src/utils/formatting.js:18 | `toLowerCase` leaves no ASCII capital; without a dotted capital I, each character maps in place to its own lower case |
| Formatting.LowerConcat | frontend/src/utils/formatting.js:18 | lower-casing works piece by piece |
| Formatting.KeepAllowed | frontend/src/utils/formatting.js:19 | only lower-case letters, digits and whitespace remain, every such character of the input survives, and never more characters than before |
| Formatting.KeepAllowedConcat | frontend/src/utils/formatting.js:19 | the filter works piece by piece, so kept characters keep their order |
| Formatting.Dashify | frontend/src/utils/formatting.js:20 | the result is made of stem characters with no double dash, is empty exactly when the input is, and starts with a dash exactly when the input starts with whitespace |
| Formatting.DashifyConcat | frontend/src/utils/formatting.js:20 | dashing works piece by piece as long as no whitespace run is cut in two |
| Formatting.DashifySpaces | frontend/src/utils/formatting.js:20 | a whitespace run of any length becomes exactly one dash |
| Formatting.DashifyWord | frontend/src/utils/formatting.js:20 | text without whitespace passes unchanged |
| Formatting.TrimTrailingDashes | frontend/src/utils/formatting.js:22 | the longest prefix not ending in a dash; only dashes are dropped |
| Formatting.Clean | frontend/src/utils/formatting.js:17-22 | the stem is a prefix of the lowered, filtered, dashed text, of at most 50 characters, cut only by dropping trailing dashes within the first 50; it is made of `a-z`, `0-9` and `-`, with no double dash and no trailing dash |
| Formatting.CreateFilename | frontend/src/utils/formatting.js:13-25 | a non-empty description gives its cleaned stem (or `generated-image` when that is empty) plus `.` and the extension, `png` by default; no or an empty description gives the fallback |
| Formatting.NothingLeftFallsBack | frontend/src/utils/formatting.js:24 | a description that cleans to nothing, such as punctuation alone, falls back to `generated-image` |
| Formatting.DashifySingleSpaced | frontend/src/utils/formatting.js:20 | in single-spaced text every space run has length one, so dashing is plain substitution |
| Formatting.PhraseStem | frontend/src/utils/formatting.js:17-22 | a lower-case phrase of at most 50 characters becomes itself with each space replaced by a dash |
| GenerationService.ClassifyError | backend/app/services/generation_service.py:116-139 | every error fails; rate limit exactly when the text contains `429` or, in any case, `resource exhausted`; then quota exactly when it contains `quota` in any case; otherwise a generation failure carrying the text; a rate limit reports "Rate limit exceeded, try again later" and a quota error "API quota exceeded"; only a rate limit has a 60 s retry |
| GenerationService.QuotaInAnyCase | backend/app/services/generation_service.py:127 | `quota` in any mix of cases, and no rate-limit marker, is a quota error |
| GenerationService.PlainFailure | backend/app/services/generation_service.py:134-139 | an error text with no `4`, `h` or `q` in either case is a plain generation failure carrying the text |
| GenerationService.NoCandidateIsGenerationFailure | backend/app/services/generation_service.py:86 | an answer without candidates raises Python's index error, which classifies as a plain generation failure |
| GenerationService.LastText | backend/app/services/generation_service.py:87-90 | there is a description exactly when some part carries text |
| GenerationService.LastImage | backend/app/services/generation_service.py:92-105 | the image kept is the last part that carries inline data and no text |
| GenerationService.AggregateParts | backend/app/services/generation_service.py:86-107 | success exactly when some part has text or data; the description is the last text; the image and its id come from the last data-only part |
| GenerationService.GenerateImage | backend/app/services/generation_service.py:41-139 | a raised error becomes its classified failure; an answer with content is a generated result with its last text and last image; an answer without content is None |
| GenerationService.Lookup | backend/app/services/generation_service.py:58 | `dict.get(key, default)`: the stored value when present, else the default |
| GenerationService.PromptArguments | backend/app/services/generation_service.py:57-62 | each camera key fills its slot when present and falls back to its own default when absent |
| GenerationService.EmptySettingsDefaults | backend/app/services/generation_service.py:57-62 | with no settings the prompt asks for 2024-12-15, hour 12, 50 mm, clear |
| GenerationService.SavedFilenameRoundTrip | backend/app/services/generation_service.py:26-27 | for an id without underscores, the saved file name gives back both the id and the timestamp |
| GenerationRouter.StartGeneration | backend/app/routers/generation.py:17-18 | only the addressed request changes, to `generating`; the tables are untouched |
| GenerationRouter.Record | backend/app/routers/generation.py:26-62 | the request ends `completed` exactly when the service returned a generated result, and `failed` otherwise; a success names the image only when it has data and stores the description only when it is non-empty; a failure changes neither; identity, file name and upload time are kept |
| GenerationRouter.RecordImage | backend/app/routers/generation.py:29-39 | a success with image data stores the bytes as PNG under the image id with the service's generation time and description and the request's position, keeping every other image; any other outcome changes nothing |
| GenerationRouter.BackgroundAt | backend/app/routers/generation.py:12-62 | the background job rewrites only the request at its queued position and stores the image, if any; a position past the end changes nothing |
| GenerationRouter.BackgroundOutcome | backend/app/routers/generation.py:12-62 | pending → generating → completed or failed; a raise, None or a failure records its message; a generated image is stored as PNG under its id with the service's generation time and description, linked both ways with the request; the request takes a non-empty description; a failure stores no image and keeps the request's image id and description |
| GenerationRouter.CreatePreviewRequest | backend/app/routers/generation.py:70-73 | the posted request is appended and returned unchanged; nothing else changes |
| GenerationRouter.DeletePreviewRequest | backend/app/routers/generation.py:76-82 | a position inside the list removes exactly that request; any other is a 404 and nothing changes |
| GenerationRouter.CreateThenDelete | backend/app/routers/generation.py:70-82 | deleting the request just created restores the store |
| GenerationRouter.StalePositionUpdatesWrongRequest | backend/app/routers/generation.py:12-62 | as written: after request 0 of three is deleted, the job queued for "b" at position 1 records its outcome on "c", while "b" stays pending |
| GenerationRouter.BackgroundFor | backend/app/routers/generation.py:12-62 | corrected: the background job addresses its request by file id, and no request for another file changes |
| GenerationRouter.UndisturbedJobsAgree | backend/app/routers/files.py:67-86 | with no deletion in between, the corrected job does exactly what the as-written job does |
| GenerationRouter.BackgroundForSurvivesDeletion | backend/app/routers/generation.py:76-82 | whatever other request is deleted meanwhile, the job still finishes its own file's request and touches no other file's request |
| FilesRouter.UploadScreenshot | backend/app/routers/files.py:14-106 | a non-image is a 400 and a failed read a 500, neither changing the store; otherwise the stored record under the fresh id is exactly the file name, content type, bytes, their size and the upload time, no other upload changes, the message says whether generation was started and names the file, and a pending request for that file, name, time and the four settings, plus its job, is queued exactly when all four settings are given |
| FilesRouter.QueuePreview | backend/app/routers/files.py:47-86 | the pending request is appended for the stored file, and the job addresses it by its position and carries the four settings the prompt renders |
| FilesRouter.ListFiles | backend/app/routers/files.py:109-121 | one entry per upload in upload order, with its id and the stored file name, size, content type and upload time, and their count |
| FilesRouter.DeleteFile | backend/app/routers/files.py:124-131 | a stored id is removed; any other id is a 404 and nothing changes |
| FilesRouter.DeleteFileKeepsOrder | backend/app/routers/files.py:124-131 | deleting an upload leaves the uploads before it followed by those after it, in their order |
| FilesRouter.DeleteFileShrinksListing | backend/app/routers/files.py:109-131 | deleting a stored upload shortens the listing by one and keeps every other upload |
| ImagesRouter.ListImages | backend/app/routers/images.py:9-21 | one entry per generated image in storage order, with its id and the stored content type, generation time, request index and description, and their count |
| ImagesRouter.GetImage | backend/app/routers/images.py:24-51 | a 404 exactly for an unknown id; otherwise the stored bytes served as `image/png` |
| ImagesRouter.ContentLengthMatches | backend/app/routers/images.py:43-51 | the `Content-Length` header reads back as exactly the number of bytes served |
| ImagesRouter.GetImageInfo | backend/app/routers/images.py:54-72 | a 404 exactly for an unknown id; otherwise the id, the size, the first ten bytes (or all, if fewer), the stored content type, and whether a non-empty description exists |
| ImagesRouter.GetImageDetails | backend/app/routers/images.py:75-89 | a 404 exactly for an unknown id; otherwise the id, the stored content type, generation time, request index and description, and a URL under `/generated-images/` ending in the id |
| ImagesRouter.DeleteImage | backend/app/routers/images.py:92-99 | a stored id is removed with its confirmation message; any other is a 404 and nothing changes |
| ImagesRouter.DeleteThenNotFound | backend/app/routers/images.py:24-99 | after a delete, every route answers 404 for that id, the listing is one shorter, and every other image is served as before |

## Left out

- The map provider is an abstract projector. Its viewport events, `forceUpdate` re-rendering, geolocation and the Mapbox search fetch (`MapView.js` lines 28-58) are not modelled.
- The map projector answers whole pixels here. Mapbox's `map.project` returns fractional pixels (`MapView.js` lines 156-157), and the path data prints them with their decimals (`MapAnnotations.js` line 39). Fractional projections and the decimal printing of non-integral numbers are not modelled.
- Canvas painting is kept symbolic as `Paint` values. `Math.sqrt` is not modelled: a circle is described by its squared radius. Mouse positions are whole pixels.
- `toFixed` coordinate display, `formatFileSize`, `formatCoordinates`, `formatTimestamp` and locale date formatting are left out. They involve floating-point and locale text.
- Deriving month, day and year from a JavaScript `Date` is not modelled. The date arrives as its fields and ISO text.
- The screenshot capture (`html2canvas`), the download link, `postPreviewRequest` and every HTTP transport are left out. They are browser I/O.
- JSON serialisation of local storage is left out. Storage holds the annotation list itself.
- `Formatting.Lower`: models `toLowerCase` for ASCII and the two non-ASCII characters that lower to ASCII letters (U+0130, U+212A). Other non-ASCII characters are kept as they are, because the next step removes them anyway.
- `Text.AsciiLower`: Python's `str.lower()` is modelled for ASCII only. The classification looks for ASCII words, so other letters cannot change the outcome except through exotic case mappings.
- The Gemini client, PIL image decoding, the disk write of a generated image and logging are left out. They are external I/O; only the file name is modelled.
- The generated-image route's base64 fallback for string data is left out. Images are always stored as bytes.
- `Validation.ValidateCameraSettings`: a focal length is `Option<real>`. Non-numeric JavaScript values in that field are not modelled.
- The "Unknown error" fallback in `generate_image_background` is not modelled. The service never returns a failure without a message.
- An uploaded file whose filename is None is not modelled. The filename is a string.
- Python's `IndexError` in the background task's own `except` handler is not modelled. That error occurs when the queued position no longer exists. The model changes nothing for a position past the end.
- The async scheduling of `BackgroundTasks` is not modelled. A job runs later as a separate call.
- The weather dropdown's outside-click listener, `isVisible` flags, toolbar dimensions and styling are left out. They are presentation only.
- How the parent wires the overlay toolbar to the overlay is not part of this model. `App.js` is not part of this model.
- `Validation.ValidateCoordinates`: coordinates are reals and cannot be NaN. In JavaScript a NaN longitude or latitude fails every comparison and so passes `validation.js` lines 50-58.
- `Validation.ValidateCameraSettings`: a focal length is a real and cannot be NaN. In JavaScript a NaN focal length is neither null nor undefined and fails both range comparisons, so it passes `validation.js` lines 32-36.
- `ImagesRouter.GetImageInfo`: the first ten bytes are returned as bytes and the data type as a flag. Python's `str(raw_data[:10])` repr text and the type's name are not modelled.
- `OverlayToolbar.Init`: None stands for an undefined map width, which falls back to 800. A `null` width, which JavaScript turns into 0, is not modelled.
- Upload and generation times are whole numbers here. In Python they are the floating-point seconds of `time.time()` (`files.py` lines 42 and 62, `generation_service.py` line 83). They are only passed through, so their type does not change any outcome.
- The prompt template text is not part of this model. Only the four values substituted into it are modelled.

## Findings

| source | as written | input that shows it | evidently intended | confidence | as-written member | corrected member |
|---|---|---|---|---|---|---|
| backend/app/routers/generation.py:18-62 | The background task addresses its preview request by the list position it had when queued (`files.py` line 68). Deleting an earlier request shifts the list. | Queue requests for files "a", "b" and "c". Delete request 0 while "b"'s job is pending. The job writes its status and outcome onto "c"'s request, and "b" stays `pending`. | The outcome lands on the request the job was queued for, whatever is deleted meanwhile. | medium, not executed | GenerationRouter.StalePositionUpdatesWrongRequest | GenerationRouter.BackgroundFor |

=== FILE: camera_controls.dfy ===
/**
 * The camera panel under the map: date, hour of day, weather and focal
 * length. Every change is reported upward as the complete settings record,
 * and the Preview button posts the settings with the hour as text.
 */
module CameraControls {
  import opened Wrappers
  import RangeInput
  import Decimal

  /** The calendar fields reported for the chosen date; deriving them from a clock value is not modelled. */
  datatype DateInfo = DateInfo(month: int, day: int, year: int, dateString: string)

  datatype Settings = Settings(timeOfDay: int, date: DateInfo, focalLength: int, weather: string)

  /** One control's new value, tagged with the control it belongs to. */
  datatype Change =
    | TimeOfDayChange(hour: int)
    | DateChange(date: DateInfo)
    | FocalLengthChange(focalLength: int)
    | WeatherChange(weather: string)

  const TimeSlider: RangeInput.Range := RangeInput.Range(0, 23)
  const FocalLengthSlider: RangeInput.Range := RangeInput.Range(15, 85)

  /** Dropdown entries as (value, label), in display order. */
  const WeatherOptions: seq<(string, string)> := [
    ("clear", "Clear"), ("partly-cloudy", "Partly Cloudy"), ("overcast", "Overcast"),
    ("rainy", "Rainy"), ("stormy", "Stormy"), ("snowy", "Snowy"), ("foggy", "Foggy")]

  /** The settings with exactly the named control replaced. */
  function Merge(current: Settings, change: Change): (r: Settings)
    ensures change.TimeOfDayChange? ==> r == current.(timeOfDay := change.hour)
    ensures change.DateChange? ==> r == current.(date := change.date)
    ensures change.FocalLengthChange? ==> r == current.(focalLength := change.focalLength)
    ensures change.WeatherChange? ==> r == current.(weather := change.weather)
  {
    match change
    case TimeOfDayChange(h) => current.(timeOfDay := h)
    case DateChange(d) => current.(date := d)
    case FocalLengthChange(f) => current.(focalLength := f)
    case WeatherChange(w) => current.(weather := w)
  }

  /** `notifyChange`: what the parent's callback receives, or nothing when there is no callback. */
  function NotifyChange(hasCallback: bool, current: Settings, change: Change): (r: Option<Settings>)
    ensures r.Some? <==> hasCallback
    ensures r.Some? ==> r.value == Merge(current, change)
  {
    if hasCallback then Some(Merge(current, change)) else None
  }

  /** The panel's state: the settings plus whether the weather dropdown is open. */
  datatype Panel = Panel(settings: Settings, isWeatherDropdownOpen: bool)

  datatype Action =
    | SlideTime(raw: int)
    | PickDate(date: DateInfo)
    | SlideFocalLength(raw: int)
    | ToggleWeatherDropdown
    | PickWeather(index: nat)

  /** The change an action makes, if any. */
  function ChangeOf(a: Action): Option<Change> {
    match a
    case SlideTime(raw) => Some(TimeOfDayChange(RangeInput.Value(TimeSlider, raw)))
    case PickDate(d) => Some(DateChange(d))
    case SlideFocalLength(raw) => Some(FocalLengthChange(RangeInput.Value(FocalLengthSlider, raw)))
    case ToggleWeatherDropdown => None
    case PickWeather(i) => if i < |WeatherOptions| then Some(WeatherChange(WeatherOptions[i].0)) else None
  }

  /**
   * One action: the new panel and what is reported upward. A slider stores
   * its clamped value, a picked date or weather option is stored as it is,
   * and a picked weather option also closes the dropdown. Every change is
   * reported exactly when the parent passed a callback.
   */
  function Handle(p: Panel, a: Action, hasCallback: bool): (r: (Panel, Option<Settings>))
    ensures a.SlideTime? ==> r.0.settings == p.settings.(timeOfDay := RangeInput.Value(TimeSlider, a.raw))
    ensures a.SlideTime? ==> RangeInput.Within(TimeSlider, r.0.settings.timeOfDay)
    ensures a.PickDate? ==> r.0.settings == p.settings.(date := a.date)
    ensures a.SlideFocalLength? ==> r.0.settings == p.settings.(focalLength := RangeInput.Value(FocalLengthSlider, a.raw))
    ensures a.SlideFocalLength? ==> RangeInput.Within(FocalLengthSlider, r.0.settings.focalLength)
    ensures a.PickWeather? && a.index < |WeatherOptions| ==>
      r.0 == Panel(p.settings.(weather := WeatherOptions[a.index].0), false)
    ensures a.PickWeather? && a.index >= |WeatherOptions| ==> r == (p, None)
    ensures a.ToggleWeatherDropdown? ==> r.0.isWeatherDropdownOpen == !p.isWeatherDropdownOpen && r.0.settings == p.settings && r.1.None?
    ensures !a.PickWeather? ==> r.0.isWeatherDropdownOpen == (p.isWeatherDropdownOpen != a.ToggleWeatherDropdown?)
    ensures ChangeOf(a).Some? ==> (r.1.Some? <==> hasCallback)
    ensures r.1.Some? ==> r.1.value == r.0.settings
  {
    match ChangeOf(a)
    case None =>
      (if a.ToggleWeatherDropdown? then p.(isWeatherDropdownOpen := !p.isWeatherDropdownOpen) else p, None)
    case Some(change) =>
      var settings := Merge(p.settings, change);
      var open := if a.PickWeather? then false else p.isWeatherDropdownOpen;
      (Panel(settings, open), NotifyChange(hasCallback, p.settings, change))
  }

  /**
   * Each slider or picker changes exactly its own field, to the value the
   * control shows, and reports the whole new record.
   */
  lemma HandleChangesOneField(p: Panel, a: Action)
    requires ChangeOf(a).Some?
    ensures var r := Handle(p, a, true);
      var before := p.settings;
      var after := r.0.settings;
      && r.1 == Some(after)
      && (after.timeOfDay != before.timeOfDay ==> a.SlideTime?)
      && (after.date != before.date ==> a.PickDate?)
      && (after.focalLength != before.focalLength ==> a.SlideFocalLength?)
      && (after.weather != before.weather ==> a.PickWeather?)
      && (a.SlideTime? ==> after.timeOfDay == RangeInput.Value(TimeSlider, a.raw))
      && (a.PickDate? ==> after.date == a.date)
      && (a.SlideFocalLength? ==> after.focalLength == RangeInput.Value(FocalLengthSlider, a.raw))
      && (a.PickWeather? ==> after.weather == WeatherOptions[a.index].0)
  {
  }

  // ---------------------------------------------------------------------
  // The hour label

  /** The 12-hour clock hour shown for a 24-hour `hour`. */
  function DisplayHour(hour: int): int {
    if hour == 0 then 12 else if hour > 12 then hour - 12 else hour
  }

  function Period(hour: int): string {
    if hour >= 12 then "PM" else "AM"
  }

  /**
   * `formatTime`: "h:00 AM" or "h:00 PM". Over the slider's range the label
   * is unambiguous: it reads back to the hour it was made from.
   */
  function FormatTime(hour: int): (t: string)
    ensures 0 <= hour <= 23 ==> ParseTime(t) == Some(hour)
  {
    if 0 <= hour <= 23 then LabelReadsBack(hour); Label(hour) else Label(hour)
  }

  /** The text of the label: the 12-hour clock hour, `:00 ` and the period. */
  function Label(hour: int): string {
    Decimal.IntToString(DisplayHour(hour)) + ":00 " + Period(hour)
  }

  /** Over the slider's range the label shows an hour in 1..12, PM exactly from noon on. */
  lemma FormatTimeShape(hour: int)
    requires 0 <= hour <= 23
    ensures 1 <= DisplayHour(hour) <= 12
    ensures Period(hour) == "PM" <==> hour >= 12
    ensures hour < 12 ==> DisplayHour(hour) == (if hour == 0 then 12 else hour)
    ensures hour >= 12 ==> DisplayHour(hour) == (if hour == 12 then 12 else hour - 12)
  {
  }

  /** Midnight and noon both show as twelve o'clock. */
  lemma MidnightAndNoon()
    ensures FormatTime(0) == "12:00 AM"
    ensures FormatTime(12) == "12:00 PM"
    ensures FormatTime(23) == "11:00 PM"
  {
    TwoDigitLabel(0, '1', '2');
    TwoDigitLabel(12, '1', '2');
    TwoDigitLabel(23, '1', '1');
  }

  lemma TwoDigitLabel(hour: int, tens: char, ones: char)
    requires 0 <= hour <= 23
    requires DisplayHour(hour) == 10 * (tens as int - '0' as int) + (ones as int - '0' as int)
    requires '1' <= tens <= '9' && '0' <= ones <= '9'
    ensures FormatTime(hour) == [tens, ones, ':', '0', '0', ' ', Period(hour)[0], 'M']
  {
    var d := DisplayHour(hour);
    assert Decimal.NatToString(d) == Decimal.NatToString(d / 10) + [Decimal.DigitChar(d % 10)];
  }

  /** Reads a label back to the 24-hour hour it shows. */
  function ParseTime(s: string): Option<int> {
    match Decimal.ParseNat(s)
    case None => None
    case Some((d, rest)) =>
      if rest == ":00 AM" then Some(if d == 12 then 0 else d)
      else if rest == ":00 PM" then Some(if d == 12 then 12 else d + 12)
      else None
  }

  lemma LabelReadsBack(hour: int)
    requires 0 <= hour <= 23
    ensures ParseTime(Label(hour)) == Some(hour)
  {
    var d := DisplayHour(hour);
    assert Decimal.IntToString(d) == Decimal.NatToString(d);
    var rest := ":00 " + Period(hour);
    assert Decimal.IntToString(d) + ":00 " + Period(hour) == Decimal.NatToString(d) + rest;
    Decimal.ParseNatRoundTrip(d, rest);
    assert Decimal.ParseNat(Label(hour)) == Some((d, rest));
    if hour >= 12 {
      assert rest == ":00 PM" && rest != ":00 AM";
    } else {
      assert rest == ":00 AM";
    }
  }

  /** So two different hours never share a label. */
  lemma FormatTimeInjective(a: int, b: int)
    requires 0 <= a <= 23 && 0 <= b <= 23
    requires FormatTime(a) == FormatTime(b)
    ensures a == b
  {
  }

  // ---------------------------------------------------------------------
  // The preview request

  datatype CameraPayload = CameraPayload(date: string, timeOfDay: string, focalLength: int, weather: string)
  datatype PreviewPayload = PreviewPayload(screenshot: Option<string>, cameraSettings: CameraPayload)

  /** The body of the preview request: the hour as decimal text, the other settings as they are. */
  function Payload(screenshot: Option<string>, s: Settings): (r: PreviewPayload)
    ensures r.screenshot == screenshot && r.cameraSettings.date == s.date.dateString
    ensures r.cameraSettings.focalLength == s.focalLength && r.cameraSettings.weather == s.weather
  {
    PreviewPayload(screenshot, CameraPayload(s.date.dateString, Decimal.IntToString(s.timeOfDay), s.focalLength, s.weather))
  }

  /** The hour travels as text that reads back to exactly the same number. */
  lemma PayloadHourRoundTrip(screenshot: Option<string>, s: Settings)
    ensures Decimal.ParseInt(Payload(screenshot, s).cameraSettings.timeOfDay) == Some((s.timeOfDay, ""))
  {
    Decimal.ParseIntRoundTrip(s.timeOfDay, "");
    assert Decimal.IntToString(s.timeOfDay) + "" == Decimal.IntToString(s.timeOfDay);
  }
}

=== FILE: decimal.dfy ===
/**
 * Decimal text of integers, as produced by JavaScript's `String(n)`,
 * `Date.now().toString()` and Python's `str(n)` / f-string interpolation,
 * together with the reader that inverts it.
 */
module Decimal {
  import opened Wrappers

  predicate IsDigit(c: char) {
    '0' <= c <= '9'
  }

  predicate AllDigits(s: string) {
    forall i :: 0 <= i < |s| ==> IsDigit(s[i])
  }

  function DigitChar(d: nat): (c: char)
    requires d < 10
    ensures IsDigit(c)
  {
    (('0' as int) + d) as char
  }

  function DigitValue(c: char): (d: nat)
    requires IsDigit(c)
    ensures d < 10
  {
    (c as int) - ('0' as int)
  }

  /** The decimal text of a non-negative integer: at least one digit and no leading zero. */
  function NatToString(n: nat): (s: string)
    ensures |s| > 0
    ensures AllDigits(s)
    ensures s[0] == '0' ==> n == 0
    ensures n < 10 <==> |s| == 1
    decreases n
  {
    if n < 10 then [DigitChar(n)] else NatToString(n / 10) + [DigitChar(n % 10)]
  }

  /** The decimal text of an integer, with a leading `-` exactly for negative values. */
  function IntToString(i: int): (s: string)
    ensures |s| > 0
    ensures s[0] == '-' <==> i < 0
    ensures i >= 0 ==> AllDigits(s)
  {
    if i < 0 then "-" + NatToString(-i) else NatToString(i)
  }

  /** The value of a run of decimal digits, most significant first. */
  function DigitsValue(s: string): nat
    requires AllDigits(s)
  {
    if |s| == 0 then 0 else DigitsValue(s[..|s| - 1]) * 10 + DigitValue(s[|s| - 1])
  }

  /** Length of the longest prefix of `s` made of digits. */
  function DigitRun(s: string): (k: nat)
    ensures k <= |s|
    ensures AllDigits(s[..k])
    ensures k < |s| ==> !IsDigit(s[k])
  {
    if |s| == 0 || !IsDigit(s[0]) then 0
    else
      var k := 1 + DigitRun(s[1..]);
      assert s[..k] == [s[0]] + s[1..][..k - 1];
      k
  }

  /** Reads a non-negative decimal number from the front of `s`, returning it and what follows. */
  function ParseNat(s: string): Option<(nat, string)> {
    var k := DigitRun(s);
    if k == 0 then None else Some((DigitsValue(s[..k]), s[k..]))
  }

  /** Reads an optionally negative decimal number from the front of `s`. */
  function ParseInt(s: string): Option<(int, string)> {
    var negative := |s| > 0 && s[0] == '-';
    var parsed := ParseNat(if negative then s[1..] else s);
    if parsed.None? then None
    else
      var magnitude: int := parsed.value.0;
      Some((if negative then -magnitude else magnitude, parsed.value.1))
  }

  /** The digits of `NatToString(n)` evaluate back to `n`. */
  lemma {:induction false} DigitsValueOfNatToString(n: nat)
    ensures DigitsValue(NatToString(n)) == n
    decreases n
  {
    if n >= 10 {
      var s := NatToString(n);
      DigitsValueOfNatToString(n / 10);
      assert s[..|s| - 1] == NatToString(n / 10);
    }
  }

  /** A digit run stops exactly where a non-digit (or the end) follows. */
  lemma {:induction false} DigitRunOfDigitsThen(s: string, rest: string)
    requires AllDigits(s)
    requires rest == [] || !IsDigit(rest[0])
    ensures DigitRun(s + rest) == |s|
    decreases |s|
  {
    if |s| > 0 {
      assert (s + rest)[1..] == s[1..] + rest;
      DigitRunOfDigitsThen(s[1..], rest);
    }
  }

  /** Reading back the decimal text of `n` yields `n` and leaves the following text untouched. */
  lemma ParseNatRoundTrip(n: nat, rest: string)
    requires rest == [] || !IsDigit(rest[0])
    ensures ParseNat(NatToString(n) + rest) == Some((n, rest))
  {
    var s := NatToString(n);
    DigitRunOfDigitsThen(s, rest);
    assert (s + rest)[..|s|] == s;
    assert (s + rest)[|s|..] == rest;
    DigitsValueOfNatToString(n);
  }

  /** Reading back the decimal text of any integer yields that integer. */
  lemma ParseIntRoundTrip(i: int, rest: string)
    requires rest == [] || !IsDigit(rest[0])
    ensures ParseInt(IntToString(i) + rest) == Some((i, rest))
  {
    if i < 0 {
      NegativeRoundTrip(-i, rest);
    } else {
      NonNegativeRoundTrip(i, rest);
    }
  }

  lemma NegativeRoundTrip(n: nat, rest: string)
    requires rest == [] || !IsDigit(rest[0])
    ensures ParseInt("-" + NatToString(n) + rest) == Some((-(n as int), rest))
  {
    var t := NatToString(n) + rest;
    MinusThen(NatToString(n), rest);
    ParseNatRoundTrip(n, rest);
    assert ParseNat((['-'] + t)[1..]) == Some((n, rest));
  }

  lemma MinusThen(digits: string, rest: string)
    ensures "-" + digits + rest == ['-'] + (digits + rest)
    ensures (['-'] + (digits + rest))[1..] == digits + rest
  {
  }

  lemma NonNegativeRoundTrip(n: nat, rest: string)
    requires rest == [] || !IsDigit(rest[0])
    ensures ParseInt(NatToString(n) + rest) == Some((n, rest))
  {
    var digits := NatToString(n);
    assert (digits + rest)[0] == digits[0];
    ParseNatRoundTrip(n, rest);
  }

  /** Distinct integers have distinct decimal texts. */
  lemma IntToStringInjective(i: int, j: int)
    requires IntToString(i) == IntToString(j)
    ensures i == j
  {
    ParseIntRoundTrip(i, "");
    ParseIntRoundTrip(j, "");
    assert IntToString(i) + "" == IntToString(i);
    assert IntToString(j) + "" == IntToString(j);
  }
}

=== FILE: files_router.dfy ===
/**
 * The `/files` routes: upload a screenshot (optionally with camera
 * settings, which queues a preview request and its image generation),
 * list the uploads, and delete one.
 */
module FilesRouter {
  import opened Wrappers
  import opened Text
  import OrderedDict
  import opened Store
  import Decimal
  import GenerationService

  const NotAnImage: string := "File must be an image"
  const UploadFailedPrefix: string := "File upload failed: "
  const QueuedPrefix: string := "File uploaded, preview request created, and image generation started: "
  const UploadedPrefix: string := "File uploaded successfully: "

  /** The multipart upload; `content` is the read's outcome, an error text when reading fails. */
  datatype Upload = Upload(filename: string, contentType: Option<string>, content: Result<Bytes, string>)

  /** The optional form fields carrying camera settings. */
  datatype Form = Form(date: Option<string>, timeOfDay: Option<string>, focalLength: Option<int>, weather: Option<string>)

  /** The background job the upload schedules: the request's position, the stored file, the settings. */
  datatype Job = Job(requestIndex: int, file: UploadedFile, settings: map<string, string>)

  datatype UploadResponse = UploadResponse(success: bool, fileId: string, message: string, fileSize: int)

  /** A present and non-empty string, as Python's truthiness sees it. */
  predicate Given(s: Option<string>) {
    s.Some? && |s.value| > 0
  }

  /** A preview request is created only when date, hour and weather are non-empty and a focal length is sent (0 included). */
  predicate WantsPreview(form: Form) {
    Given(form.date) && Given(form.timeOfDay) && form.focalLength.Some? && Given(form.weather)
  }

  predicate IsImageType(contentType: Option<string>) {
    contentType.Some? && |contentType.value| > 0 && StartsWith(contentType.value, "image/")
  }

  /**
   * `upload_screenshot`, with the fresh file id and the clock as inputs.
   * The job's settings carry the focal length as the decimal text the
   * prompt renders it as.
   */
  function UploadScreenshot(db: Db, upload: Upload, form: Form, fileId: string, now: int)
    : (r: (Db, Result<UploadResponse, HttpError>, Option<Job>))
    ensures !IsImageType(upload.contentType) ==> r.0 == db && r.1 == Err(HttpError(400, NotAnImage)) && r.2.None?
    ensures IsImageType(upload.contentType) && upload.content.Err? ==>
      r.0 == db && r.1 == Err(HttpError(500, UploadFailedPrefix + upload.content.error)) && r.2.None?
    ensures IsImageType(upload.contentType) && upload.content.Ok? ==>
      && r.1.Ok? && r.1.value.success && r.1.value.fileId == fileId
      && r.1.value.fileSize == |upload.content.value|
      && r.1.value.message == (if WantsPreview(form) then QueuedPrefix else UploadedPrefix) + upload.filename
      && OrderedDict.Get(r.0.uploadedFiles, fileId) ==
           Some(UploadedFile(upload.filename, upload.contentType.value, upload.content.value, |upload.content.value|, now))
      && (forall k :: k != fileId ==> OrderedDict.Get(r.0.uploadedFiles, k) == OrderedDict.Get(db.uploadedFiles, k))
      && r.0.generatedImages == db.generatedImages
      && (r.2.Some? <==> WantsPreview(form))
      && (!WantsPreview(form) ==> r.0.previewRequests == db.previewRequests)
      && (WantsPreview(form) ==>
            && |r.0.previewRequests| == |db.previewRequests| + 1
            && r.0.previewRequests[..|db.previewRequests|] == db.previewRequests
            && r.2.value.requestIndex == |db.previewRequests|
            && r.0.previewRequests[r.2.value.requestIndex].status == Some(Pending)
            && r.0.previewRequests[r.2.value.requestIndex].screenshot == fileId
            && r.0.previewRequests[r.2.value.requestIndex].fileId == Some(fileId)
            && r.0.previewRequests[r.2.value.requestIndex].filename == Some(upload.filename)
            && r.0.previewRequests[r.2.value.requestIndex].uploadTime == Some(now)
            && r.0.previewRequests[r.2.value.requestIndex].cameraSettings ==
                 CameraSettings(form.date.value, form.timeOfDay.value, form.focalLength.value, form.weather.value)
            && r.2.value.file == OrderedDict.Get(r.0.uploadedFiles, fileId).value
            && r.2.value.settings.Keys == {"date", "timeOfDay", "focalLength", "weather"}
            && GenerationService.PromptArguments(r.2.value.settings) ==
                 GenerationService.PromptArgs(form.date.value, form.timeOfDay.value,
                   Decimal.IntToString(form.focalLength.value), form.weather.value))
  {
    if !IsImageType(upload.contentType) then
      (db, Err(HttpError(400, NotAnImage)), None)
    else
      match upload.content
      case Err(e) => (db, Err(HttpError(500, UploadFailedPrefix + e)), None)
      case Ok(bytes) =>
        var stored := UploadedFile(upload.filename, upload.contentType.value, bytes, |bytes|, now);
        var files := OrderedDict.Set(db.uploadedFiles, fileId, stored);
        OrderedDict.GetAfterSet(db.uploadedFiles, fileId, stored);
        OrderedDict.SetKeepsOthers(db.uploadedFiles, fileId, stored);
        var db1 := db.(uploadedFiles := files);
        if WantsPreview(form) then
          var (requests, job) := QueuePreview(db.previewRequests, form, fileId, upload.filename, stored, now);
          (db1.(previewRequests := requests),
           Ok(UploadResponse(true, fileId,
             QueuedPrefix + upload.filename, |bytes|)),
           Some(job))
        else
          (db1, Ok(UploadResponse(true, fileId, UploadedPrefix + upload.filename, |bytes|)), None)
  }

  /**
   * The preview half of an upload: a pending request for the stored file is
   * appended, and the job addresses it by its position.
   */
  function QueuePreview(requests: seq<PreviewRequest>, form: Form, fileId: string, filename: string, stored: UploadedFile, now: int)
    : (r: (seq<PreviewRequest>, Job))
    requires WantsPreview(form)
    ensures |r.0| == |requests| + 1 && r.0[..|requests|] == requests
    ensures r.1.requestIndex == |requests|
    ensures r.0[|requests|].status == Some(Pending) && r.0[|requests|].screenshot == fileId
    ensures r.0[|requests|].fileId == Some(fileId) && r.0[|requests|].filename == Some(filename)
    ensures r.0[|requests|].uploadTime == Some(now)
    ensures r.0[|requests|].cameraSettings ==
      CameraSettings(form.date.value, form.timeOfDay.value, form.focalLength.value, form.weather.value)
    ensures r.1.file == stored
    ensures r.1.settings.Keys == {"date", "timeOfDay", "focalLength", "weather"}
    ensures GenerationService.PromptArguments(r.1.settings) ==
      GenerationService.PromptArgs(form.date.value, form.timeOfDay.value,
        Decimal.IntToString(form.focalLength.value), form.weather.value)
  {
    var settings := CameraSettings(form.date.value, form.timeOfDay.value, form.focalLength.value, form.weather.value);
    var request := PreviewRequest(fileId, settings, Some(now), Some(fileId), Some(filename), None, None, Some(Pending), None);
    var dict := map["date" := settings.date, "timeOfDay" := settings.timeOfDay,
                    "focalLength" := Decimal.IntToString(settings.focalLength), "weather" := settings.weather];
    assert (requests + [request])[..|requests|] == requests;
    (requests + [request], Job(|requests|, stored, dict))
  }

  /** One listing entry; the bytes themselves are not listed. */
  datatype FileEntry = FileEntry(fileId: string, filename: string, size: int, contentType: string, uploadTime: int)

  datatype FileListing = FileListing(uploadedFiles: seq<FileEntry>, count: int)

  /** `get_uploaded_files`: one entry per stored file, in upload order, and their number. */
  function ListFiles(db: Db): (r: FileListing)
    ensures r.count == |r.uploadedFiles| == |db.uploadedFiles.entries|
    ensures forall i :: 0 <= i < |r.uploadedFiles| ==>
      var stored := db.uploadedFiles.entries[i].1;
      && r.uploadedFiles[i].fileId == db.uploadedFiles.entries[i].0
      && r.uploadedFiles[i].filename == stored.filename
      && r.uploadedFiles[i].size == stored.size
      && r.uploadedFiles[i].contentType == stored.contentType
      && r.uploadedFiles[i].uploadTime == stored.uploadTime
  {
    var es := db.uploadedFiles.entries;
    var entries := seq(|es|, i requires 0 <= i < |es| =>
      FileEntry(es[i].0, es[i].1.filename, es[i].1.size, es[i].1.contentType, es[i].1.uploadTime));
    FileListing(entries, |entries|)
  }

  /** `delete_uploaded_file`: a stored id is removed, any other id is a 404 and nothing changes. */
  function DeleteFile(db: Db, fileId: string): (r: (Db, Result<string, HttpError>))
    ensures !OrderedDict.HasKey(db.uploadedFiles, fileId) ==> r.0 == db && r.1 == Err(HttpError(404, "File not found"))
    ensures OrderedDict.HasKey(db.uploadedFiles, fileId) ==>
      && r.1.Ok?
      && r.0 == db.(uploadedFiles := OrderedDict.Remove(db.uploadedFiles, fileId))
      && !OrderedDict.HasKey(r.0.uploadedFiles, fileId)
  {
    match OrderedDict.Get(db.uploadedFiles, fileId)
    case None => (db, Err(HttpError(404, "File not found")))
    case Some(info) =>
      (db.(uploadedFiles := OrderedDict.Remove(db.uploadedFiles, fileId)), Ok("Deleted file: " + info.filename))
  }

  /** Deleting a stored upload shortens the listing by one and keeps every other upload. */
  lemma DeleteFileShrinksListing(db: Db, fileId: string, other: string)
    requires Store.Valid(db)
    requires OrderedDict.HasKey(db.uploadedFiles, fileId)
    ensures ListFiles(DeleteFile(db, fileId).0).count == ListFiles(db).count - 1
    ensures other != fileId ==>
      OrderedDict.Get(DeleteFile(db, fileId).0.uploadedFiles, other) == OrderedDict.Get(db.uploadedFiles, other)
  {
    OrderedDict.RemoveSize(db.uploadedFiles, fileId);
    OrderedDict.GetAfterRemove(db.uploadedFiles, fileId, other);
  }

  /** Deleting an upload leaves the uploads before and after it in place, in their order. */
  lemma DeleteFileKeepsOrder(db: Db, before: seq<(string, UploadedFile)>, file: UploadedFile, after: seq<(string, UploadedFile)>, fileId: string)
    requires Store.Valid(db)
    requires db.uploadedFiles.entries == before + [(fileId, file)] + after
    ensures DeleteFile(db, fileId).0.uploadedFiles.entries == before + after
  {
    assert db.uploadedFiles.entries[|before|].0 == fileId;
    UniqueAround(db.uploadedFiles.entries, before, (fileId, file), after);
    OrderedDict.RemoveMiddle(before, (fileId, file), after);
  }

  /** In a dict with unique keys, no entry around a given one shares its key. */
  lemma UniqueAround(es: seq<(string, UploadedFile)>, before: seq<(string, UploadedFile)>, e: (string, UploadedFile), after: seq<(string, UploadedFile)>)
    requires OrderedDict.Valid(OrderedDict.Dict(es))
    requires es == before + [e] + after
    ensures !OrderedDict.HasKey(OrderedDict.Dict(before), e.0)
    ensures !OrderedDict.HasKey(OrderedDict.Dict(after), e.0)
  {
    var n := |before|;
    assert es[n] == e;
    forall i | 0 <= i < |before|
      ensures before[i].0 != e.0
    {
      assert es[i] == before[i];
    }
    forall i | 0 <= i < |after|
      ensures after[i].0 != e.0
    {
      assert es[n + 1 + i] == after[i];
    }
  }
}

=== FILE: formatting.dfy ===
/**
 * `createFilename`: turns a free-text image description into a download
 * file name by lower-casing it, keeping only ASCII letters, digits and
 * whitespace, turning whitespace runs into single dashes, keeping the first
 * 50 characters and dropping trailing dashes.
 */
module Formatting {
  import opened Wrappers
  import opened Text

  const FallbackStem: string := "generated-image"
  const DefaultExtension: string := "png"
  const MaxStemLength: nat := 50

  /** The characters JavaScript's `\s` matches. */
  const Whitespace: set<char> := {
    ' ', '\t', '\n', '\U{B}', '\U{C}', '\r', '\U{A0}', '\U{1680}',
    '\U{2000}', '\U{2001}', '\U{2002}', '\U{2003}', '\U{2004}', '\U{2005}',
    '\U{2006}', '\U{2007}', '\U{2008}', '\U{2009}', '\U{200A}',
    '\U{2028}', '\U{2029}', '\U{202F}', '\U{205F}', '\U{3000}', '\U{FEFF}'}

  predicate IsSpace(c: char) {
    c in Whitespace
  }

  predicate IsLowerAlnum(c: char) {
    ('a' <= c <= 'z') || ('0' <= c <= '9')
  }

  /** What the character class `[a-z0-9\s]` keeps. */
  predicate Kept(c: char) {
    IsLowerAlnum(c) || IsSpace(c)
  }

  /** The characters a cleaned stem is made of. */
  predicate StemChar(c: char) {
    IsLowerAlnum(c) || c == '-'
  }

  /**
   * `toLowerCase` on one character, exact where the result can survive the
   * filter: ASCII capitals, dotted capital I (to `i` plus a combining dot)
   * and the Kelvin sign (to `k`). Every other character is kept as it is:
   * its real lower case is never an ASCII letter, digit or space, so the
   * filter treats both alike.
   */
  function LowerChar(c: char): (r: string)
    ensures 'A' <= c <= 'Z' ==> r == [c - 'A' + 'a']
    ensures forall i :: 0 <= i < |r| ==> !('A' <= r[i] <= 'Z')
  {
    if 'A' <= c <= 'Z' then [c - 'A' + 'a']
    else if c == '\U{130}' then ['i', '\U{307}']
    else if c == '\U{212A}' then ['k']
    else [c]
  }

  /**
   * `toLowerCase` on a text: each character lowered in place. Only the
   * dotted capital I lowers to two characters, so a text without it keeps
   * its length and is lowered character by character.
   */
  function Lower(s: string): (r: string)
    ensures forall i :: 0 <= i < |r| ==> !('A' <= r[i] <= 'Z')
    ensures (forall i :: 0 <= i < |s| ==> s[i] != '\U{130}') ==>
      |r| == |s| && forall i :: 0 <= i < |s| ==> [r[i]] == LowerChar(s[i])
    decreases |s|
  {
    if |s| == 0 then []
    else
      var rest := Lower(s[1..]);
      assert (forall i :: 0 <= i < |s| ==> s[i] != '\U{130}') ==> forall i :: 0 <= i < |s[1..]| ==> s[1..][i] != '\U{130}';
      LowerChar(s[0]) + rest
  }

  /** Lowering a text piece by piece gives the same text. */
  lemma {:induction false} LowerConcat(a: string, b: string)
    ensures Lower(a + b) == Lower(a) + Lower(b)
    decreases |a|
  {
    if |a| == 0 {
      assert a + b == b;
    } else {
      assert (a + b)[0] == a[0];
      assert (a + b)[1..] == a[1..] + b;
      LowerConcat(a[1..], b);
    }
  }

  /**
   * `.replace(/[^a-z0-9\s]/g, '')`: the kept characters, in order. A
   * character occurs in the result exactly when it occurs in the input and
   * the filter keeps it.
   */
  function KeepAllowed(s: string): (r: string)
    ensures |r| <= |s|
    ensures forall i :: 0 <= i < |r| ==> Kept(r[i])
    ensures forall c :: c in r <==> c in s && Kept(c)
    decreases |s|
  {
    if |s| == 0 then []
    else
      var rest := KeepAllowed(s[1..]);
      assert forall c :: c in s <==> c == s[0] || c in s[1..];
      if Kept(s[0]) then [s[0]] + rest else rest
  }

  /** Filtering a text piece by piece gives the same text: the kept characters keep their order. */
  lemma {:induction false} KeepAllowedConcat(a: string, b: string)
    ensures KeepAllowed(a + b) == KeepAllowed(a) + KeepAllowed(b)
    decreases |a|
  {
    if |a| == 0 {
      assert a + b == b;
    } else {
      assert (a + b)[0] == a[0];
      assert (a + b)[1..] == a[1..] + b;
      KeepAllowedConcat(a[1..], b);
    }
  }

  predicate NoDoubleDash(s: string) {
    forall i :: 0 <= i < |s| - 1 ==> !(s[i] == '-' && s[i + 1] == '-')
  }

  /** Whether `s` starts with a whitespace character that ends its run. */
  predicate EndsRun(s: string) {
    |s| > 0 && IsSpace(s[0]) && (|s| == 1 || !IsSpace(s[1]))
  }

  /**
   * Every maximal whitespace run replaced by one dash: `.replace(/\s+/g, '-')`.
   * A run's dash is written at its last character; the whitespace before it
   * contributes nothing.
   */
  function DashRun(s: string): string
    decreases |s|
  {
    if |s| == 0 then []
    else if IsSpace(s[0]) then (if EndsRun(s) then "-" else "") + DashRun(s[1..])
    else [s[0]] + DashRun(s[1..])
  }

  /**
   * `.replace(/\s+/g, '-')` on filtered text: every maximal whitespace run
   * becomes one dash. The result is made of stem characters only, starts
   * with a dash exactly when the input starts with whitespace, and never
   * holds two dashes in a row.
   */
  function Dashify(s: string): (r: string)
    requires forall i :: 0 <= i < |s| ==> Kept(s[i])
    ensures forall i :: 0 <= i < |r| ==> StemChar(r[i])
    ensures |r| > 0 <==> |s| > 0
    ensures |r| > 0 ==> (r[0] == '-' <==> IsSpace(s[0]))
    ensures NoDoubleDash(r)
  {
    DashRunShape(s);
    DashRun(s)
  }

  predicate AllSpaces(s: string) {
    forall i :: 0 <= i < |s| ==> IsSpace(s[i])
  }

  predicate AllKept(s: string) {
    forall i :: 0 <= i < |s| ==> Kept(s[i])
  }

  lemma {:induction false} DashRunShape(s: string)
    requires AllKept(s)
    ensures var r := DashRun(s);
      && (forall i :: 0 <= i < |r| ==> StemChar(r[i]))
      && (|r| > 0 <==> |s| > 0)
      && (|r| > 0 ==> (r[0] == '-' <==> IsSpace(s[0])))
      && NoDoubleDash(r)
    decreases |s|
  {
    if |s| > 0 {
      var r := DashRun(s);
      var t := s[1..];
      assert AllKept(t);
      DashRunShape(t);
      var tail := DashRun(t);
      assert |t| > 0 ==> t[0] == s[1];
      if IsSpace(s[0]) && !EndsRun(s) {
        assert r == tail;
      } else {
        var head := if IsSpace(s[0]) then '-' else s[0];
        assert r == [head] + tail;
        assert Kept(s[0]);
        assert head == '-' ==> tail == [] || tail[0] != '-';
        forall i | 0 <= i < |r| - 1
          ensures !(r[i] == '-' && r[i + 1] == '-')
        {
          if i > 0 {
            assert r[i] == tail[i - 1] && r[i + 1] == tail[i];
          }
        }
      }
    }
  }

  lemma AllKeptConcat(a: string, b: string)
    requires AllKept(a) && AllKept(b)
    ensures AllKept(a + b)
  {
    var ab := a + b;
    forall i | 0 <= i < |ab|
      ensures Kept(ab[i])
    {
      if i < |a| { assert ab[i] == a[i]; } else { assert ab[i] == b[i - |a|]; }
    }
  }

  /** Whether a cut between `a` and `b` falls outside every whitespace run. */
  predicate CutOutsideRun(a: string, b: string) {
    a == [] || b == [] || !IsSpace(a[|a| - 1]) || !IsSpace(b[0])
  }

  /**
   * Dashing a text piece by piece gives the same text, as long as the cut
   * does not fall inside a whitespace run.
   */
  lemma DashifyConcat(a: string, b: string)
    requires AllKept(a) && AllKept(b)
    requires CutOutsideRun(a, b)
    ensures AllKept(a + b)
    ensures Dashify(a + b) == Dashify(a) + Dashify(b)
  {
    AllKeptConcat(a, b);
    DashRunConcat(a, b);
  }

  lemma {:induction false} DashRunConcat(a: string, b: string)
    requires CutOutsideRun(a, b)
    ensures DashRun(a + b) == DashRun(a) + DashRun(b)
    decreases |a|
  {
    if |a| == 0 {
      assert a + b == b;
    } else {
      var t := a[1..];
      assert (a + b)[0] == a[0];
      assert (a + b)[1..] == t + b;
      if |a| == 1 {
        assert t + b == b;
        assert DashRun(t) == [];
        assert EndsRun(a + b) <==> EndsRun(a);
      } else {
        assert (a + b)[1] == a[1];
        assert EndsRun(a + b) <==> EndsRun(a);
        assert CutOutsideRun(t, b) by {
          assert t[|t| - 1] == a[|a| - 1];
        }
        DashRunConcat(t, b);
      }
    }
  }

  /** A whitespace run becomes exactly one dash. */
  lemma {:induction false} DashifySpaces(s: string)
    requires |s| > 0 && AllSpaces(s)
    ensures AllKept(s)
    ensures Dashify(s) == "-"
    decreases |s|
  {
    if |s| > 1 {
      assert AllSpaces(s[1..]);
      DashifySpaces(s[1..]);
      assert !EndsRun(s);
      assert DashRun(s) == "" + DashRun(s[1..]);
    } else {
      assert DashRun(s) == "-" + DashRun([]);
    }
  }

  /** A word without whitespace is kept as it is. */
  lemma {:induction false} DashifyWord(s: string)
    requires forall i :: 0 <= i < |s| ==> IsLowerAlnum(s[i])
    ensures AllKept(s)
    ensures Dashify(s) == s
    decreases |s|
  {
    if |s| > 0 {
      AlnumIsKept(s[0]);
      DashifyWord(s[1..]);
      assert [s[0]] + s[1..] == s;
    }
  }

  /** The longest prefix without trailing dashes: `.replace(/-+$/, '')`. */
  function TrimTrailingDashes(s: string): (r: string)
    ensures |r| <= |s| && r == s[..|r|]
    ensures r == [] || r[|r| - 1] != '-'
    ensures forall i :: |r| <= i < |s| ==> s[i] == '-'
    decreases |s|
  {
    if |s| > 0 && s[|s| - 1] == '-' then TrimTrailingDashes(s[..|s| - 1]) else s
  }

  /** The description lowered, filtered and dashed, before it is cut to length. */
  function Dashed(description: string): string {
    Dashify(KeepAllowed(Lower(description)))
  }

  /** Stem characters with no two dashes in a row. */
  predicate StemText(s: string) {
    (forall i :: 0 <= i < |s| ==> StemChar(s[i])) && NoDoubleDash(s)
  }

  lemma PrefixStemText(s: string, n: nat)
    requires StemText(s) && n <= |s|
    ensures StemText(s[..n])
  {
    var p := s[..n];
    assert forall i :: 0 <= i < |p| ==> p[i] == s[i];
  }

  /** The first `MaxStemLength` characters: `.substring(0, 50)`. */
  function Cut(s: string): (r: string)
    ensures |r| <= MaxStemLength && |r| <= |s| && r == s[..|r|]
    ensures |r| == MaxStemLength || r == s
  {
    if |s| <= MaxStemLength then s else s[..MaxStemLength]
  }

  /**
   * The cleaned stem before the fallback is applied: the longest prefix of
   * the first 50 dashed characters that does not end in a dash.
   */
  function Clean(description: string): (r: string)
    ensures |r| <= MaxStemLength && |r| <= |Dashed(description)|
    ensures r == Dashed(description)[..|r|]
    ensures forall i :: |r| <= i < |Dashed(description)| && i < MaxStemLength ==> Dashed(description)[i] == '-'
    ensures forall i :: 0 <= i < |r| ==> StemChar(r[i])
    ensures r == [] || r[|r| - 1] != '-'
    ensures NoDoubleDash(r)
  {
    var dashed := Dashed(description);
    var cut := Cut(dashed);
    var r := TrimTrailingDashes(cut);
    PrefixStemText(dashed, |cut|);
    PrefixStemText(cut, |r|);
    CleanPrefix(dashed, cut, r);
    r
  }

  lemma CleanPrefix(dashed: string, cut: string, r: string)
    requires cut == Cut(dashed) && |r| <= |cut| && r == cut[..|r|]
    requires forall i :: |r| <= i < |cut| ==> cut[i] == '-'
    ensures r == dashed[..|r|]
    ensures forall i :: |r| <= i < |dashed| && i < MaxStemLength ==> dashed[i] == '-'
  {
    forall i | |r| <= i < |dashed| && i < MaxStemLength
      ensures dashed[i] == '-'
    {
      assert cut[i] == dashed[i];
    }
  }

  /**
   * `createFilename`: the cleaned stem, or `generated-image` when the
   * description is absent or empty or cleans to nothing, then a dot and
   * the extension (`png` when none is passed).
   */
  function CreateFilename(description: Option<string>, extension: Option<string>): (name: string)
    ensures var ext := extension.GetOr(DefaultExtension);
      exists stem :: name == stem + "." + ext && |stem| > 0 && |stem| <= MaxStemLength &&
        (forall i :: 0 <= i < |stem| ==> StemChar(stem[i])) && stem[|stem| - 1] != '-' && NoDoubleDash(stem)
    ensures description.None? || description == Some("") ==> name == FallbackStem + "." + extension.GetOr(DefaultExtension)
    ensures description.Some? && |description.value| > 0 ==>
      name == (if Clean(description.value) == [] then FallbackStem else Clean(description.value)) + "." + extension.GetOr(DefaultExtension)
  {
    var ext := extension.GetOr(DefaultExtension);
    var stem :=
      if description.None? || |description.value| == 0 then FallbackStem
      else
        var cleaned := Clean(description.value);
        if |cleaned| > 0 then cleaned else FallbackStem;
    assert forall i :: 0 <= i < |FallbackStem| ==> StemChar(FallbackStem[i]);
    assert NoDoubleDash(FallbackStem);
    stem + "." + ext
  }

  /** A description that cleans to nothing, such as punctuation alone, falls back as well. */
  lemma NothingLeftFallsBack(description: string, extension: Option<string>)
    requires Clean(description) == []
    ensures CreateFilename(Some(description), extension) == FallbackStem + "." + extension.GetOr(DefaultExtension)
  {
  }

  // ---------------------------------------------------------------------
  // A reference case: a phrase of lower-case words

  /** Lower-case ASCII words separated by single spaces. */
  predicate Phrase(s: string) {
    && (forall i :: 0 <= i < |s| ==> IsLowerAlnum(s[i]) || s[i] == ' ')
    && (|s| > 0 ==> s[0] != ' ' && s[|s| - 1] != ' ')
    && (forall i :: 0 <= i < |s| - 1 ==> !(s[i] == ' ' && s[i + 1] == ' '))
  }

  /** The phrase with each space replaced by a dash. */
  function Hyphenate(s: string): (r: string)
    ensures |r| == |s|
    ensures forall i :: 0 <= i < |s| ==> r[i] == (if s[i] == ' ' then '-' else s[i])
  {
    seq(|s|, i requires 0 <= i < |s| => if s[i] == ' ' then '-' else s[i])
  }

  lemma {:induction false} LowerOfLowerAlnum(s: string)
    requires forall i :: 0 <= i < |s| ==> IsLowerAlnum(s[i]) || s[i] == ' '
    ensures Lower(s) == s
    decreases |s|
  {
    if |s| > 0 {
      LowerOfLowerAlnum(s[1..]);
      LowerCharKeeps(s[0]);
      assert Lower(s) == LowerChar(s[0]) + Lower(s[1..]);
      assert [s[0]] + s[1..] == s;
    }
  }

  lemma LowerCharKeeps(c: char)
    requires IsLowerAlnum(c) || c == ' '
    ensures LowerChar(c) == [c]
  {
  }

  lemma {:induction false} KeepAllowedOfKept(s: string)
    requires forall i :: 0 <= i < |s| ==> Kept(s[i])
    ensures KeepAllowed(s) == s
    decreases |s|
  {
    if |s| > 0 {
      KeepAllowedOfKept(s[1..]);
      assert [s[0]] + s[1..] == s;
    }
  }

  lemma AlnumIsKept(c: char)
    requires IsLowerAlnum(c)
    ensures !IsSpace(c) && Kept(c)
  {
  }

  /** Words and single spaces, not ending in a space: a phrase that may start with one space. */
  predicate SingleSpaced(s: string) {
    && (forall i :: 0 <= i < |s| ==> IsLowerAlnum(s[i]) || s[i] == ' ')
    && (|s| > 0 ==> s[|s| - 1] != ' ')
    && (forall i :: 1 <= i < |s| ==> !(s[i - 1] == ' ' && s[i] == ' '))
  }

  lemma SingleSpacedTail(s: string)
    requires SingleSpaced(s) && |s| > 0
    ensures SingleSpaced(s[1..])
    ensures s[0] == ' ' ==> |s| > 1 && IsLowerAlnum(s[1])
  {
    var t := s[1..];
    forall i | 1 <= i < |t|
      ensures !(t[i - 1] == ' ' && t[i] == ' ')
    {
      assert t[i - 1] == s[i] && t[i] == s[i + 1];
    }
  }

  lemma KeptSingleSpaced(s: string)
    requires SingleSpaced(s)
    ensures forall i :: 0 <= i < |s| ==> Kept(s[i])
  {
    forall i | 0 <= i < |s|
      ensures Kept(s[i])
    {
      if s[i] != ' ' {
        AlnumIsKept(s[i]);
      }
    }
  }

  /** Inside a phrase every space run has length one, so dashing is plain substitution. */
  lemma {:induction false} DashifySingleSpaced(s: string)
    requires SingleSpaced(s)
    ensures forall i :: 0 <= i < |s| ==> Kept(s[i])
    ensures Dashify(s) == Hyphenate(s)
    decreases |s|
  {
    KeptSingleSpaced(s);
    if |s| > 0 {
      SingleSpacedTail(s);
      DashifySingleSpaced(s[1..]);
      DashifyHead(s);
      HyphenateHead(s);
    }
  }

  /** One step of dashing a single-spaced text: its first character alone decides the first output. */
  lemma DashifyHead(s: string)
    requires SingleSpaced(s) && |s| > 0
    requires forall i :: 0 <= i < |s| ==> Kept(s[i])
    ensures Dashify(s) == [if s[0] == ' ' then '-' else s[0]] + Dashify(s[1..])
  {
    var t := s[1..];
    SingleSpacedTail(s);
    if s[0] == ' ' {
      AlnumIsKept(t[0]);
      assert EndsRun(s);
    } else {
      AlnumIsKept(s[0]);
    }
  }

  lemma HyphenateHead(s: string)
    requires |s| > 0
    ensures Hyphenate(s) == [if s[0] == ' ' then '-' else s[0]] + Hyphenate(s[1..])
  {
  }

  lemma TrimTrailingDashesNoDash(s: string)
    requires s == [] || s[|s| - 1] != '-'
    ensures TrimTrailingDashes(s) == s
  {
  }

  /** A phrase of at most 50 characters becomes its own hyphenated form. */
  lemma PhraseStem(s: string)
    requires Phrase(s) && |s| <= MaxStemLength
    ensures Clean(s) == Hyphenate(s)
  {
    var h := Hyphenate(s);
    PhraseIsSingleSpaced(s);
    LowerOfLowerAlnum(s);
    KeptSingleSpaced(s);
    KeepAllowedOfKept(s);
    DashifySingleSpaced(s);
    assert Dashed(s) == h;
    assert h == [] || h[|h| - 1] != '-' by {
      if |h| > 0 {
        assert h[|h| - 1] == (if s[|s| - 1] == ' ' then '-' else s[|s| - 1]);
      }
    }
    CleanWhenShort(s, h);
  }

  /** When the dashed text fits and does not end in a dash, `Clean` keeps all of it. */
  lemma CleanWhenShort(s: string, dashed: string)
    requires dashed == Dashed(s)
    requires |dashed| <= MaxStemLength
    requires dashed == [] || dashed[|dashed| - 1] != '-'
    ensures Clean(s) == dashed
  {
    TrimTrailingDashesNoDash(dashed);
  }

  lemma PhraseIsSingleSpaced(s: string)
    requires Phrase(s)
    ensures SingleSpaced(s)
  {
    forall i | 1 <= i < |s|
      ensures !(s[i - 1] == ' ' && s[i] == ' ')
    {
      assert 0 <= i - 1 < |s| - 1;
    }
  }
}

=== FILE: generation_router.dfy ===
/**
 * The `/preview-requests` routes and the background task that runs image
 * generation for a queued request and records the outcome on it.
 */
module GenerationRouter {
  import opened Wrappers
  import OrderedDict
  import opened Store
  import opened GenerationService
  import Decimal

  /** How the awaited service call ended: it returned a result (or None), or it raised. */
  datatype ServiceCall = Returned(result: Option<ServiceResult>) | Threw(message: string)

  const PngContentType: string := "image/png"
  const NoResultMessage: string := "Generation service returned None"
  const UnknownError: string := "Unknown error"

  /** The first step of the background task: the request is marked as generating. */
  function StartGeneration(db: Db, index: int): (r: Db)
    ensures r.uploadedFiles == db.uploadedFiles && r.generatedImages == db.generatedImages
    ensures |r.previewRequests| == |db.previewRequests|
    ensures 0 <= index < |db.previewRequests| ==>
      r.previewRequests[index] == db.previewRequests[index].(status := Some(Generating))
  {
    db.(previewRequests := UpdateRequest(db.previewRequests, index, (q: PreviewRequest) => q.(status := Some(Generating))))
  }

  /** A generated image is stored only when it carries data. */
  predicate HasImageData(image: Option<(string, Bytes)>) {
    image.Some? && |image.value.1| > 0
  }

  /** Whether the service call returned a generated result. */
  predicate Succeeded(call: ServiceCall) {
    call.Returned? && call.result.Some? && call.result.value.Generated?
  }

  /**
   * The request after the service's outcome is recorded on it. A success
   * names the image when it carries data and takes the description when it
   * is non-empty; a failure records its message and touches neither.
   */
  function Record(q: PreviewRequest, call: ServiceCall): (r: PreviewRequest)
    ensures r.screenshot == q.screenshot && r.cameraSettings == q.cameraSettings && r.fileId == q.fileId
    ensures r.filename == q.filename && r.uploadTime == q.uploadTime
    ensures r.status == Some(Completed) || r.status == Some(Failed)
    ensures r.status == Some(Completed) <==> Succeeded(call)
    ensures Succeeded(call) ==>
      var g := call.result.value;
      && r.generatedImageId == (if HasImageData(g.image) then Some(g.image.value.0) else q.generatedImageId)
      && r.generatedDescription == (if g.description.Some? && |g.description.value| > 0 then g.description else q.generatedDescription)
      && r.generationError == q.generationError
    ensures !Succeeded(call) ==>
      r.generatedImageId == q.generatedImageId && r.generatedDescription == q.generatedDescription
  {
    match call
    case Threw(message) => q.(status := Some(Failed), generationError := Some(message))
    case Returned(None) => q.(status := Some(Failed), generationError := Some(NoResultMessage))
    case Returned(Some(Failure(_, message, _))) => q.(status := Some(Failed), generationError := Some(message))
    case Returned(Some(Generated(image, description, _))) =>
      var q1 := if HasImageData(image) then q.(generatedImageId := Some(image.value.0)) else q;
      var q2 := if description.Some? && |description.value| > 0 then q1.(generatedDescription := description) else q1;
      q2.(status := Some(Completed))
  }

  /**
   * The generated-image table after the call: a success with image data
   * stores the bytes as PNG under the image id, with the service's
   * generation time and description and the request's position; every other
   * id keeps its image, and any other outcome changes nothing.
   */
  function RecordImage(images: OrderedDict.Dict<string, GeneratedImage>, index: int, call: ServiceCall)
    : (r: OrderedDict.Dict<string, GeneratedImage>)
    ensures !(Succeeded(call) && HasImageData(call.result.value.image)) ==> r == images
    ensures Succeeded(call) && HasImageData(call.result.value.image) ==>
      var g := call.result.value;
      && OrderedDict.Get(r, g.image.value.0) == Some(GeneratedImage(g.image.value.1, PngContentType, g.generationTime, index, g.description))
      && (forall k :: k != g.image.value.0 ==> OrderedDict.Get(r, k) == OrderedDict.Get(images, k))
      && (OrderedDict.Valid(images) ==> OrderedDict.Valid(r))
  {
    match call
    case Returned(Some(Generated(image, description, time))) =>
      if HasImageData(image) then
        var stored := GeneratedImage(image.value.1, PngContentType, time, index, description);
        OrderedDict.GetAfterSet(images, image.value.0, stored);
        OrderedDict.SetKeepsOthers(images, image.value.0, stored);
        OrderedDict.Set(images, image.value.0, stored)
      else images
    case _ => images
  }

  /**
   * `generate_image_background` for the request at `index`, as written: it
   * addresses the request by its position at the time it was queued. A
   * position past the end raises before anything is written.
   */
  function BackgroundAt(db: Db, index: int, call: ServiceCall): (r: Db)
    ensures !(0 <= index < |db.previewRequests|) ==> r == db
    ensures |r.previewRequests| == |db.previewRequests|
    ensures 0 <= index < |db.previewRequests| ==>
      && r.previewRequests[index] == Record(db.previewRequests[index].(status := Some(Generating)), call)
      && (forall j :: 0 <= j < |db.previewRequests| && j != index ==> r.previewRequests[j] == db.previewRequests[j])
      && r.generatedImages == RecordImage(db.generatedImages, index, call)
  {
    if !(0 <= index < |db.previewRequests|) then db
    else
      var started := StartGeneration(db, index);
      started.(
        previewRequests := UpdateRequest(started.previewRequests, index, (q: PreviewRequest) => Record(q, call)),
        generatedImages := RecordImage(db.generatedImages, index, call))
  }

  /**
   * The status machine: a queued request goes to `generating` first and
   * then to `completed` or `failed`; a successful image is stored as PNG
   * with the service's generation time and description, linked back to the
   * request, and the request names it and carries a non-empty description.
   */
  lemma BackgroundOutcome(db: Db, index: int, call: ServiceCall)
    requires 0 <= index < |db.previewRequests|
    ensures StartGeneration(db, index).previewRequests[index].status == Some(Generating)
    ensures var q := BackgroundAt(db, index, call).previewRequests[index];
      && (q.status == Some(Completed) || q.status == Some(Failed))
      && (call.Threw? ==> q.status == Some(Failed) && q.generationError == Some(call.message))
      && (call == Returned(None) ==> q.status == Some(Failed) && q.generationError == Some(NoResultMessage))
      && (call.Returned? && call.result.Some? && call.result.value.Failure? ==>
            q.status == Some(Failed) && q.generationError == Some(call.result.value.message))
    ensures Succeeded(call) ==>
      var d := call.result.value.description;
      var q := BackgroundAt(db, index, call).previewRequests[index];
      q.generatedDescription == (if d.Some? && |d.value| > 0 then d else db.previewRequests[index].generatedDescription)
    ensures !Succeeded(call) ==>
      var q := BackgroundAt(db, index, call).previewRequests[index];
      && q.generatedDescription == db.previewRequests[index].generatedDescription
      && q.generatedImageId == db.previewRequests[index].generatedImageId
      && BackgroundAt(db, index, call).generatedImages == db.generatedImages
    ensures Succeeded(call) && HasImageData(call.result.value.image) ==>
      var g := call.result.value;
      var id := g.image.value.0;
      var after := BackgroundAt(db, index, call);
      && after.previewRequests[index].generatedImageId == Some(id)
      && OrderedDict.Get(after.generatedImages, id).Some?
      && var image := OrderedDict.Get(after.generatedImages, id).value;
      && image.contentType == PngContentType
      && image.previewRequestIndex == index
      && image.data == g.image.value.1
      && image.generationTime == g.generationTime
      && image.description == g.description
  {
  }

  /** `create_preview_request`: append the posted request and return it unchanged. */
  function CreatePreviewRequest(db: Db, request: PreviewRequest): (r: (Db, PreviewRequest))
    ensures r.1 == request
    ensures r.0.previewRequests == db.previewRequests + [request]
    ensures r.0.uploadedFiles == db.uploadedFiles && r.0.generatedImages == db.generatedImages
  {
    (db.(previewRequests := db.previewRequests + [request]), request)
  }

  /** `delete_preview_request`: a position inside the list is removed; any other is a 404 and nothing changes. */
  function DeletePreviewRequest(db: Db, requestId: int): (r: (Db, Result<string, HttpError>))
    ensures !(0 <= requestId < |db.previewRequests|) ==> r.0 == db && r.1 == Err(HttpError(404, "Preview request not found"))
    ensures 0 <= requestId < |db.previewRequests| ==>
      && r.1.Ok?
      && r.0.previewRequests == db.previewRequests[..requestId] + db.previewRequests[requestId + 1..]
      && r.0.uploadedFiles == db.uploadedFiles && r.0.generatedImages == db.generatedImages
  {
    if 0 <= requestId < |db.previewRequests| then
      (db.(previewRequests := db.previewRequests[..requestId] + db.previewRequests[requestId + 1..]),
       Ok("Deleted preview request " + Decimal.IntToString(requestId)))
    else (db, Err(HttpError(404, "Preview request not found")))
  }

  /** Deleting the request just created restores the store. */
  lemma CreateThenDelete(db: Db, request: PreviewRequest)
    ensures DeletePreviewRequest(CreatePreviewRequest(db, request).0, |db.previewRequests|).0 == db
  {
    var created := CreatePreviewRequest(db, request).0;
    assert created.previewRequests[..|db.previewRequests|] == db.previewRequests;
    assert created.previewRequests[|db.previewRequests| + 1..] == [];
  }

  // ---------------------------------------------------------------------
  // A queued position goes stale when an earlier request is deleted

  /**
   * Three queued requests for files "a", "b" and "c"; the job for "b" was
   * given position 1. Deleting request 0 while "b" is generating moves "c"
   * into position 1, and the job then records its outcome on "c" while "b"
   * stays pending.
   */
  lemma StalePositionUpdatesWrongRequest(s: CameraSettings, call: ServiceCall)
    ensures var a := Queued("a", s);
      var b := Queued("b", s);
      var c := Queued("c", s);
      var db := Db(OrderedDict.Dict([]), [a, b, c], OrderedDict.Dict([]));
      var after := BackgroundAt(DeletePreviewRequest(db, 0).0, 1, call);
      && after.previewRequests[0] == b
      && after.previewRequests[1].fileId == Some("c")
      && after.previewRequests[1].status != Some(Pending)
  {
  }

  /** A request queued by an upload for the file `fileId`. */
  function Queued(fileId: string, s: CameraSettings): (q: PreviewRequest)
    ensures q.fileId == Some(fileId) && q.status == Some(Pending)
  {
    PreviewRequest(fileId, s, None, Some(fileId), None, None, None, Some(Pending), None)
  }

  /** The position of the first request made for `fileId`, if any. */
  function FindRequest(requests: seq<PreviewRequest>, fileId: string): (r: Option<nat>)
    ensures r.Some? ==> r.value < |requests| && requests[r.value].fileId == Some(fileId)
    ensures r.Some? ==> forall j :: 0 <= j < r.value ==> requests[j].fileId != Some(fileId)
    ensures r.None? ==> forall j :: 0 <= j < |requests| ==> requests[j].fileId != Some(fileId)
    decreases |requests|
  {
    if |requests| == 0 then None
    else if requests[0].fileId == Some(fileId) then Some(0)
    else
      match FindRequest(requests[1..], fileId)
      case None => None
      case Some(j) => Some(j + 1)
  }

  /**
   * The background task addressing its request by the uploaded file's id,
   * which deletions of other requests cannot change. The stored image
   * records the request's current position.
   */
  function BackgroundFor(db: Db, fileId: string, call: ServiceCall): (r: Db)
    ensures |r.previewRequests| == |db.previewRequests|
    ensures forall j :: 0 <= j < |db.previewRequests| && db.previewRequests[j].fileId != Some(fileId) ==>
      r.previewRequests[j] == db.previewRequests[j]
  {
    match FindRequest(db.previewRequests, fileId)
    case None => db
    case Some(index) => BackgroundAt(db, index, call)
  }

  /**
   * With no deletion in between, addressing the job by file id does exactly
   * what addressing it by its queue position does: an upload appends its
   * request last, under a fresh file id.
   */
  lemma UndisturbedJobsAgree(db: Db, fileId: string, call: ServiceCall)
    requires |db.previewRequests| > 0
    requires db.previewRequests[|db.previewRequests| - 1].fileId == Some(fileId)
    requires forall j :: 0 <= j < |db.previewRequests| - 1 ==> db.previewRequests[j].fileId != Some(fileId)
    ensures BackgroundFor(db, fileId, call) == BackgroundAt(db, |db.previewRequests| - 1, call)
  {
  }

  /**
   * Whatever other request is deleted meanwhile, the job for a file updates
   * that file's request and no request for another file.
   */
  lemma BackgroundForSurvivesDeletion(db: Db, deleted: int, fileId: string, call: ServiceCall)
    requires exists j :: 0 <= j < |db.previewRequests| && j != deleted && db.previewRequests[j].fileId == Some(fileId)
    ensures var mid := DeletePreviewRequest(db, deleted).0;
      var after := BackgroundFor(mid, fileId, call);
      && (forall j :: 0 <= j < |mid.previewRequests| && mid.previewRequests[j].fileId != Some(fileId) ==>
            after.previewRequests[j] == mid.previewRequests[j])
      && (exists j :: 0 <= j < |after.previewRequests| && after.previewRequests[j].fileId == Some(fileId) &&
            (after.previewRequests[j].status == Some(Completed) || after.previewRequests[j].status == Some(Failed)))
  {
    DeletionKeepsOtherRequests(db, deleted, fileId);
    BackgroundForFinishes(DeletePreviewRequest(db, deleted).0, fileId, call);
  }

  /** Deleting one request keeps every other request somewhere in the list. */
  lemma DeletionKeepsOtherRequests(db: Db, deleted: int, fileId: string)
    requires exists j :: 0 <= j < |db.previewRequests| && j != deleted && db.previewRequests[j].fileId == Some(fileId)
    ensures var mid := DeletePreviewRequest(db, deleted).0;
      exists k :: 0 <= k < |mid.previewRequests| && mid.previewRequests[k].fileId == Some(fileId)
  {
    var mid := DeletePreviewRequest(db, deleted).0;
    var j :| 0 <= j < |db.previewRequests| && j != deleted && db.previewRequests[j].fileId == Some(fileId);
    var k := if 0 <= deleted < j then j - 1 else j;
    assert mid.previewRequests[k] == db.previewRequests[j];
  }

  /** A job whose file still has a request finishes that request. */
  lemma BackgroundForFinishes(db: Db, fileId: string, call: ServiceCall)
    requires exists k :: 0 <= k < |db.previewRequests| && db.previewRequests[k].fileId == Some(fileId)
    ensures var after := BackgroundFor(db, fileId, call);
      exists j :: 0 <= j < |after.previewRequests| && after.previewRequests[j].fileId == Some(fileId) &&
        (after.previewRequests[j].status == Some(Completed) || after.previewRequests[j].status == Some(Failed))
  {
    var index := FindRequest(db.previewRequests, fileId).value;
    var after := BackgroundFor(db, fileId, call);
    assert after.previewRequests[index] == Record(db.previewRequests[index].(status := Some(Generating)), call);
  }
}

=== FILE: generation_service.dfy ===
/**
 * The image-generation service: it sends the screenshot and a prompt built
 * from the camera settings to the image model, folds the parts of the
 * model's answer into one result, and turns a raised error into a
 * classified failure record.
 */
module GenerationService {
  import opened Wrappers
  import opened Text
  import Decimal

  type Bytes = seq<bv8>

  /** One part of the model's answer: a text, inline image data, or neither. */
  datatype Part = Part(text: Option<string>, inlineData: Option<Bytes>)

  /** What the call to the model did: raised an error with this text, or answered with candidates. */
  datatype ApiOutcome = Raised(message: string) | Answered(candidates: seq<seq<Part>>)

  datatype ServiceResult =
    /** `image` pairs the fresh image id with the image bytes. */
    | Generated(image: Option<(string, Bytes)>, description: Option<string>, generationTime: int)
    | Failure(error: string, message: string, retryAfter: Option<int>)

  const RateLimit: string := "rate_limit"
  const QuotaExceeded: string := "quota_exceeded"
  const GenerationFailed: string := "generation_failed"
  const RetryAfterSeconds: int := 60

  /** The text of the error Python raises when the answer has no candidate. */
  const NoCandidateMessage: string := "list index out of range"

  /**
   * The failure record for a raised error. Lower-casing is ASCII only: the
   * two characters outside ASCII whose lower case is an ASCII letter (dotted
   * capital I and the Kelvin sign) yield letters that occur in neither
   * searched phrase, so the searches give the same answers.
   */
  function ClassifyError(message: string): (r: ServiceResult)
    ensures r.Failure?
    ensures r.error == RateLimit <==> Contains(message, "429") || Contains(AsciiLower(message), "resource exhausted")
    ensures r.error == QuotaExceeded <==> r.error != RateLimit && Contains(AsciiLower(message), "quota")
    ensures r.retryAfter.Some? <==> r.error == RateLimit
    ensures r.retryAfter.Some? ==> r.retryAfter.value == RetryAfterSeconds
    ensures r.error == RateLimit ==> r.message == "Rate limit exceeded, try again later"
    ensures r.error == QuotaExceeded ==> r.message == "API quota exceeded"
    ensures r.error == GenerationFailed ==> r.message == message
    ensures r.error == RateLimit || r.error == QuotaExceeded || r.error == GenerationFailed
  {
    var lower := AsciiLower(message);
    if Contains(message, "429") || Contains(lower, "resource exhausted") then
      Failure(RateLimit, "Rate limit exceeded, try again later", Some(RetryAfterSeconds))
    else if Contains(lower, "quota") then
      Failure(QuotaExceeded, "API quota exceeded", None)
    else
      Failure(GenerationFailed, message, None)
  }

  /** Upper-case letters in the error text do not hide a quota error. */
  lemma QuotaInAnyCase(message: string, i: nat)
    requires i + 5 <= |message|
    requires forall j :: 0 <= j < 5 ==> AsciiLowerChar(message[i + j]) == "quota"[j]
    requires ClassifyError(message).error != RateLimit
    ensures ClassifyError(message).error == QuotaExceeded
  {
    var lower := AsciiLower(message);
    assert lower[i..i + 5] == "quota";
    assert OccursAt(lower, "quota", i);
  }

  /** The text parts win: the last part carrying text, if any. */
  function LastText(parts: seq<Part>): (r: Option<string>)
    ensures r.Some? <==> exists j :: 0 <= j < |parts| && parts[j].text.Some?
    decreases |parts|
  {
    if |parts| == 0 then None
    else if parts[|parts| - 1].text.Some? then parts[|parts| - 1].text
    else LastText(parts[..|parts| - 1])
  }

  /** The position of the last part that carries an image and no text. */
  function LastImage(parts: seq<Part>): (r: Option<nat>)
    ensures r.Some? ==> r.value < |parts| && parts[r.value].text.None? && parts[r.value].inlineData.Some?
    ensures r.Some? ==> forall j :: r.value < j < |parts| ==> !(parts[j].text.None? && parts[j].inlineData.Some?)
    ensures r.None? ==> forall j :: 0 <= j < |parts| ==> !(parts[j].text.None? && parts[j].inlineData.Some?)
    decreases |parts|
  {
    if |parts| == 0 then None
    else if parts[|parts| - 1].text.None? && parts[|parts| - 1].inlineData.Some? then Some(|parts| - 1)
    else LastImage(parts[..|parts| - 1])
  }

  predicate HasContent(parts: seq<Part>) {
    exists j :: 0 <= j < |parts| && (parts[j].text.Some? || parts[j].inlineData.Some?)
  }

  /** The fields the loop over the answer's parts fills in. */
  datatype Aggregate = Aggregate(success: bool, imageData: Option<Bytes>, imageId: Option<string>, description: Option<string>)

  /**
   * The loop over the answer's parts: a part with text sets the
   * description, otherwise a part with inline data sets the image under a
   * fresh id (`idFor(j)` for part `j`); later parts overwrite earlier ones,
   * and any such part marks success.
   */
  method AggregateParts(parts: seq<Part>, idFor: nat -> string) returns (r: Aggregate)
    ensures r.success <==> HasContent(parts)
    ensures r.description == LastText(parts)
    ensures r.imageData.Some? <==> LastImage(parts).Some?
    ensures r.imageId.Some? <==> LastImage(parts).Some?
    ensures LastImage(parts).Some? ==>
      r.imageData == parts[LastImage(parts).value].inlineData && r.imageId == Some(idFor(LastImage(parts).value))
  {
    r := Aggregate(false, None, None, None);
    var i := 0;
    while i < |parts|
      invariant 0 <= i <= |parts|
      invariant r.success <==> HasContent(parts[..i])
      invariant r.description == LastText(parts[..i])
      invariant r.imageData.Some? <==> LastImage(parts[..i]).Some?
      invariant r.imageId.Some? <==> LastImage(parts[..i]).Some?
      invariant LastImage(parts[..i]).Some? ==>
        r.imageData == parts[LastImage(parts[..i]).value].inlineData &&
        r.imageId == Some(idFor(LastImage(parts[..i]).value))
    {
      var part := parts[i];
      assert parts[..i + 1][..i] == parts[..i];
      assert parts[..i + 1][i] == part;
      if part.text.Some? {
        r := r.(description := part.text, success := true);
      } else if part.inlineData.Some? {
        r := r.(imageData := part.inlineData, imageId := Some(idFor(i)), success := true);
      }
      i := i + 1;
    }
    assert parts[..i] == parts;
  }

  /**
   * `generate_image_from_screenshot`, given what the model call did: a
   * raised error becomes its classified failure, an answer with content
   * becomes `Generated`, and an answer without content gives None.
   */
  method GenerateImage(outcome: ApiOutcome, idFor: nat -> string, now: int) returns (r: Option<ServiceResult>)
    ensures outcome.Raised? ==> r == Some(ClassifyError(outcome.message))
    ensures outcome.Answered? && |outcome.candidates| == 0 ==> r == Some(ClassifyError(NoCandidateMessage))
    ensures outcome.Answered? && |outcome.candidates| > 0 ==>
      (r.Some? <==> HasContent(outcome.candidates[0])) &&
      (r.Some? ==>
        && r.value.Generated? && r.value.description == LastText(outcome.candidates[0]) && r.value.generationTime == now
        && (r.value.image.Some? <==> LastImage(outcome.candidates[0]).Some?)
        && (r.value.image.Some? ==>
              var j := LastImage(outcome.candidates[0]).value;
              r.value.image.value == (idFor(j), outcome.candidates[0][j].inlineData.value)))
  {
    match outcome
    case Raised(message) =>
      r := Some(ClassifyError(message));
    case Answered(candidates) =>
      if |candidates| == 0 {
        r := Some(ClassifyError(NoCandidateMessage));
      } else {
        var agg := AggregateParts(candidates[0], idFor);
        if agg.success {
          var image := if agg.imageData.Some? && agg.imageId.Some? then Some((agg.imageId.value, agg.imageData.value)) else None;
          r := Some(Generated(image, agg.description, now));
        } else {
          r := None;
        }
      }
  }

  /** A needle with a character the text lacks does not occur in it. */
  lemma AbsentChar(s: string, needle: string, k: nat)
    requires k < |needle|
    requires forall i :: 0 <= i < |s| ==> s[i] != needle[k]
    ensures !Contains(s, needle)
  {
  }

  /** Lower-casing cannot introduce a lower-case letter whose capital is also absent. */
  lemma LowerAbsent(s: string, c: char)
    requires 'a' <= c <= 'z'
    requires forall i :: 0 <= i < |s| ==> s[i] != c && s[i] != (c as int - 32) as char
    ensures forall i :: 0 <= i < |AsciiLower(s)| ==> AsciiLower(s)[i] != c
  {
  }

  lemma NoCandidateLacks()
    ensures forall i :: 0 <= i < |NoCandidateMessage| ==>
      NoCandidateMessage[i] !in {'4', 'h', 'H', 'q', 'Q'}
  {
  }

  /** An error text without a `4`, an `h` or a `q` in either case is an ordinary generation failure. */
  lemma PlainFailure(m: string)
    requires forall i :: 0 <= i < |m| ==> m[i] !in {'4', 'h', 'H', 'q', 'Q'}
    ensures ClassifyError(m) == Failure(GenerationFailed, m, None)
  {
    AbsentChar(m, "429", 0);
    LowerAbsent(m, 'h');
    AbsentChar(AsciiLower(m), "resource exhausted", 11);
    LowerAbsent(m, 'q');
    AbsentChar(AsciiLower(m), "quota", 0);
  }

  /** An answer without candidates fails with Python's index error text. */
  lemma NoCandidateIsGenerationFailure()
    ensures ClassifyError(NoCandidateMessage) == Failure(GenerationFailed, NoCandidateMessage, None)
  {
    NoCandidateLacks();
    PlainFailure(NoCandidateMessage);
  }

  // ---------------------------------------------------------------------
  // The prompt and the saved file

  /** The four values substituted into the prompt template. */
  datatype PromptArgs = PromptArgs(date: string, timeOfDay: string, focalLength: string, weather: string)

  const DefaultDate: string := "2024-12-15"
  const DefaultTimeOfDay: string := "12"
  const DefaultFocalLength: string := "50"
  const DefaultWeather: string := "clear"

  function Lookup(settings: map<string, string>, key: string, default: string): (v: string)
    ensures key in settings ==> v == settings[key]
    ensures key !in settings ==> v == default
  {
    if key in settings then settings[key] else default
  }

  /** Each camera key fills its slot when present and falls back to its default when absent. */
  function PromptArguments(settings: map<string, string>): (a: PromptArgs)
    ensures a.date == Lookup(settings, "date", DefaultDate)
    ensures a.timeOfDay == Lookup(settings, "timeOfDay", DefaultTimeOfDay)
    ensures a.focalLength == Lookup(settings, "focalLength", DefaultFocalLength)
    ensures a.weather == Lookup(settings, "weather", DefaultWeather)
  {
    PromptArgs(
      Lookup(settings, "date", DefaultDate),
      Lookup(settings, "timeOfDay", DefaultTimeOfDay),
      Lookup(settings, "focalLength", DefaultFocalLength),
      Lookup(settings, "weather", DefaultWeather))
  }

  /** With no settings at all the prompt asks for noon on 2024-12-15, 50 mm, clear sky. */
  lemma EmptySettingsDefaults()
    ensures PromptArguments(map[]) == PromptArgs("2024-12-15", "12", "50", "clear")
  {
  }

  const FilenamePrefix: string := "generated_"
  const FilenameSuffix: string := ".png"

  /** `generated_{id}_{timestamp}.png`, the timestamp in whole seconds. */
  function SavedFilename(imageId: string, timestamp: int): string {
    FilenamePrefix + imageId + "_" + Decimal.IntToString(timestamp) + FilenameSuffix
  }

  /** The position of the first `_`, or the length when there is none. */
  function FirstUnderscore(s: string): (k: nat)
    ensures k <= |s|
    ensures forall j :: 0 <= j < k ==> s[j] != '_'
    ensures k < |s| ==> s[k] == '_'
    decreases |s|
  {
    if |s| == 0 || s[0] == '_' then 0 else 1 + FirstUnderscore(s[1..])
  }

  /** Reads an image id and timestamp back out of a saved file name. */
  function ParseSavedFilename(name: string): Option<(string, int)> {
    if !StartsWith(name, FilenamePrefix) then None
    else ParseIdAndTimestamp(name[|FilenamePrefix|..])
  }

  /** The part after the prefix: the id up to the first `_`, then the timestamp, then the suffix. */
  function ParseIdAndTimestamp(rest: string): Option<(string, int)> {
    var k := FirstUnderscore(rest);
    if k == |rest| then None
    else
      match Decimal.ParseInt(rest[k + 1..])
      case Some((t, tail)) => if tail == FilenameSuffix then Some((rest[..k], t)) else None
      case None => None
  }

  /** For an id without underscores (a UUID, say) the file name gives back both the id and the timestamp. */
  lemma SavedFilenameRoundTrip(imageId: string, timestamp: int)
    requires forall j :: 0 <= j < |imageId| ==> imageId[j] != '_'
    ensures ParseSavedFilename(SavedFilename(imageId, timestamp)) == Some((imageId, timestamp))
  {
    var rest := imageId + "_" + Decimal.IntToString(timestamp) + FilenameSuffix;
    assert SavedFilename(imageId, timestamp) == FilenamePrefix + rest;
    PrefixStripped(rest);
    IdAndTimestampRoundTrip(imageId, timestamp);
  }

  lemma PrefixStripped(rest: string)
    ensures ParseSavedFilename(FilenamePrefix + rest) == ParseIdAndTimestamp(rest)
  {
    var name := FilenamePrefix + rest;
    assert name[..|FilenamePrefix|] == FilenamePrefix;
    assert name[|FilenamePrefix|..] == rest;
  }

  lemma IdAndTimestampRoundTrip(imageId: string, timestamp: int)
    requires forall j :: 0 <= j < |imageId| ==> imageId[j] != '_'
    ensures ParseIdAndTimestamp(imageId + "_" + Decimal.IntToString(timestamp) + FilenameSuffix) == Some((imageId, timestamp))
  {
    var ts := Decimal.IntToString(timestamp);
    var rest := imageId + "_" + ts + FilenameSuffix;
    assert rest == imageId + "_" + (ts + FilenameSuffix);
    FirstUnderscoreAt(imageId, ts + FilenameSuffix);
    assert rest[..|imageId|] == imageId;
    assert rest[|imageId| + 1..] == ts + FilenameSuffix;
    Decimal.ParseIntRoundTrip(timestamp, FilenameSuffix);
  }

  lemma {:induction false} FirstUnderscoreAt(a: string, b: string)
    requires forall j :: 0 <= j < |a| ==> a[j] != '_'
    ensures FirstUnderscore(a + "_" + b) == |a|
    decreases |a|
  {
    if |a| > 0 {
      assert (a + "_" + b)[1..] == a[1..] + "_" + b;
      FirstUnderscoreAt(a[1..], b);
    }
  }
}

=== FILE: geo_session.dfy ===
/**
 * The map view's drawing session: the selected tool, colour and marker size,
 * the annotation list, and the freehand path being drawn. Each map or
 * toolbar event is a pure transition on this record; the annotation list is
 * kept in local storage and re-projected to the screen on every render.
 */
module GeoSession {
  import opened Wrappers
  import opened Geometry
  import opened MapAnnotations
  import MapToolbar
  import RangeInput
  import Decimal

  type Tool = MapToolbar.Tool

  datatype Session = Session(
    selectedTool: Tool,
    selectedColor: string,
    markerSize: int,
    annotations: seq<GeoAnnotation>,
    isDrawing: bool,
    currentPath: seq<LngLat>)

  /** Local storage, reduced to the annotation lists it holds under each key. */
  type Storage = map<string, seq<GeoAnnotation>>

  const StorageKey: string := "scout-annotations"
  const DefaultColor: string := "#007bff"
  const DefaultMarkerSize: int := 20

  /** The saved annotation list, or the empty list when nothing is saved. */
  function Load(storage: Storage): seq<GeoAnnotation> {
    if StorageKey in storage then storage[StorageKey] else []
  }

  /** Writes the annotation list under the storage key. */
  function Save(storage: Storage, annotations: seq<GeoAnnotation>): Storage {
    storage[StorageKey := annotations]
  }

  /** What is saved is what is loaded back, and no other key is touched. */
  lemma SaveThenLoad(storage: Storage, annotations: seq<GeoAnnotation>)
    ensures Load(Save(storage, annotations)) == annotations
    ensures forall k :: k in storage && k != StorageKey ==> k in Save(storage, annotations) && Save(storage, annotations)[k] == storage[k]
  {
  }

  /** The session when the view mounts: select tool, default style, saved annotations, not drawing. */
  function Init(storage: Storage): (s: Session)
    ensures s.annotations == Load(storage)
    ensures StorageKey !in storage ==> s.annotations == []
    ensures s.selectedTool == MapToolbar.SelectTool && !s.isDrawing && s.currentPath == []
    ensures s.selectedColor == DefaultColor && s.markerSize == DefaultMarkerSize
  {
    Session(MapToolbar.SelectTool, DefaultColor, DefaultMarkerSize, Load(storage), false, [])
  }

  /** Annotation ids are the decimal text of the millisecond clock. */
  function NewId(now: nat): string {
    Decimal.NatToString(now)
  }

  /** The pin a click at `at` drops with the session's current style. */
  function NewPin(s: Session, at: LngLat, now: nat): GeoAnnotation {
    Pin(NewId(now), s.selectedColor, s.markerSize as real, at)
  }

  /** `handleMapClick`: with the pin tool, append one pin; with any other tool, nothing. */
  function Click(s: Session, at: LngLat, now: nat): (r: Session)
    ensures s.selectedTool != MapToolbar.PinTool ==> r == s
    ensures s.selectedTool == MapToolbar.PinTool ==>
      && |r.annotations| == |s.annotations| + 1
      && r.annotations[..|s.annotations|] == s.annotations
      && r.annotations[|s.annotations|] == Pin(NewId(now), s.selectedColor, s.markerSize as real, at)
      && r == s.(annotations := r.annotations)
  {
    if s.selectedTool == MapToolbar.PinTool then
      s.(annotations := s.annotations + [NewPin(s, at, now)])
    else s
  }

  /** `handleMouseDown`: the pen starts a path at the cursor; other tools do nothing. */
  function MouseDown(s: Session, at: LngLat): (r: Session)
    ensures s.selectedTool == MapToolbar.PenTool ==>
      r.isDrawing && r.currentPath == [at] && r.annotations == s.annotations && r.selectedTool == s.selectedTool
    ensures s.selectedTool != MapToolbar.PenTool ==> r == s
  {
    if s.selectedTool == MapToolbar.PenTool then s.(isDrawing := true, currentPath := [at]) else s
  }

  /** `handleMouseMove`: while drawing with the pen, the cursor is appended to the path. */
  function MouseMove(s: Session, at: LngLat): (r: Session)
    ensures s.isDrawing && s.selectedTool == MapToolbar.PenTool ==>
      r.currentPath == s.currentPath + [at] && r == s.(currentPath := r.currentPath)
    ensures !(s.isDrawing && s.selectedTool == MapToolbar.PenTool) ==> r == s
  {
    if s.isDrawing && s.selectedTool == MapToolbar.PenTool then s.(currentPath := s.currentPath + [at]) else s
  }

  /** Whether releasing the mouse button commits the path being drawn. */
  predicate CommitsPath(s: Session) {
    s.isDrawing && s.selectedTool == MapToolbar.PenTool && |s.currentPath| > 1
  }

  /**
   * `handleMouseUp`: commit the path being drawn iff drawing with the pen
   * and it has more than one point, stroked at `max(2, markerSize / 4)`;
   * in every case stop drawing and clear the path.
   */
  function MouseUp(s: Session, now: nat): (r: Session)
    ensures !r.isDrawing && r.currentPath == []
    ensures r.selectedTool == s.selectedTool && r.selectedColor == s.selectedColor && r.markerSize == s.markerSize
    ensures CommitsPath(s) ==>
      r.annotations == s.annotations + [Path(NewId(now), s.selectedColor, StrokeWidth(s.markerSize), s.currentPath)]
    ensures !CommitsPath(s) ==> r.annotations == s.annotations
  {
    var annotations :=
      if CommitsPath(s) then
        s.annotations + [Path(NewId(now), s.selectedColor, StrokeWidth(s.markerSize), s.currentPath)]
      else s.annotations;
    s.(annotations := annotations, isDrawing := false, currentPath := [])
  }

  /** `handleToolChange`: switch tools and drop any path in progress; annotations stay. */
  function ToolChange(s: Session, tool: Tool): (r: Session)
    ensures r.selectedTool == tool && !r.isDrawing && r.currentPath == []
    ensures r.annotations == s.annotations
    ensures r.selectedColor == s.selectedColor && r.markerSize == s.markerSize
  {
    s.(selectedTool := tool, isDrawing := false, currentPath := [])
  }

  /** `handleClearAnnotations`: no annotations and no path in progress; the tool stays. */
  function ClearAll(s: Session): (r: Session)
    ensures r.annotations == [] && !r.isDrawing && r.currentPath == []
    ensures r.selectedTool == s.selectedTool
  {
    s.(annotations := [], isDrawing := false, currentPath := [])
  }

  /** The annotations whose id differs from `id`, in their original order. */
  function WithoutId(annotations: seq<GeoAnnotation>, id: string): (r: seq<GeoAnnotation>)
    ensures forall a :: a in r <==> a in annotations && a.id != id
    ensures |r| <= |annotations|
    decreases |annotations|
  {
    if |annotations| == 0 then []
    else
      var rest := WithoutId(annotations[1..], id);
      assert forall a :: a in annotations <==> a == annotations[0] || a in annotations[1..];
      if annotations[0].id == id then rest else [annotations[0]] + rest
  }

  /** Removal distributes over concatenation: the survivors keep their relative order. */
  lemma {:induction false} WithoutIdConcat(a: seq<GeoAnnotation>, b: seq<GeoAnnotation>, id: string)
    ensures WithoutId(a + b, id) == WithoutId(a, id) + WithoutId(b, id)
    decreases |a|
  {
    if |a| == 0 {
      assert a + b == b;
    } else {
      assert (a + b)[0] == a[0];
      assert (a + b)[1..] == a[1..] + b;
      WithoutIdConcat(a[1..], b, id);
    }
  }

  /** Removing an id that no annotation carries changes nothing. */
  lemma {:induction false} WithoutAbsentId(annotations: seq<GeoAnnotation>, id: string)
    requires forall i :: 0 <= i < |annotations| ==> annotations[i].id != id
    ensures WithoutId(annotations, id) == annotations
    decreases |annotations|
  {
    if |annotations| > 0 {
      WithoutAbsentId(annotations[1..], id);
      assert [annotations[0]] + annotations[1..] == annotations;
    }
  }

  /** `handleRemoveAnnotation`: keep exactly the annotations with a different id. */
  function Remove(s: Session, id: string): (r: Session)
    ensures r.annotations == WithoutId(s.annotations, id)
    ensures forall a :: a in r.annotations ==> a.id != id
    ensures r == s.(annotations := r.annotations)
  {
    s.(annotations := WithoutId(s.annotations, id))
  }

  /** Every event the map view reacts to, from the map or from its toolbar. */
  datatype Event =
    | MapClick(at: LngLat, now: nat)
    | PointerDown(at: LngLat)
    | PointerMove(at: LngLat)
    | PointerUp(now: nat)
    | SelectTool(tool: Tool)
    | SelectColor(color: string)
    | SelectMarkerSize(size: int)
    | ClearAnnotations
    | RemoveAnnotation(id: string)

  /**
   * Dispatches one event to its handler. Only a click, a release, clearing
   * and removal touch the annotation list; picking a colour or a size
   * changes that setting alone.
   */
  function Step(s: Session, e: Event): (r: Session)
    ensures !(e.MapClick? || e.PointerUp? || e.ClearAnnotations? || e.RemoveAnnotation?) ==> r.annotations == s.annotations
    ensures e.SelectColor? ==> r == s.(selectedColor := e.color)
    ensures e.SelectMarkerSize? ==> r == s.(markerSize := e.size)
    ensures e.MapClick? || e.RemoveAnnotation? ==> r.isDrawing == s.isDrawing && r.currentPath == s.currentPath
  {
    match e
    case MapClick(at, now) => Click(s, at, now)
    case PointerDown(at) => MouseDown(s, at)
    case PointerMove(at) => MouseMove(s, at)
    case PointerUp(now) => MouseUp(s, now)
    case SelectTool(tool) => ToolChange(s, tool)
    case SelectColor(color) => s.(selectedColor := color)
    case SelectMarkerSize(size) => s.(markerSize := size)
    case ClearAnnotations => ClearAll(s)
    case RemoveAnnotation(id) => Remove(s, id)
  }

  /**
   * The session's consistency: a path is in progress only while drawing with
   * the pen, and then it holds at least the starting point; every stored path
   * has at least two points.
   */
  predicate Consistent(s: Session) {
    && (s.isDrawing ==> s.selectedTool == MapToolbar.PenTool && |s.currentPath| >= 1)
    && (!s.isDrawing ==> s.currentPath == [])
    && PathsHaveTwoPoints(s.annotations)
  }

  predicate PathsHaveTwoPoints(annotations: seq<GeoAnnotation>) {
    forall i :: 0 <= i < |annotations| && annotations[i].Path? ==> |annotations[i].path| >= 2
  }

  /** A freshly mounted session is consistent when the saved list is. */
  lemma InitConsistent(storage: Storage)
    requires PathsHaveTwoPoints(Load(storage))
    ensures Consistent(Init(storage))
  {
  }

  lemma {:induction false} WithoutIdKeepsPaths(annotations: seq<GeoAnnotation>, id: string)
    requires PathsHaveTwoPoints(annotations)
    ensures PathsHaveTwoPoints(WithoutId(annotations, id))
  {
    var r := WithoutId(annotations, id);
    forall i | 0 <= i < |r| && r[i].Path?
      ensures |r[i].path| >= 2
    {
      assert r[i] in annotations;
    }
  }

  /** Every event keeps the session consistent: no path with fewer than two points is ever stored. */
  lemma StepKeepsConsistent(s: Session, e: Event)
    requires Consistent(s)
    ensures Consistent(Step(s, e))
  {
    match e
    case RemoveAnnotation(id) => WithoutIdKeepsPaths(s.annotations, id);
    case MapClick(at, now) =>
    case PointerDown(at) =>
    case PointerMove(at) =>
    case PointerUp(now) =>
    case SelectTool(tool) =>
    case SelectColor(color) =>
    case SelectMarkerSize(size) =>
    case ClearAnnotations =>
  }

  /** The state of local storage after an event: the whole list is written on every change. */
  function Persist(storage: Storage, s: Session): Storage {
    Save(storage, s.annotations)
  }

  /** Reloading right after any event restores exactly the list that event produced. */
  lemma ReloadAfterStep(storage: Storage, s: Session, e: Event)
    ensures Init(Persist(storage, Step(s, e))).annotations == Step(s, e).annotations
  {
    SaveThenLoad(storage, Step(s, e).annotations);
  }

  /** The map view's handler for a request from its toolbar. */
  function Apply(s: Session, request: MapToolbar.Request): Session {
    match request
    case ToolChange(tool) => Step(s, SelectTool(tool))
    case ColorChange(color) => Step(s, SelectColor(color))
    case MarkerSizeChange(size) => Step(s, SelectMarkerSize(size))
    case ClearAll => Step(s, ClearAnnotations)
  }

  function ApplyAll(s: Session, requests: seq<MapToolbar.Request>): Session
    decreases |requests|
  {
    if |requests| == 0 then s else ApplyAll(Apply(s, requests[0]), requests[1..])
  }

  /** The style new annotations get is one the toolbar offers: a palette colour and a slider size. */
  predicate Styled(s: Session) {
    s.selectedColor in MapToolbar.Palette && RangeInput.Within(MapToolbar.SizeSlider, s.markerSize)
  }

  lemma InitStyled(storage: Storage)
    ensures Styled(Init(storage))
  {
  }

  /**
   * Whatever the user does on the toolbar, the requests it hands over leave
   * the session styled; map events never touch the style.
   */
  lemma ToolbarKeepsStyle(s: Session, t: MapToolbar.Toolbar, a: MapToolbar.Action)
    requires Styled(s)
    requires a.ClickColor? ==> a.color in MapToolbar.Palette
    ensures Styled(ApplyAll(s, MapToolbar.Handle(t, a).1))
  {
    var requests := MapToolbar.Handle(t, a).1;
    if |requests| > 0 {
      assert requests == [requests[0]];
      assert ApplyAll(s, requests) == Apply(s, requests[0]);
    }
  }

  lemma MapEventsKeepStyle(s: Session, e: Event)
    requires Styled(s)
    requires !e.SelectColor? && !e.SelectMarkerSize?
    ensures Styled(Step(s, e))
    ensures Step(s, e).selectedColor == s.selectedColor && Step(s, e).markerSize == s.markerSize
  {
  }

  // ---------------------------------------------------------------------
  // Rendering

  /**
   * `getScreenPosition` for every point of a path, dropping those with no
   * position: the projections that exist, in path order.
   */
  function Resolve(proj: Projector, path: seq<LngLat>): (r: seq<Point>)
    ensures |r| <= |path|
    ensures forall q :: q in r ==> exists j :: 0 <= j < |path| && proj(path[j]) == Some(q)
    ensures (forall j :: 0 <= j < |path| ==> proj(path[j]).Some?) ==>
      |r| == |path| && forall j :: 0 <= j < |path| ==> proj(path[j]) == Some(r[j])
    decreases |path|
  {
    if |path| == 0 then []
    else
      var rest := Resolve(proj, path[1..]);
      assert forall q :: q in rest ==> exists j :: 0 <= j < |path| && proj(path[j]) == Some(q) by {
        forall q | q in rest
          ensures exists j :: 0 <= j < |path| && proj(path[j]) == Some(q)
        {
          var j :| 0 <= j < |path[1..]| && proj(path[1..][j]) == Some(q);
          assert proj(path[j + 1]) == Some(q);
        }
      }
      match proj(path[0])
      case None => rest
      case Some(q) =>
        assert (forall j :: 0 <= j < |path| ==> proj(path[j]).Some?) ==>
          forall j :: 0 <= j < |path| ==> proj(path[j]) == Some(([q] + rest)[j]) by {
          if forall j :: 0 <= j < |path| ==> proj(path[j]).Some? {
            assert forall j :: 0 <= j < |path[1..]| ==> proj(path[1..][j]).Some?;
          }
        }
        [q] + rest
  }

  /** Resolving a path piece by piece gives the same points: none is lost, added or reordered. */
  lemma {:induction false} ResolveConcat(proj: Projector, a: seq<LngLat>, b: seq<LngLat>)
    ensures Resolve(proj, a + b) == Resolve(proj, a) + Resolve(proj, b)
    decreases |a|
  {
    if |a| == 0 {
      assert a + b == b;
    } else {
      assert (a + b)[0] == a[0];
      assert (a + b)[1..] == a[1..] + b;
      ResolveConcat(proj, a[1..], b);
    }
  }

  /** A single point resolves to its projection, or to nothing when it has none. */
  lemma ResolveOne(proj: Projector, at: LngLat)
    ensures Resolve(proj, [at]) == if proj(at).Some? then [proj(at).value] else []
  {
    assert [at][1..] == [];
  }

  /** The dot a pin is drawn as, when it has a screen position. */
  function PinDotOf(a: GeoAnnotation, proj: Projector): Option<Element>
    requires a.Pin?
  {
    PinAnnotation(a, proj(a.position))
  }

  /** The stroke a path is drawn as, when at least two of its points have a screen position. */
  function PathStrokeOf(a: GeoAnnotation, proj: Projector): Option<Element>
    requires a.Path?
  {
    PathAnnotation(a, Resolve(proj, a.path))
  }

  /**
   * The pins, in list order, that have a screen position: every such pin is
   * drawn, and nothing else is.
   */
  function PinLayer(annotations: seq<GeoAnnotation>, proj: Projector): (r: seq<Element>)
    ensures |r| <= |annotations|
    ensures forall e :: e in r ==>
      e.PinDot? &&
      (exists a :: a in annotations && a.Pin? && proj(a.position) == Some(e.center) && e.onClick == Some(a.id))
    decreases |annotations|
  {
    if |annotations| == 0 then []
    else
      var a := annotations[0];
      var rest := PinLayer(annotations[1..], proj);
      assert forall x :: x in annotations[1..] ==> x in annotations;
      var here := if a.Pin? then PinDotOf(a, proj) else None;
      if here.Some? then [here.value] + rest else rest
  }

  /** Every pin with a screen position is drawn. */
  lemma {:induction false} PinLayerComplete(annotations: seq<GeoAnnotation>, proj: Projector, i: nat)
    requires i < |annotations| && annotations[i].Pin? && proj(annotations[i].position).Some?
    ensures PinDotOf(annotations[i], proj).Some? && PinDotOf(annotations[i], proj).value in PinLayer(annotations, proj)
    decreases i
  {
    if i > 0 {
      PinLayerComplete(annotations[1..], proj, i - 1);
      assert annotations[1..][i - 1] == annotations[i];
    }
  }

  /** Drawing the pins of a list piece by piece gives the same dots in the same order. */
  lemma {:induction false} PinLayerConcat(a: seq<GeoAnnotation>, b: seq<GeoAnnotation>, proj: Projector)
    ensures PinLayer(a + b, proj) == PinLayer(a, proj) + PinLayer(b, proj)
    decreases |a|
  {
    if |a| == 0 {
      assert a + b == b;
    } else {
      assert (a + b)[0] == a[0];
      assert (a + b)[1..] == a[1..] + b;
      PinLayerConcat(a[1..], b, proj);
    }
  }

  /** One annotation contributes its dot exactly when it is a pin with a screen position. */
  lemma PinLayerOne(a: GeoAnnotation, proj: Projector)
    ensures PinLayer([a], proj) ==
      if a.Pin? && proj(a.position).Some? then [PinDot(proj(a.position).value, a.size, a.color, Some(a.id))] else []
  {
    assert [a][1..] == [];
  }

  /**
   * The paths, in list order, that keep at least two points with a screen
   * position: every such path is drawn, and nothing else is.
   */
  function PathLayer(annotations: seq<GeoAnnotation>, proj: Projector): (r: seq<Element>)
    ensures |r| <= |annotations|
    ensures forall e :: e in r ==>
      e.PathStroke? &&
      (exists a :: a in annotations && a.Path? && e.onClick == Some(a.id) &&
        |Resolve(proj, a.path)| >= 2 && ParsePathData(e.d) == Some(Resolve(proj, a.path)))
    decreases |annotations|
  {
    if |annotations| == 0 then []
    else
      var a := annotations[0];
      var rest := PathLayer(annotations[1..], proj);
      assert forall x :: x in annotations[1..] ==> x in annotations;
      var here := if a.Path? then PathStrokeOf(a, proj) else None;
      if here.Some? then [here.value] + rest else rest
  }

  /** Every path with at least two points that have a screen position is drawn. */
  lemma {:induction false} PathLayerComplete(annotations: seq<GeoAnnotation>, proj: Projector, i: nat)
    requires i < |annotations| && annotations[i].Path? && |Resolve(proj, annotations[i].path)| >= 2
    ensures PathStrokeOf(annotations[i], proj).Some? && PathStrokeOf(annotations[i], proj).value in PathLayer(annotations, proj)
    decreases i
  {
    if i > 0 {
      PathLayerComplete(annotations[1..], proj, i - 1);
      assert annotations[1..][i - 1] == annotations[i];
    }
  }

  /** Drawing the paths of a list piece by piece gives the same strokes in the same order. */
  lemma {:induction false} PathLayerConcat(a: seq<GeoAnnotation>, b: seq<GeoAnnotation>, proj: Projector)
    ensures PathLayer(a + b, proj) == PathLayer(a, proj) + PathLayer(b, proj)
    decreases |a|
  {
    if |a| == 0 {
      assert a + b == b;
    } else {
      assert (a + b)[0] == a[0];
      assert (a + b)[1..] == a[1..] + b;
      PathLayerConcat(a[1..], b, proj);
    }
  }

  /**
   * One annotation contributes a stroke exactly when it is a path with at
   * least two resolvable points; the stroke reads back to those points and
   * carries the path's colour, width and id.
   */
  lemma PathLayerOne(a: GeoAnnotation, proj: Projector)
    ensures |PathLayer([a], proj)| <= 1
    ensures |PathLayer([a], proj)| == 1 <==> a.Path? && |Resolve(proj, a.path)| >= 2
    ensures |PathLayer([a], proj)| == 1 ==>
      var e := PathLayer([a], proj)[0];
      && e.PathStroke? && e.onClick == Some(a.id) && e.color == a.color && e.strokeWidth == a.size
      && ParsePathData(e.d) == Some(Resolve(proj, a.path))
  {
    assert [a][1..] == [];
  }

  /** The translucent preview of the path being drawn, when there is one to show. */
  function PreviewLayer(s: Session, proj: Projector): (r: seq<Element>)
    ensures |r| <= 1
    ensures forall e :: e in r ==> e.PathStroke? && e.onClick.None? && e.opacity == PreviewOpacity
    ensures !s.isDrawing || |s.currentPath| <= 1 ==> r == []
    ensures |Resolve(proj, s.currentPath)| < 2 ==> r == []
    ensures s.isDrawing && |s.currentPath| > 1 && |Resolve(proj, s.currentPath)| >= 2 ==>
      && |r| == 1
      && ParsePathData(r[0].d) == Some(Resolve(proj, s.currentPath))
      && r[0].color == s.selectedColor && r[0].strokeWidth == StrokeWidth(s.markerSize)
  {
    if s.isDrawing && |s.currentPath| > 1 then
      match CurrentPathPreview(Resolve(proj, s.currentPath), s.selectedColor, s.markerSize)
      case None => []
      case Some(e) => [e]
    else []
  }

  /** The search-result dot, when a search result has a screen position. */
  function SearchLayer(searchResult: Option<LngLat>, proj: Projector): (r: seq<Element>)
    ensures |r| <= 1
    ensures forall e :: e in r ==> e.SearchDot?
    ensures |r| == 1 <==> searchResult.Some? && proj(searchResult.value).Some?
    ensures |r| == 1 ==> r[0].center == proj(searchResult.value).value
  {
    match searchResult
    case None => []
    case Some(at) =>
      match SearchMarker(proj(at))
      case None => []
      case Some(e) => [e]
  }

  /**
   * The group an element belongs to in the view's document order: pin
   * dots, then clickable path strokes, then the preview stroke, then the
   * search dot.
   */
  function Layer(e: Element): nat {
    match e
    case PinDot(_, _, _, _) => 0
    case PathStroke(_, _, _, _, onClick) => if onClick.Some? then 1 else 2
    case SearchDot(_) => 3
  }

  /** Groups never decrease along the document order. */
  predicate Layered(es: seq<Element>) {
    forall i, j :: 0 <= i < j < |es| ==> Layer(es[i]) <= Layer(es[j])
  }

  lemma LayeredConcat(a: seq<Element>, b: seq<Element>, k: nat)
    requires Layered(a)
    requires forall e :: e in a ==> Layer(e) <= k
    requires forall e :: e in b ==> Layer(e) == k
    ensures Layered(a + b)
    ensures forall e :: e in a + b ==> Layer(e) <= k
  {
    var c := a + b;
    forall i, j | 0 <= i < j < |c|
      ensures Layer(c[i]) <= Layer(c[j])
    {
      if j < |a| {
        assert c[i] == a[i] && c[j] == a[j];
      } else {
        assert c[j] == b[j - |a|];
        if i < |a| {
          assert c[i] == a[i];
        } else {
          assert c[i] == b[i - |a|];
        }
      }
    }
  }

  /**
   * What the view renders over the map, in document order: whatever the
   * order of the annotation list, all pin dots come first, then all path
   * strokes, then the preview, then the search dot, which comes last when
   * there is one. Which element shows on top is decided by `ZIndex` first
   * (see `StackingInRender`).
   */
  function Render(s: Session, proj: Projector, searchResult: Option<LngLat>): (r: seq<Element>)
    ensures Layered(r)
    ensures searchResult.Some? && proj(searchResult.value).Some? ==>
      |r| > 0 && r[|r| - 1] == SearchDot(proj(searchResult.value).value)
  {
    var pins := PinLayer(s.annotations, proj);
    var paths := PathLayer(s.annotations, proj);
    var preview := PreviewLayer(s, proj);
    var search := SearchLayer(searchResult, proj);
    LayeredConcat([], pins, 0);
    assert [] + pins == pins;
    LayeredConcat(pins, paths, 1);
    LayeredConcat(pins + paths, preview, 2);
    LayeredConcat(pins + paths + preview, search, 3);
    pins + paths + preview + search
  }

  /**
   * The CSS `zIndex` of an element's container: 998 for the svg of a stored
   * path, 999 for pins, the preview and the search marker.
   */
  function ZIndex(e: Element): int {
    match e
    case PathStroke(_, _, _, _, onClick) => if onClick.Some? then 998 else 999
    case _ => 999
  }

  /**
   * Whether element `i` of a rendered sequence shows above element `j`: the
   * higher z-index wins, and between equal ones the later element.
   */
  predicate Above(es: seq<Element>, i: nat, j: nat)
    requires i < |es| && j < |es|
  {
    ZIndex(es[i]) > ZIndex(es[j]) || (ZIndex(es[i]) == ZIndex(es[j]) && i > j)
  }

  /**
   * On screen, stored path strokes lie beneath every pin, the preview and
   * the search marker, although they come after the pins in document order;
   * the search marker lies above everything else.
   */
  lemma StackingInRender(s: Session, proj: Projector, searchResult: Option<LngLat>, i: nat, j: nat)
    requires i < |Render(s, proj, searchResult)| && j < |Render(s, proj, searchResult)|
    ensures var r := Render(s, proj, searchResult);
      Layer(r[j]) == 1 && Layer(r[i]) != 1 ==> Above(r, i, j)
    ensures var r := Render(s, proj, searchResult);
      searchResult.Some? && proj(searchResult.value).Some? && i == |r| - 1 && j < i ==> Above(r, i, j)
  {
  }

  /** Every annotation that can be drawn is drawn, whatever else the list holds. */
  lemma RenderShowsAnnotation(s: Session, proj: Projector, searchResult: Option<LngLat>, i: nat)
    requires i < |s.annotations|
    ensures s.annotations[i].Pin? && proj(s.annotations[i].position).Some? ==>
      PinDotOf(s.annotations[i], proj).Some? && PinDotOf(s.annotations[i], proj).value in Render(s, proj, searchResult)
    ensures s.annotations[i].Path? && |Resolve(proj, s.annotations[i].path)| >= 2 ==>
      PathStrokeOf(s.annotations[i], proj).Some? && PathStrokeOf(s.annotations[i], proj).value in Render(s, proj, searchResult)
  {
    var a := s.annotations[i];
    if a.Pin? && proj(a.position).Some? {
      PinLayerComplete(s.annotations, proj, i);
    }
    if a.Path? && |Resolve(proj, a.path)| >= 2 {
      PathLayerComplete(s.annotations, proj, i);
    }
  }

  /** With no map to project through, nothing at all is drawn. */
  lemma RenderWithoutMap(s: Session, proj: Projector, searchResult: Option<LngLat>)
    requires forall at :: proj(at).None?
    ensures Render(s, proj, searchResult) == []
  {
    NothingResolves(proj, s.currentPath);
    NoPins(s.annotations, proj);
    NoPaths(s.annotations, proj);
  }

  lemma {:induction false} NothingResolves(proj: Projector, path: seq<LngLat>)
    requires forall at :: proj(at).None?
    ensures Resolve(proj, path) == []
    decreases |path|
  {
    if |path| > 0 {
      NothingResolves(proj, path[1..]);
    }
  }

  lemma {:induction false} NoPins(annotations: seq<GeoAnnotation>, proj: Projector)
    requires forall at :: proj(at).None?
    ensures PinLayer(annotations, proj) == []
    decreases |annotations|
  {
    if |annotations| > 0 {
      NoPins(annotations[1..], proj);
    }
  }

  lemma {:induction false} NoPaths(annotations: seq<GeoAnnotation>, proj: Projector)
    requires forall at :: proj(at).None?
    ensures PathLayer(annotations, proj) == []
    decreases |annotations|
  {
    if |annotations| > 0 {
      NoPaths(annotations[1..], proj);
      if annotations[0].Path? {
        NothingResolves(proj, annotations[0].path);
      }
    }
  }

  /**
   * Clicking any drawn element either does nothing (preview, search dot) or
   * removes a stored annotation: afterwards no annotation with that id is left.
   */
  lemma ClickRemovesItsAnnotation(s: Session, proj: Projector, searchResult: Option<LngLat>)
    ensures forall e :: e in Render(s, proj, searchResult) && ClickRemoves(e).Some? ==>
      && (exists a :: a in s.annotations && a.id == ClickRemoves(e).value)
      && (forall a :: a in Remove(s, ClickRemoves(e).value).annotations ==> a.id != ClickRemoves(e).value)
  {
    var pins := PinLayer(s.annotations, proj);
    var paths := PathLayer(s.annotations, proj);
    var preview := PreviewLayer(s, proj);
    var search := SearchLayer(searchResult, proj);
    forall e | e in Render(s, proj, searchResult) && ClickRemoves(e).Some?
      ensures exists a :: a in s.annotations && a.id == ClickRemoves(e).value
    {
      assert e in pins || e in paths || e in preview || e in search;
    }
  }
}

=== FILE: geometry.dfy ===
/**
 * Coordinates and the geo-anchored annotation record shared by the map view
 * and its render helpers.
 */
module Geometry {
  import opened Wrappers

  /** A screen position in whole pixels. */
  datatype Point = Point(x: int, y: int)

  /** A geographic position: longitude and latitude in degrees. */
  datatype LngLat = LngLat(lng: real, lat: real)

  /**
   * The map's projection from geographic to screen coordinates. `None` stands
   * for "no screen position", which is what the view gets while the map is
   * not yet available.
   */
  type Projector = LngLat -> Option<Point>

  /**
   * A stored map annotation, as the objects kept in the annotation list and
   * written to local storage: a pin at one coordinate, or a freehand path.
   * `size` is the pin diameter or the path's stroke width, in pixels.
   */
  datatype GeoAnnotation =
    | Pin(id: string, color: string, size: real, position: LngLat)
    | Path(id: string, color: string, size: real, path: seq<LngLat>)
}

=== FILE: images_router.dfy ===
/**
 * The `/generated-images` routes: list, fetch the PNG bytes, debug info,
 * details with the image's URL, and delete. Every route but the listing
 * answers 404 for an unknown id.
 */
module ImagesRouter {
  import opened Wrappers
  import opened Text
  import OrderedDict
  import Decimal
  import opened Store

  const NotFound: HttpError := HttpError(404, "Generated image not found")
  const UrlPrefix: string := "/generated-images/"

  datatype ImageEntry = ImageEntry(
    imageId: string, contentType: string, generationTime: int, previewRequestIndex: int, description: Option<string>)

  datatype ImageListing = ImageListing(generatedImages: seq<ImageEntry>, count: int)

  /** `get_generated_images`: one entry per stored image, in storage order, and their number. */
  function ListImages(db: Db): (r: ImageListing)
    ensures r.count == |r.generatedImages| == |db.generatedImages.entries|
    ensures forall i :: 0 <= i < |r.generatedImages| ==>
      var stored := db.generatedImages.entries[i].1;
      && r.generatedImages[i].imageId == db.generatedImages.entries[i].0
      && r.generatedImages[i].contentType == stored.contentType
      && r.generatedImages[i].generationTime == stored.generationTime
      && r.generatedImages[i].previewRequestIndex == stored.previewRequestIndex
      && r.generatedImages[i].description == stored.description
  {
    var es := db.generatedImages.entries;
    var entries := seq(|es|, i requires 0 <= i < |es| =>
      ImageEntry(es[i].0, es[i].1.contentType, es[i].1.generationTime, es[i].1.previewRequestIndex, es[i].1.description));
    ImageListing(entries, |entries|)
  }

  /** The HTTP response serving an image. */
  datatype ImageResponse = ImageResponse(
    content: Bytes, mediaType: string, contentDisposition: string, cacheControl: string, contentLength: string)

  /** `get_generated_image`: the stored bytes as PNG, with a `Content-Length` of their count. */
  function GetImage(db: Db, imageId: string): (r: Result<ImageResponse, HttpError>)
    ensures r.Err? <==> !OrderedDict.HasKey(db.generatedImages, imageId)
    ensures r.Err? ==> r.error == NotFound
    ensures r.Ok? ==> r.value.content == OrderedDict.Get(db.generatedImages, imageId).value.data
    ensures r.Ok? ==> r.value.mediaType == "image/png"
  {
    match OrderedDict.Get(db.generatedImages, imageId)
    case None => Err(NotFound)
    case Some(image) =>
      Ok(ImageResponse(image.data, "image/png",
        "inline; filename=generated_" + imageId + ".png",
        "public, max-age=3600",
        Decimal.IntToString(|image.data|)))
  }

  /** The `Content-Length` header reads back as exactly the number of bytes served. */
  lemma ContentLengthMatches(db: Db, imageId: string)
    requires GetImage(db, imageId).Ok?
    ensures var resp := GetImage(db, imageId).value;
      Decimal.ParseInt(resp.contentLength) == Some((|resp.content|, ""))
  {
    var resp := GetImage(db, imageId).value;
    Decimal.ParseIntRoundTrip(|resp.content|, "");
    assert Decimal.IntToString(|resp.content|) + "" == Decimal.IntToString(|resp.content|);
  }

  datatype ImageInfo = ImageInfo(
    imageId: string, dataSize: int, isBytes: bool, isString: bool, firstBytes: Bytes,
    contentType: string, hasDescription: bool)

  /** `get_generated_image_info`: size, a ten-byte prefix, and whether a non-empty description exists. */
  function GetImageInfo(db: Db, imageId: string): (r: Result<ImageInfo, HttpError>)
    ensures r.Err? <==> !OrderedDict.HasKey(db.generatedImages, imageId)
    ensures r.Err? ==> r.error == NotFound
    ensures r.Ok? ==>
      var image := OrderedDict.Get(db.generatedImages, imageId).value;
      && r.value.imageId == imageId
      && r.value.dataSize == |image.data|
      && r.value.contentType == image.contentType
      && |r.value.firstBytes| == (if |image.data| < 10 then |image.data| else 10)
      && r.value.firstBytes == image.data[..|r.value.firstBytes|]
      && (r.value.hasDescription <==> image.description.Some? && |image.description.value| > 0)
  {
    match OrderedDict.Get(db.generatedImages, imageId)
    case None => Err(NotFound)
    case Some(image) =>
      var n := if |image.data| < 10 then |image.data| else 10;
      Ok(ImageInfo(imageId, |image.data|, true, false, image.data[..n], image.contentType,
        image.description.Some? && |image.description.value| > 0))
  }

  datatype ImageDetails = ImageDetails(
    imageId: string, contentType: string, generationTime: int, previewRequestIndex: int,
    description: Option<string>, imageUrl: string)

  /** `get_generated_image_details`: the stored metadata and the URL that serves the bytes. */
  function GetImageDetails(db: Db, imageId: string): (r: Result<ImageDetails, HttpError>)
    ensures r.Err? <==> !OrderedDict.HasKey(db.generatedImages, imageId)
    ensures r.Err? ==> r.error == NotFound
    ensures r.Ok? ==>
      && StartsWith(r.value.imageUrl, UrlPrefix)
      && r.value.imageUrl[|UrlPrefix|..] == imageId
      && var image := OrderedDict.Get(db.generatedImages, imageId).value;
      && r.value.imageId == imageId
      && r.value.contentType == image.contentType
      && r.value.generationTime == image.generationTime
      && r.value.previewRequestIndex == image.previewRequestIndex
      && r.value.description == image.description
  {
    match OrderedDict.Get(db.generatedImages, imageId)
    case None => Err(NotFound)
    case Some(image) =>
      var url := UrlPrefix + imageId;
      assert url[..|UrlPrefix|] == UrlPrefix && url[|UrlPrefix|..] == imageId;
      Ok(ImageDetails(imageId, image.contentType, image.generationTime, image.previewRequestIndex, image.description, url))
  }

  /** `delete_generated_image`: a stored id is removed, any other is a 404 and nothing changes. */
  function DeleteImage(db: Db, imageId: string): (r: (Db, Result<string, HttpError>))
    ensures !OrderedDict.HasKey(db.generatedImages, imageId) ==> r.0 == db && r.1 == Err(NotFound)
    ensures OrderedDict.HasKey(db.generatedImages, imageId) ==>
      && r.1 == Ok("Deleted generated image: " + imageId)
      && r.0 == db.(generatedImages := OrderedDict.Remove(db.generatedImages, imageId))
  {
    if OrderedDict.HasKey(db.generatedImages, imageId) then
      (db.(generatedImages := OrderedDict.Remove(db.generatedImages, imageId)), Ok("Deleted generated image: " + imageId))
    else (db, Err(NotFound))
  }

  /**
   * After a delete every route answers 404 for that id, the listing is one
   * shorter, and every other image is served as before.
   */
  lemma DeleteThenNotFound(db: Db, imageId: string, other: string)
    requires Store.Valid(db)
    requires OrderedDict.HasKey(db.generatedImages, imageId)
    ensures var after := DeleteImage(db, imageId).0;
      && GetImage(after, imageId) == Err(NotFound)
      && GetImageDetails(after, imageId) == Err(NotFound)
      && GetImageInfo(after, imageId) == Err(NotFound)
      && DeleteImage(after, imageId).1 == Err(NotFound)
      && ListImages(after).count == ListImages(db).count - 1
      && (other != imageId ==> GetImage(after, other) == GetImage(db, other))
  {
    OrderedDict.RemoveSize(db.generatedImages, imageId);
    OrderedDict.GetAfterRemove(db.generatedImages, imageId, other);
  }
}

=== FILE: map_annotations.dfy ===
/**
 * Render helpers for geo-anchored annotations: the pin, path, drawing-preview
 * and search-result components, and the SVG path data they draw (moveto and
 * lineto commands of section 8.3 of the SVG 1.1 specification).
 */
module MapAnnotations {
  import opened Wrappers
  import opened Geometry
  import Decimal
  import Text

  /**
   * What a component renders. `onClick` is the id the element hands to the
   * removal callback when clicked; `None` means the element has no click
   * handler.
   */
  datatype Element =
    | PinDot(center: Point, diameter: real, color: string, onClick: Option<string>)
    | PathStroke(d: string, color: string, strokeWidth: real, opacity: real, onClick: Option<string>)
    | SearchDot(center: Point)

  /** Opacity of the in-progress drawing preview; committed strokes are fully opaque. */
  const PreviewOpacity: real := 0.7

  /** Stroke width for a pen stroke drawn with marker size `size`: `Math.max(2, size / 4)`. */
  function StrokeWidth(size: int): (w: real)
    ensures w >= 2.0 && w >= size as real / 4.0
    ensures w == 2.0 || w == size as real / 4.0
  {
    if size as real / 4.0 > 2.0 then size as real / 4.0 else 2.0
  }

  /** The two coordinates of a point as written in path data: `x y`. */
  function Coords(p: Point): string {
    Decimal.IntToString(p.x) + " " + Decimal.IntToString(p.y)
  }

  /**
   * The path-data reduction of the components, with the coordinate text as a
   * parameter `fmt` so that the lemmas below need not look inside it: the
   * first point contributes `M x y`, every later one ` L x y`.
   */
  function Reduce(points: seq<Point>, fmt: Point -> string): string
    decreases |points|
  {
    if |points| == 0 then ""
    else
      var last := points[|points| - 1];
      Reduce(points[..|points| - 1], fmt) + (if |points| == 1 then "M " + fmt(last) else " L " + fmt(last))
  }

  /**
   * The path data of the components, with whole-pixel coordinates: empty for
   * no points, and otherwise text that reads back to exactly the points, in
   * order.
   */
  function PathData(points: seq<Point>): (d: string)
    ensures |points| == 0 ==> d == ""
    ensures |points| >= 1 ==> ParsePathData(d) == Some(points)
  {
    if |points| == 0 then ""
    else
      CoordsPathRoundTrip(points);
      Reduce(points, Coords)
  }

  /** One lineto per point, first point first. */
  function LineTos(points: seq<Point>, fmt: Point -> string): string
    decreases |points|
  {
    if |points| == 0 then "" else " L " + fmt(points[0]) + LineTos(points[1..], fmt)
  }

  /** Reads `x y` from the front of `s`. */
  function ParseCoords(s: string): Option<(Point, string)> {
    match Decimal.ParseInt(s)
    case None => None
    case Some((x, r)) =>
      if |r| == 0 || r[0] != ' ' then None
      else
        match Decimal.ParseInt(r[1..])
        case None => None
        case Some((y, rest)) => Some((Point(x, y), rest))
  }

  /** A reader of one coordinate pair from the front of a text. */
  type CoordsReader = string -> Option<(Point, string)>

  /** Reads a run of ` L x y` commands that makes up the whole of `s`. */
  function ReadLineTos(s: string, read: CoordsReader): Option<seq<Point>>
    decreases |s|
  {
    if |s| == 0 then Some([])
    else if !Text.StartsWith(s, " L ") then None
    else
      match read(s[3..])
      case None => None
      case Some((p, rest)) =>
        if |rest| >= |s| then None
        else
          match ReadLineTos(rest, read)
          case None => None
          case Some(ps) => Some([p] + ps)
  }

  /** Reads text of the form `M x y` followed by ` L x y` commands. */
  function ReadPath(s: string, read: CoordsReader): Option<seq<Point>> {
    if !Text.StartsWith(s, "M ") then None
    else
      match read(s[2..])
      case None => None
      case Some((p, rest)) =>
        match ReadLineTos(rest, read)
        case None => None
        case Some(ps) => Some([p] + ps)
  }

  /** Reads SVG path data made of one moveto and linetos back into its points. */
  function ParsePathData(s: string): Option<seq<Point>> {
    ReadPath(s, ParseCoords)
  }

  /** Number of occurrences of `c` in `s`. */
  function CountChar(s: string, c: char): nat
    decreases |s|
  {
    if |s| == 0 then 0 else (if s[0] == c then 1 else 0) + CountChar(s[1..], c)
  }

  lemma {:induction false} CountCharConcat(a: string, b: string, c: char)
    ensures CountChar(a + b, c) == CountChar(a, c) + CountChar(b, c)
    decreases |a|
  {
    if |a| == 0 {
      assert a + b == b;
    } else {
      assert (a + b)[0] == a[0];
      assert (a + b)[1..] == a[1..] + b;
      CountCharConcat(a[1..], b, c);
    }
  }

  /** Adding a point at the end adds one lineto at the end. */
  lemma {:induction false} LineTosSnoc(points: seq<Point>, p: Point, fmt: Point -> string)
    ensures LineTos(points + [p], fmt) == LineTos(points, fmt) + " L " + fmt(p)
    decreases |points|
  {
    if |points| == 0 {
      assert LineTos([p], fmt) == " L " + fmt(p) + LineTos([], fmt);
    } else {
      assert (points + [p])[1..] == points[1..] + [p];
      LineTosSnoc(points[1..], p, fmt);
    }
  }

  /** The reduction yields one moveto to the first point followed by one lineto per later point. */
  lemma {:induction false} ReduceShape(points: seq<Point>, fmt: Point -> string)
    requires |points| >= 1
    ensures Reduce(points, fmt) == "M " + fmt(points[0]) + LineTos(points[1..], fmt)
    decreases |points|
  {
    if |points| == 1 {
      assert points[..0] == [];
      assert LineTos(points[1..], fmt) == "";
    } else {
      var init := points[..|points| - 1];
      var last := points[|points| - 1];
      ReduceShape(init, fmt);
      assert init[0] == points[0];
      assert points[1..] == init[1..] + [last];
      LineTosSnoc(init[1..], last, fmt);
    }
  }

  /** A coordinate text holds only digits, minus signs and one space, so no command letter. */
  lemma CoordsHasNo(p: Point, c: char)
    requires !Decimal.IsDigit(c) && c != '-' && c != ' '
    ensures CountChar(Coords(p), c) == 0
  {
    var sx := Decimal.IntToString(p.x);
    var sy := Decimal.IntToString(p.y);
    NoDigitOrDash(sx, c);
    NoDigitOrDash(sy, c);
    CountCharConcat(sx + " ", sy, c);
    CountCharConcat(sx, " ", c);
    assert CountChar(" ", c) == 0;
  }

  lemma {:induction false} NoDigitOrDash(s: string, c: char)
    requires forall i :: 0 <= i < |s| ==> Decimal.IsDigit(s[i]) || s[i] == '-'
    requires !Decimal.IsDigit(c) && c != '-'
    ensures CountChar(s, c) == 0
    decreases |s|
  {
    if |s| > 0 {
      NoDigitOrDash(s[1..], c);
    }
  }

  lemma {:induction false} LineTosCounts(points: seq<Point>, fmt: Point -> string)
    requires forall p :: CountChar(fmt(p), 'L') == 0 && CountChar(fmt(p), 'M') == 0
    ensures CountChar(LineTos(points, fmt), 'L') == |points|
    ensures CountChar(LineTos(points, fmt), 'M') == 0
    decreases |points|
  {
    if |points| > 0 {
      var f := fmt(points[0]);
      var tail := LineTos(points[1..], fmt);
      LineTosCounts(points[1..], fmt);
      assert LineTos(points, fmt) == " L " + (f + tail);
      CountCharConcat(" L ", f + tail, 'L');
      CountCharConcat(f, tail, 'L');
      CountCharConcat(" L ", f + tail, 'M');
      CountCharConcat(f, tail, 'M');
    }
  }

  lemma ReduceCounts(points: seq<Point>, fmt: Point -> string)
    requires |points| >= 1
    requires forall p :: CountChar(fmt(p), 'L') == 0 && CountChar(fmt(p), 'M') == 0
    ensures CountChar(Reduce(points, fmt), 'M') == 1
    ensures CountChar(Reduce(points, fmt), 'L') == |points| - 1
  {
    var f := fmt(points[0]);
    var tail := LineTos(points[1..], fmt);
    ReduceShape(points, fmt);
    LineTosCounts(points[1..], fmt);
    CountChar3("M ", f, tail, 'M');
    CountChar3("M ", f, tail, 'L');
  }

  lemma CountChar3(a: string, b: string, c: string, ch: char)
    ensures CountChar(a + b + c, ch) == CountChar(a, ch) + CountChar(b, ch) + CountChar(c, ch)
  {
    CountCharConcat(a + b, c, ch);
    CountCharConcat(a, b, ch);
  }

  /** Path data over `n >= 1` points holds exactly one moveto and `n - 1` linetos. */
  lemma PathDataCommandCounts(points: seq<Point>)
    requires |points| >= 1
    ensures CountChar(PathData(points), 'M') == 1
    ensures CountChar(PathData(points), 'L') == |points| - 1
  {
    forall p: Point
      ensures CountChar(Coords(p), 'L') == 0 && CountChar(Coords(p), 'M') == 0
    {
      CoordsHasNo(p, 'L');
      CoordsHasNo(p, 'M');
    }
    ReduceCounts(points, Coords);
  }

  lemma ParseCoordsRoundTrip(p: Point, rest: string)
    requires rest == [] || rest[0] == ' '
    ensures ParseCoords(Coords(p) + rest) == Some((p, rest))
  {
    var sx := Decimal.IntToString(p.x);
    var sy := Decimal.IntToString(p.y);
    var r := [' '] + (sy + rest);
    CoordsThen(sx, sy, rest);
    Decimal.ParseIntRoundTrip(p.x, r);
    Decimal.ParseIntRoundTrip(p.y, rest);
    ParseCoordsOf(sx + r, p.x, r, p.y, rest);
  }

  lemma CoordsThen(sx: string, sy: string, rest: string)
    ensures sx + " " + sy + rest == sx + ([' '] + (sy + rest))
    ensures ([' '] + (sy + rest))[1..] == sy + rest
  {
  }

  /** `ParseCoords` succeeds once both numbers read, with a space after the first. */
  lemma ParseCoordsOf(s: string, x: int, r: string, y: int, rest: string)
    requires Decimal.ParseInt(s) == Some((x, r))
    requires |r| > 0 && r[0] == ' '
    requires Decimal.ParseInt(r[1..]) == Some((y, rest))
    ensures ParseCoords(s) == Some((Point(x, y), rest))
  {
  }

  /** `read` inverts `fmt` whenever what follows starts with a space or is empty. */
  ghost predicate Inverts(read: CoordsReader, fmt: Point -> string) {
    forall p, rest :: (rest == [] || rest[0] == ' ') ==> read(fmt(p) + rest) == Some((p, rest))
  }

  /** Reading one lineto in front of text that reads as `ps`. */
  lemma ReadLineTosCons(c: string, p: Point, tail: string, ps: seq<Point>, read: CoordsReader)
    requires read(c + tail) == Some((p, tail))
    requires ReadLineTos(tail, read) == Some(ps)
    ensures ReadLineTos(" L " + c + tail, read) == Some([p] + ps)
  {
    var s := " L " + c + tail;
    assert s[..3] == " L ";
    assert s[3..] == c + tail;
  }

  /** Reading the moveto in front of linetos that read as `ps`. */
  lemma ReadPathCons(c: string, p: Point, tail: string, ps: seq<Point>, read: CoordsReader)
    requires read(c + tail) == Some((p, tail))
    requires ReadLineTos(tail, read) == Some(ps)
    ensures ReadPath("M " + c + tail, read) == Some([p] + ps)
  {
    var s := "M " + c + tail;
    assert s[..2] == "M ";
    assert s[2..] == c + tail;
  }

  lemma {:induction false} ReadLineTosRoundTrip(points: seq<Point>, fmt: Point -> string, read: CoordsReader)
    requires Inverts(read, fmt)
    ensures ReadLineTos(LineTos(points, fmt), read) == Some(points)
    decreases |points|
  {
    if |points| > 0 {
      var tail := LineTos(points[1..], fmt);
      ReadLineTosRoundTrip(points[1..], fmt, read);
      assert tail == [] || tail[0] == ' ';
      ReadLineTosCons(fmt(points[0]), points[0], tail, points[1..], read);
      assert [points[0]] + points[1..] == points;
    }
  }

  lemma ReduceRoundTrip(points: seq<Point>, fmt: Point -> string, read: CoordsReader)
    requires |points| >= 1
    requires Inverts(read, fmt)
    ensures ReadPath(Reduce(points, fmt), read) == Some(points)
  {
    var tail := LineTos(points[1..], fmt);
    ReduceShape(points, fmt);
    ReadLineTosRoundTrip(points[1..], fmt, read);
    assert tail == [] || tail[0] == ' ';
    ReadPathCons(fmt(points[0]), points[0], tail, points[1..], read);
    assert [points[0]] + points[1..] == points;
  }

  /** With whole-pixel coordinates, the reduction reads back to exactly its points, in order. */
  lemma CoordsPathRoundTrip(points: seq<Point>)
    requires |points| >= 1
    ensures ParsePathData(Reduce(points, Coords)) == Some(points)
  {
    forall p, rest | rest == [] || rest[0] == ' '
      ensures ParseCoords(Coords(p) + rest) == Some((p, rest))
    {
      ParseCoordsRoundTrip(p, rest);
    }
    assert Inverts(ParseCoords, Coords);
    ReduceRoundTrip(points, Coords, ParseCoords);
  }

  /** `PinAnnotation`: nothing without a screen position, else a dot whose click removes this pin. */
  function PinAnnotation(annotation: GeoAnnotation, screenPos: Option<Point>): (e: Option<Element>)
    ensures screenPos.None? <==> e.None?
    ensures e.Some? ==> e.value == PinDot(screenPos.value, annotation.size, annotation.color, Some(annotation.id))
  {
    match screenPos
    case None => None
    case Some(pos) => Some(PinDot(pos, annotation.size, annotation.color, Some(annotation.id)))
  }

  /** `PathAnnotation`: nothing below two points, else a stroke whose click removes this path. */
  function PathAnnotation(annotation: GeoAnnotation, pathPoints: seq<Point>): (e: Option<Element>)
    ensures |pathPoints| < 2 <==> e.None?
    ensures e.Some? ==> e.value.PathStroke? && e.value.onClick == Some(annotation.id)
    ensures e.Some? ==> ParsePathData(e.value.d) == Some(pathPoints)
    ensures e.Some? ==> e.value.strokeWidth == annotation.size && e.value.color == annotation.color
  {
    if |pathPoints| < 2 then None
    else
      Some(PathStroke(PathData(pathPoints), annotation.color, annotation.size, 1.0, Some(annotation.id)))
  }

  /** `CurrentPathPreview`: nothing below two points, else a translucent stroke with no click handler. */
  function CurrentPathPreview(pathPoints: seq<Point>, color: string, size: int): (e: Option<Element>)
    ensures |pathPoints| < 2 <==> e.None?
    ensures e.Some? ==> e.value.PathStroke? && e.value.onClick.None?
    ensures e.Some? ==> ParsePathData(e.value.d) == Some(pathPoints)
    ensures e.Some? ==> e.value.opacity == PreviewOpacity && e.value.strokeWidth == StrokeWidth(size)
  {
    if |pathPoints| < 2 then None
    else
      Some(PathStroke(PathData(pathPoints), color, StrokeWidth(size), PreviewOpacity, None))
  }

  /** `SearchMarker`: nothing without a screen position, else a dot at it. */
  function SearchMarker(screenPos: Option<Point>): (e: Option<Element>)
    ensures screenPos.None? <==> e.None?
    ensures e.Some? ==> e.value == SearchDot(screenPos.value)
  {
    match screenPos
    case None => None
    case Some(pos) => Some(SearchDot(pos))
  }

  /** The id a click on `e` passes to the removal callback, if it has a handler. */
  function ClickRemoves(e: Element): Option<string> {
    match e
    case PinDot(_, _, _, onClick) => onClick
    case PathStroke(_, _, _, _, onClick) => onClick
    case SearchDot(_) => None
  }
}

=== FILE: map_toolbar.dfy ===
/**
 * The map view's annotation toolbar: a collapsible panel with the three map
 * tools, a colour palette, a marker-size slider labelled Small/Medium/Large,
 * and a Clear All button.
 */
module MapToolbar {
  import RangeInput

  /** The map view's tools; `SelectTool` pans the map instead of drawing. */
  datatype Tool = SelectTool | PinTool | PenTool

  /** The id each tool button passes to the tool-change callback. */
  function ToolId(t: Tool): (id: string)
    ensures id in ToolIds
  {
    match t
    case SelectTool => "select"
    case PinTool => "pin"
    case PenTool => "pen"
  }

  /** Button ids in toolbar order. */
  const ToolIds: seq<string> := ["select", "pin", "pen"]

  /** Reads a tool id back; the inverse of `ToolId`. */
  function ToolFromId(id: string): (t: Tool)
    requires id in ToolIds
    ensures ToolId(t) == id
  {
    if id == "select" then SelectTool else if id == "pin" then PinTool else PenTool
  }

  /** A corollary of the inverse above: no two buttons share an id. */
  lemma ToolIdsDistinct(a: Tool, b: Tool)
    requires ToolId(a) == ToolId(b)
    ensures a == b
  {
  }

  /** The colour buttons, in panel order. */
  const Palette: seq<string> := ["#007bff", "#dc3545", "#28a745", "#ffc107", "#6f42c1", "#fd7e14", "#20c997", "#333333"]

  /** The marker-size slider spans 12 to 32 pixels. */
  const SizeSlider: RangeInput.Range := RangeInput.Range(12, 32)

  datatype SizeLabel = Small | Medium | Large

  /** Rank of a label, smallest first. */
  function Rank(l: SizeLabel): nat {
    match l
    case Small => 0
    case Medium => 1
    case Large => 2
  }

  /** `getSizeLabel`: the word shown next to the marker size. */
  function GetSizeLabel(value: int): (l: SizeLabel)
    ensures l == Small <==> value <= 16
    ensures l == Medium <==> 16 < value <= 20
    ensures l == Large <==> value > 20
  {
    if value <= 16 then Small
    else if value <= 20 then Medium
    else Large
  }

  /** A larger size never gets a smaller label. */
  lemma SizeLabelMonotone(a: int, b: int)
    requires a <= b
    ensures Rank(GetSizeLabel(a)) <= Rank(GetSizeLabel(b))
  {
  }

  /** What the toolbar asks of the map view. */
  datatype Request =
    | ToolChange(tool: Tool)
    | ColorChange(color: string)
    | MarkerSizeChange(size: int)
    | ClearAll

  /** User actions on the toolbar. */
  datatype Action =
    | OpenPanel
    | ClosePanel
    | ClickTool(tool: Tool)
    | ClickColor(color: string)
    | SlideSize(raw: int)
    | ClickClearAll

  /** The toolbar's own state: whether the panel is expanded. */
  datatype Toolbar = Toolbar(isExpanded: bool)

  /** The toolbar starts collapsed to its open button. */
  const Initial: Toolbar := Toolbar(false)

  /**
   * One action: the open button expands the panel and the close button
   * collapses it; the other controls exist only in the expanded panel and
   * each hands one request to the map view.
   */
  function Handle(t: Toolbar, a: Action): (r: (Toolbar, seq<Request>))
    ensures a == OpenPanel ==> r.0.isExpanded && r.1 == []
    ensures a == ClosePanel ==> !r.0.isExpanded && r.1 == []
    ensures !a.OpenPanel? && !a.ClosePanel? ==> r.0 == t
    ensures !t.isExpanded && !a.OpenPanel? ==> r.1 == []
    ensures t.isExpanded && a.ClickTool? ==> r.1 == [ToolChange(a.tool)]
    ensures t.isExpanded && a.ClickColor? ==> r.1 == [ColorChange(a.color)]
    ensures t.isExpanded && a.ClickClearAll? ==> r.1 == [ClearAll]
    ensures t.isExpanded && a.SlideSize? ==>
      |r.1| == 1 && r.1[0].MarkerSizeChange? && RangeInput.Within(SizeSlider, r.1[0].size)
      && (RangeInput.Within(SizeSlider, a.raw) ==> r.1[0].size == a.raw)
  {
    match a
    case OpenPanel => if t.isExpanded then (t, []) else (Toolbar(true), [])
    case ClosePanel => if t.isExpanded then (Toolbar(false), []) else (t, [])
    case ClickTool(tool) => (t, if t.isExpanded then [ToolChange(tool)] else [])
    case ClickColor(color) => (t, if t.isExpanded then [ColorChange(color)] else [])
    case SlideSize(raw) =>
      (t, if t.isExpanded then [MarkerSizeChange(RangeInput.Value(SizeSlider, raw))] else [])
    case ClickClearAll => (t, if t.isExpanded then [ClearAll] else [])
  }
}

=== FILE: ordered_dict.dfy ===
/**
 * Python's `dict`: key/value entries kept in insertion order. Assigning to a
 * present key replaces its value in place; assigning to a new key appends;
 * `pop` removes the entry.
 */
module OrderedDict {
  import opened Wrappers

  datatype Dict<K, V> = Dict(entries: seq<(K, V)>)

  function Keys<K, V>(d: Dict<K, V>): (ks: seq<K>)
    ensures |ks| == |d.entries|
    ensures forall i :: 0 <= i < |ks| ==> ks[i] == d.entries[i].0
    decreases |d.entries|
  {
    if |d.entries| == 0 then []
    else [d.entries[0].0] + Keys(Dict(d.entries[1..]))
  }

  /** No key occurs twice, as in every Python dict. */
  predicate Valid<K(==), V>(d: Dict<K, V>) {
    forall i, j :: 0 <= i < j < |d.entries| ==> d.entries[i].0 != d.entries[j].0
  }

  predicate HasKey<K(==), V>(d: Dict<K, V>, k: K) {
    exists i :: 0 <= i < |d.entries| && d.entries[i].0 == k
  }

  /** `d.get(k)`: the value of the first entry with key `k`. */
  function Get<K(==), V>(d: Dict<K, V>, k: K): (r: Option<V>)
    ensures r.None? <==> !HasKey(d, k)
    ensures r.Some? ==> exists i :: 0 <= i < |d.entries| && d.entries[i] == (k, r.value)
    decreases |d.entries|
  {
    if |d.entries| == 0 then None
    else if d.entries[0].0 == k then Some(d.entries[0].1)
    else
      var r := Get(Dict(d.entries[1..]), k);
      assert HasKey(Dict(d.entries[1..]), k) ==> HasKey(d, k) by {
        if HasKey(Dict(d.entries[1..]), k) {
          var i :| 0 <= i < |d.entries| - 1 && d.entries[1..][i].0 == k;
          assert d.entries[i + 1].0 == k;
        }
      }
      assert HasKey(d, k) ==> HasKey(Dict(d.entries[1..]), k) by {
        if HasKey(d, k) {
          var i :| 0 <= i < |d.entries| && d.entries[i].0 == k;
          assert d.entries[1..][i - 1].0 == k;
        }
      }
      assert r.Some? ==> exists i :: 0 <= i < |d.entries| && d.entries[i] == (k, r.value) by {
        if r.Some? {
          var i :| 0 <= i < |d.entries| - 1 && d.entries[1..][i] == (k, r.value);
          assert d.entries[i + 1] == (k, r.value);
        }
      }
      r
  }

  /** Every entry with key `k` gets value `v`; keys and all other entries are kept. */
  function Replace<K(==), V>(es: seq<(K, V)>, k: K, v: V): (r: seq<(K, V)>)
    ensures |r| == |es|
    ensures forall i :: 0 <= i < |es| ==> r[i].0 == es[i].0
    ensures forall i :: 0 <= i < |es| && es[i].0 != k ==> r[i] == es[i]
    ensures forall i :: 0 <= i < |es| && es[i].0 == k ==> r[i] == (k, v)
  {
    if |es| == 0 then []
    else [if es[0].0 == k then (k, v) else es[0]] + Replace(es[1..], k, v)
  }

  /** `d[k] = v`: replace the value of a present key in place, or append a new entry. */
  function Set<K(==), V>(d: Dict<K, V>, k: K, v: V): (r: Dict<K, V>)
    ensures HasKey(d, k) ==> |r.entries| == |d.entries|
    ensures !HasKey(d, k) ==> r.entries == d.entries + [(k, v)]
    ensures forall i :: 0 <= i < |d.entries| && d.entries[i].0 != k ==> r.entries[i] == d.entries[i]
    ensures forall i :: 0 <= i < |d.entries| && d.entries[i].0 == k ==> r.entries[i] == (k, v)
  {
    if HasKey(d, k) then Dict(Replace(d.entries, k, v)) else Dict(d.entries + [(k, v)])
  }

  /** `d.pop(k)` on a present key: every entry except those with key `k`, order kept. */
  function Remove<K(==,!new), V(!new)>(d: Dict<K, V>, k: K): (r: Dict<K, V>)
    ensures !HasKey(r, k)
    ensures forall e :: e in r.entries <==> e in d.entries && e.0 != k
    ensures |r.entries| <= |d.entries|
    decreases |d.entries|
  {
    if |d.entries| == 0 then d
    else
      var tail := Remove(Dict(d.entries[1..]), k);
      if d.entries[0].0 == k then tail else Dict([d.entries[0]] + tail.entries)
  }

  /** Removing from a list of entries piece by piece gives the same entries in the same order. */
  lemma {:induction false} RemoveConcat<K(!new), V(!new)>(a: seq<(K, V)>, b: seq<(K, V)>, k: K)
    ensures Remove(Dict(a + b), k).entries == Remove(Dict(a), k).entries + Remove(Dict(b), k).entries
    decreases |a|
  {
    if |a| == 0 {
      assert a + b == b;
    } else {
      assert (a + b)[0] == a[0];
      assert (a + b)[1..] == a[1..] + b;
      RemoveConcat(a[1..], b, k);
    }
  }

  /** A single entry survives exactly when its key is not the removed one. */
  lemma RemoveOne<K(!new), V(!new)>(e: (K, V), k: K)
    ensures Remove(Dict([e]), k).entries == if e.0 == k then [] else [e]
  {
    assert [e][1..] == [];
  }

  /** Popping the one entry with key `k` closes the gap: the entries around it keep their order. */
  lemma RemoveMiddle<K(!new), V(!new)>(before: seq<(K, V)>, e: (K, V), after: seq<(K, V)>)
    requires !HasKey(Dict(before), e.0) && !HasKey(Dict(after), e.0)
    ensures Remove(Dict(before + [e] + after), e.0).entries == before + after
  {
    var k := e.0;
    var front := before + [e];
    RemoveConcat(front, after, k);
    RemoveConcat(before, [e], k);
    RemoveOne(e, k);
    RemoveAbsent(Dict(before), k);
    RemoveAbsent(Dict(after), k);
    assert Remove(Dict(front), k).entries == before + [];
    assert before + [] == before;
  }

  /** Lookup after assignment sees the assigned value, and assignment keeps keys unique. */
  lemma GetAfterSet<K, V>(d: Dict<K, V>, k: K, v: V)
    ensures Valid(d) ==> Valid(Set(d, k, v))
    ensures Get(Set(d, k, v), k) == Some(v)
  {
    if Valid(d) {
      SetKeepsValid(d, k, v);
    }
    GetSetSame(d, k, v);
  }

  lemma SetKeepsValid<K, V>(d: Dict<K, V>, k: K, v: V)
    requires Valid(d)
    ensures Valid(Set(d, k, v))
  {
    var r := Set(d, k, v);
    if !HasKey(d, k) {
      forall i, j | 0 <= i < j < |r.entries|
        ensures r.entries[i].0 != r.entries[j].0
      {
        assert r.entries[i] == d.entries[i];
      }
    }
  }

  lemma GetSetSame<K, V>(d: Dict<K, V>, k: K, v: V)
    ensures Get(Set(d, k, v), k) == Some(v)
  {
    if HasKey(d, k) {
      GetReplaceSame(d, k, v);
    } else {
      GetAppendSame(d, k, v);
    }
  }

  lemma GetReplaceSame<K, V>(d: Dict<K, V>, k: K, v: V)
    requires HasKey(d, k)
    ensures Get(Dict(Replace(d.entries, k, v)), k) == Some(v)
  {
    var r := Dict(Replace(d.entries, k, v));
    var i :| 0 <= i < |d.entries| && d.entries[i].0 == k;
    assert r.entries[i].0 == k;
    var g := Get(r, k).value;
    var j :| 0 <= j < |r.entries| && r.entries[j] == (k, g);
    assert d.entries[j].0 == k;
  }

  lemma GetAppendSame<K, V>(d: Dict<K, V>, k: K, v: V)
    requires !HasKey(d, k)
    ensures Get(Dict(d.entries + [(k, v)]), k) == Some(v)
  {
    var r := Dict(d.entries + [(k, v)]);
    assert r.entries[|d.entries|].0 == k;
    var j :| 0 <= j < |r.entries| && r.entries[j] == (k, Get(r, k).value);
    assert j == |d.entries|;
  }

  /** Assigning one key leaves every other key's lookup unchanged. */
  lemma GetOtherAfterSet<K, V>(d: Dict<K, V>, k: K, v: V, other: K)
    requires other != k
    ensures Get(Set(d, k, v), other) == Get(d, other)
  {
    if HasKey(d, k) {
      GetOtherAfterReplace(d.entries, k, v, other);
    } else {
      GetOtherAfterAppend(d.entries, k, v, other);
    }
  }

  /** Assigning one key leaves the lookup of every other key as it was. */
  lemma SetKeepsOthers<K, V>(d: Dict<K, V>, k: K, v: V)
    ensures forall other :: other != k ==> Get(Set(d, k, v), other) == Get(d, other)
  {
    forall other | other != k
      ensures Get(Set(d, k, v), other) == Get(d, other)
    {
      GetOtherAfterSet(d, k, v, other);
    }
  }

  lemma {:induction false} GetOtherAfterReplace<K, V>(es: seq<(K, V)>, k: K, v: V, other: K)
    requires other != k
    ensures Get(Dict(Replace(es, k, v)), other) == Get(Dict(es), other)
    decreases |es|
  {
    if |es| > 0 && es[0].0 != other {
      GetOtherAfterReplace(es[1..], k, v, other);
      assert Replace(es, k, v)[1..] == Replace(es[1..], k, v);
    }
  }

  lemma {:induction false} GetOtherAfterAppend<K, V>(es: seq<(K, V)>, k: K, v: V, other: K)
    requires other != k
    ensures Get(Dict(es + [(k, v)]), other) == Get(Dict(es), other)
    decreases |es|
  {
    if |es| > 0 && es[0].0 != other {
      GetOtherAfterAppend(es[1..], k, v, other);
      assert (es + [(k, v)])[1..] == es[1..] + [(k, v)];
    }
  }

  /** Removing a key keeps every other key's lookup and the uniqueness of keys. */
  lemma GetAfterRemove<K(!new), V(!new)>(d: Dict<K, V>, k: K, other: K)
    requires Valid(d)
    ensures Valid(Remove(d, k))
    ensures Get(Remove(d, k), k).None?
    ensures other != k ==> Get(Remove(d, k), other) == Get(d, other)
  {
    RemoveKeepsValid(d, k);
    if other != k {
      GetOtherAfterRemove(d, k, other);
    }
  }

  lemma {:induction false} RemoveKeepsValid<K(!new), V(!new)>(d: Dict<K, V>, k: K)
    requires Valid(d)
    ensures Valid(Remove(d, k))
    decreases |d.entries|
  {
    if |d.entries| > 0 {
      var d' := Dict(d.entries[1..]);
      assert Valid(d');
      RemoveKeepsValid(d', k);
      var t := Remove(d', k);
      if d.entries[0].0 != k {
        var r := Dict([d.entries[0]] + t.entries);
        forall i | 1 <= i < |r.entries|
          ensures r.entries[0].0 != r.entries[i].0
        {
          assert r.entries[i] in t.entries;
          var j :| 0 <= j < |d'.entries| && d'.entries[j] == r.entries[i];
          assert d.entries[j + 1] == r.entries[i];
        }
        assert r.entries[1..] == t.entries;
      }
    }
  }

  lemma {:induction false} GetOtherAfterRemove<K(!new), V(!new)>(d: Dict<K, V>, k: K, other: K)
    requires other != k
    ensures Get(Remove(d, k), other) == Get(d, other)
    decreases |d.entries|
  {
    if |d.entries| > 0 {
      var d' := Dict(d.entries[1..]);
      GetOtherAfterRemove(d', k, other);
      if d.entries[0].0 != k {
        var t := Remove(d', k);
        assert Dict([d.entries[0]] + t.entries).entries[1..] == t.entries;
      }
    }
  }

  /** Removing a present key shrinks a valid dict by exactly one entry. */
  lemma {:induction false} RemoveSize<K(!new), V(!new)>(d: Dict<K, V>, k: K)
    requires Valid(d)
    requires HasKey(d, k)
    ensures |Remove(d, k).entries| == |d.entries| - 1
    decreases |d.entries|
  {
    var d' := Dict(d.entries[1..]);
    assert Valid(d');
    if d.entries[0].0 == k {
      RemoveAbsent(d', k);
    } else {
      var i :| 0 <= i < |d.entries| && d.entries[i].0 == k;
      assert d'.entries[i - 1].0 == k;
      RemoveSize(d', k);
    }
  }

  /** Removing an absent key changes nothing. */
  lemma {:induction false} RemoveAbsent<K(!new), V(!new)>(d: Dict<K, V>, k: K)
    requires !HasKey(d, k)
    ensures Remove(d, k) == d
    decreases |d.entries|
  {
    if |d.entries| > 0 {
      var d' := Dict(d.entries[1..]);
      assert d.entries[0].0 != k;
      RemoveAbsent(d', k);
      assert [d.entries[0]] + d'.entries == d.entries;
    }
  }
}

=== FILE: overlay_toolbar.dfy ===
/**
 * The floating toolbar that drives the screen overlay: a tool toggle over
 * the five overlay tools, a seven-colour palette, a 1–10 size slider, Exit
 * and Clear All buttons, and a header by which the panel is dragged around
 * the map container.
 */
module OverlayToolbar {
  import opened Wrappers
  import opened Geometry
  import RangeInput
  import opened ScreenOverlay

  /** The id each tool button reports. */
  function ToolId(t: ScreenTool): (id: string)
    ensures id in ToolIds
  {
    match t
    case Marker => "marker"
    case Pen => "pen"
    case Text => "text"
    case Circle => "circle"
    case Rectangle => "rectangle"
  }

  const ToolIds: seq<string> := ["marker", "pen", "text", "circle", "rectangle"]

  /** Reads a tool id back; the inverse of `ToolId`. */
  function ToolFromId(id: string): (t: ScreenTool)
    requires id in ToolIds
    ensures ToolId(t) == id
  {
    if id == "marker" then Marker
    else if id == "pen" then Pen
    else if id == "text" then Text
    else if id == "circle" then Circle
    else Rectangle
  }

  const Palette: seq<string> := ["#FF0000", "#00FF00", "#0000FF", "#FFFF00", "#FF00FF", "#00FFFF", "#000000"]

  /** The size slider spans 1 to 10 pixels. */
  const SizeSlider: RangeInput.Range := RangeInput.Range(1, 10)

  /** Assumed panel width when placing it against the map's right edge. */
  const PanelWidth: int := 280
  const DefaultMapWidth: int := 800

  /** What the toolbar reports to its parent. */
  datatype Notice =
    | ToolSelect(tool: ScreenTool)
    | ColorChange(color: string)
    | SizeChange(size: int)
    | Exit
    /** The separate clear-annotations callback. */
    | ClearAnnotations

  datatype Toolbar = Toolbar(
    selectedTool: Option<ScreenTool>,
    selectedColor: string,
    selectedSize: int,
    position: Point,
    isDragging: bool,
    dragStart: Point)

  /**
   * The toolbar on mount. `mapWidth` is None when the parent leaves the
   * width undefined, which falls back to 800 (a `null` width is not
   * modelled); the panel sits 280 pixels in from the right edge, but never
   * left of the container, 20 pixels from the top.
   */
  function Init(mapWidth: Option<int>): (t: Toolbar)
    ensures t.selectedTool.None? && t.selectedColor == Palette[0] && t.selectedSize == 3
    ensures t.position.y == 20 && t.position.x >= 0
    ensures t.position.x >= mapWidth.GetOr(DefaultMapWidth) - PanelWidth
    ensures t.position.x == 0 || t.position.x == mapWidth.GetOr(DefaultMapWidth) - PanelWidth
    ensures !t.isDragging
  {
    var w := mapWidth.GetOr(DefaultMapWidth);
    Toolbar(None, "#FF0000", 3, Point(if w - PanelWidth > 0 then w - PanelWidth else 0, 20), false, Point(0, 0))
  }

  /** `handleToolSelect`: clicking the current tool deselects it, any other selects it; the click is always reported. */
  function SelectTool(t: Toolbar, tool: ScreenTool): (r: (Toolbar, seq<Notice>))
    ensures t.selectedTool == Some(tool) ==> r.0.selectedTool.None?
    ensures t.selectedTool != Some(tool) ==> r.0.selectedTool == Some(tool)
    ensures r.0 == t.(selectedTool := r.0.selectedTool)
    ensures r.1 == [ToolSelect(tool)]
  {
    (t.(selectedTool := if t.selectedTool == Some(tool) then None else Some(tool)), [ToolSelect(tool)])
  }

  /** Clicking the same tool twice restores the selection exactly when it was that tool or nothing. */
  lemma SelectTwice(t: Toolbar, tool: ScreenTool)
    ensures SelectTool(SelectTool(t, tool).0, tool).0 == t <==> t.selectedTool == Some(tool) || t.selectedTool.None?
  {
    if t.selectedTool.Some? && t.selectedTool != Some(tool) {
      assert SelectTool(SelectTool(t, tool).0, tool).0.selectedTool.None?;
    }
  }

  /** `handleColorChange`: store the colour and report the same one. */
  function SelectColor(t: Toolbar, color: string): (r: (Toolbar, seq<Notice>))
    ensures r.0 == t.(selectedColor := color) && r.1 == [ColorChange(color)]
  {
    (t.(selectedColor := color), [ColorChange(color)])
  }

  /** `handleSizeChange` fed by the slider: the stored and reported size lie in 1..10. */
  function SlideSize(t: Toolbar, raw: int): (r: (Toolbar, seq<Notice>))
    ensures RangeInput.Within(SizeSlider, r.0.selectedSize)
    ensures RangeInput.Within(SizeSlider, raw) ==> r.0.selectedSize == raw
    ensures r.0 == t.(selectedSize := r.0.selectedSize) && r.1 == [SizeChange(r.0.selectedSize)]
  {
    var size := RangeInput.Value(SizeSlider, raw);
    (t.(selectedSize := size), [SizeChange(size)])
  }

  /** Exit Annotate: no tool, and the parent is told. */
  function ExitAnnotate(t: Toolbar): (r: (Toolbar, seq<Notice>))
    ensures r.0 == t.(selectedTool := None) && r.1 == [Exit]
  {
    (t.(selectedTool := None), [Exit])
  }

  /** Clear All: the parent clears its annotations and the tool is dropped. */
  function ClearAll(t: Toolbar): (r: (Toolbar, seq<Notice>))
    ensures r.0 == t.(selectedTool := None) && r.1 == [ClearAnnotations]
  {
    (t.(selectedTool := None), [ClearAnnotations])
  }

  /** The map container's top-left corner, or the page origin when there is no container. */
  function Origin(mapOrigin: Option<Point>): Point {
    mapOrigin.GetOr(Point(0, 0))
  }

  /** The cursor position relative to the map container. */
  function Relative(client: Point, mapOrigin: Option<Point>): Point {
    Point(client.x - Origin(mapOrigin).x, client.y - Origin(mapOrigin).y)
  }

  /** A press inside the panel; only a press on the header starts a drag, remembering the grab offset. */
  function MouseDown(t: Toolbar, onHeader: bool, client: Point, mapOrigin: Option<Point>): (r: Toolbar)
    ensures !onHeader ==> r == t
    ensures onHeader ==> r.isDragging && r.position == t.position
    ensures onHeader ==> r.dragStart.x + t.position.x == Relative(client, mapOrigin).x
    ensures onHeader ==> r.dragStart.y + t.position.y == Relative(client, mapOrigin).y
  {
    if onHeader then
      var rel := Relative(client, mapOrigin);
      t.(isDragging := true, dragStart := Point(rel.x - t.position.x, rel.y - t.position.y))
    else t
  }

  /** A move while dragging keeps the grab offset between cursor and panel. */
  function MouseMove(t: Toolbar, client: Point, mapOrigin: Option<Point>): (r: Toolbar)
    ensures !t.isDragging ==> r == t
    ensures t.isDragging ==>
      && r == t.(position := r.position)
      && r.position.x + t.dragStart.x == Relative(client, mapOrigin).x
      && r.position.y + t.dragStart.y == Relative(client, mapOrigin).y
  {
    if t.isDragging then
      var rel := Relative(client, mapOrigin);
      t.(position := Point(rel.x - t.dragStart.x, rel.y - t.dragStart.y))
    else t
  }

  /** Releasing the mouse button ends any drag. */
  function MouseUp(t: Toolbar): (r: Toolbar)
    ensures !r.isDragging && r == t.(isDragging := false)
  {
    t.(isDragging := false)
  }

  /**
   * A drag moves the panel by exactly the cursor's displacement relative to
   * the map container; a move back to the grab point leaves it where it was.
   */
  lemma DragFollowsPointer(t: Toolbar, c0: Point, o0: Option<Point>, c1: Point, o1: Option<Point>)
    ensures var r := MouseMove(MouseDown(t, true, c0, o0), c1, o1);
      && r.position.x == t.position.x + (Relative(c1, o1).x - Relative(c0, o0).x)
      && r.position.y == t.position.y + (Relative(c1, o1).y - Relative(c0, o0).y)
    ensures c1 == c0 && o1 == o0 ==> MouseMove(MouseDown(t, true, c0, o0), c1, o1).position == t.position
  {
  }

  /** `resetPosition` from the parent moves the panel when present and is ignored otherwise. */
  function Reset(t: Toolbar, resetPosition: Option<Point>): (r: Toolbar)
    ensures resetPosition.None? ==> r == t
    ensures resetPosition.Some? ==> r == t.(position := resetPosition.value)
  {
    match resetPosition
    case None => t
    case Some(p) => t.(position := p)
  }

  /** Everything the user or the parent can do to the toolbar. */
  datatype Press =
    | PickTool(tool: ScreenTool)
    | PickColor(color: string)
    | Slide(raw: int)
    | ExitButton
    | ClearButton
    | PanelDown(onHeader: bool, client: Point, mapOrigin: Option<Point>)
    | PointerMove(client: Point, mapOrigin: Option<Point>)
    | PointerUp
    | ResetFromParent(resetPosition: Option<Point>)

  /** Dispatches one press to its handler; drags and resets report nothing. */
  function Step(t: Toolbar, p: Press): (r: (Toolbar, seq<Notice>))
    ensures |r.1| == (if p.PickTool? || p.PickColor? || p.Slide? || p.ExitButton? || p.ClearButton? then 1 else 0)
  {
    match p
    case PickTool(tool) => SelectTool(t, tool)
    case PickColor(color) => SelectColor(t, color)
    case Slide(raw) => SlideSize(t, raw)
    case ExitButton => ExitAnnotate(t)
    case ClearButton => ClearAll(t)
    case PanelDown(onHeader, client, mapOrigin) => (MouseDown(t, onHeader, client, mapOrigin), [])
    case PointerMove(client, mapOrigin) => (MouseMove(t, client, mapOrigin), [])
    case PointerUp => (MouseUp(t), [])
    case ResetFromParent(resetPosition) => (Reset(t, resetPosition), [])
  }

  /** The style the overlay draws with is always a palette colour and a slider size. */
  predicate Settled(t: Toolbar) {
    t.selectedColor in Palette && RangeInput.Within(SizeSlider, t.selectedSize)
  }

  lemma InitSettled(mapWidth: Option<int>)
    ensures Settled(Init(mapWidth))
  {
  }

  /**
   * Since the colour buttons offer only palette colours, no sequence of
   * presses can leave the toolbar with a colour or size the panel does not
   * offer, and the overlay is told of every choice.
   */
  lemma StepKeepsSettled(t: Toolbar, p: Press)
    requires Settled(t)
    requires p.PickColor? ==> p.color in Palette
    ensures Settled(Step(t, p).0)
    ensures p.PickColor? || p.Slide? ==>
      Step(t, p).1 == [if p.PickColor? then ColorChange(Step(t, p).0.selectedColor) else SizeChange(Step(t, p).0.selectedSize)]
  {
  }
}

=== FILE: range_input.dfy ===
/**
 * An HTML range input (`<input type="range" min=… max=…>`): the value it
 * reports to its `onChange` handler always lies within its bounds.
 */
module RangeInput {

  datatype Range = Range(min: int, max: int)

  predicate Within(r: Range, v: int) {
    r.min <= v <= r.max
  }

  /**
   * The value the input reports when the user drags to `raw`: clamped to
   * the bounds, and `raw` itself when already inside them.
   */
  function Value(r: Range, raw: int): (v: int)
    requires r.min <= r.max
    ensures Within(r, v)
    ensures Within(r, raw) ==> v == raw
    ensures raw < r.min ==> v == r.min
    ensures raw > r.max ==> v == r.max
  {
    if raw < r.min then r.min else if raw > r.max then r.max else raw
  }
}

=== FILE: screen_overlay.dfy ===
/**
 * The screen-anchored annotation overlay: a canvas above the map on which
 * the five tools (marker, pen, text, circle, rectangle) draw in pixel
 * coordinates. The parent owns the annotation list: it applies every
 * change the overlay reports and may pass a different list at any time (the
 * toolbar's Clear All empties it). The model keeps the list in the state and
 * takes the parent's list whenever the props change.
 */
module ScreenOverlay {
  import opened Wrappers
  import opened Geometry

  datatype ScreenTool = Marker | Pen | Text | Circle | Rectangle

  /** A committed annotation; `id` is the millisecond clock at commit time. */
  datatype Shape =
    | MarkerShape(id: int, at: Point, color: string, size: int)
    | TextShape(id: int, at: Point, text: string, color: string, size: int)
    | PenShape(id: int, path: seq<Point>, color: string, size: int)
    | CircleShape(id: int, at: Point, end: Point, color: string, size: int)
    | RectangleShape(id: int, at: Point, end: Point, color: string, size: int)

  /** The props the overlay reads and the state it keeps between events. */
  datatype Overlay = Overlay(
    selectedTool: Option<ScreenTool>,
    selectedColor: string,
    selectedSize: int,
    annotations: seq<Shape>,
    isDrawing: bool,
    startPos: Point,
    currentPath: seq<Point>)

  /** A fresh overlay: not drawing, press point at the origin, no path. */
  function Init(tool: Option<ScreenTool>, color: string, size: int, annotations: seq<Shape>): (o: Overlay)
    ensures !o.isDrawing && o.currentPath == [] && o.startPos == Point(0, 0)
    ensures o.annotations == annotations && o.selectedTool == tool
  {
    Overlay(tool, color, size, annotations, false, Point(0, 0), [])
  }

  /**
   * `handleMouseDown`. With no tool nothing happens. Otherwise the press
   * point is remembered and drawing starts; the pen seeds its path, the
   * marker commits at once, and the text tool commits the text the user
   * typed (`typed`, None when the prompt is dismissed) when it is non-empty.
   * Marker and text end the gesture immediately.
   */
  function MouseDown(o: Overlay, pos: Point, typed: Option<string>, now: int): (r: Overlay)
    ensures o.selectedTool.None? ==> r == o
    ensures o.selectedTool == Some(Pen) ==>
      r == o.(startPos := pos, isDrawing := true, currentPath := [pos])
    ensures o.selectedTool == Some(Marker) ==>
      r == o.(startPos := pos, isDrawing := false,
               annotations := o.annotations + [MarkerShape(now, pos, o.selectedColor, o.selectedSize)])
    ensures o.selectedTool == Some(Text) ==>
      && r.startPos == pos && !r.isDrawing && r.currentPath == o.currentPath
      && (if typed.Some? && |typed.value| > 0
          then r.annotations == o.annotations + [TextShape(now, pos, typed.value, o.selectedColor, o.selectedSize)]
          else r.annotations == o.annotations)
    ensures o.selectedTool == Some(Circle) || o.selectedTool == Some(Rectangle) ==>
      r == o.(startPos := pos, isDrawing := true)
  {
    match o.selectedTool
    case None => o
    case Some(tool) =>
      var pressed := o.(startPos := pos, isDrawing := true);
      match tool
      case Pen => pressed.(currentPath := [pos])
      case Marker =>
        pressed.(annotations := o.annotations + [MarkerShape(now, pos, o.selectedColor, o.selectedSize)],
                 isDrawing := false)
      case Text =>
        var annotations :=
          if typed.Some? && |typed.value| > 0
          then o.annotations + [TextShape(now, pos, typed.value, o.selectedColor, o.selectedSize)]
          else o.annotations;
        pressed.(annotations := annotations, isDrawing := false)
      case Circle => pressed
      case Rectangle => pressed
  }

  /**
   * `handleMouseMove`: only the pen changes state, appending the cursor to
   * its path; circle and rectangle merely repaint a preview.
   */
  function MouseMove(o: Overlay, pos: Point): (r: Overlay)
    ensures o.isDrawing && o.selectedTool == Some(Pen) ==> r == o.(currentPath := o.currentPath + [pos])
    ensures !(o.isDrawing && o.selectedTool == Some(Pen)) ==> r == o
  {
    if o.isDrawing && o.selectedTool == Some(Pen) then o.(currentPath := o.currentPath + [pos]) else o
  }

  /** The shape releasing the mouse button at `pos` commits, if any. */
  function Released(o: Overlay, pos: Point, now: int): Option<Shape> {
    match o.selectedTool
    case Some(Pen) =>
      if |o.currentPath| > 1 then Some(PenShape(now, o.currentPath, o.selectedColor, o.selectedSize)) else None
    case Some(Circle) => Some(CircleShape(now, o.startPos, pos, o.selectedColor, o.selectedSize))
    case Some(Rectangle) => Some(RectangleShape(now, o.startPos, pos, o.selectedColor, o.selectedSize))
    case _ => None
  }

  /**
   * `handleMouseUp`: outside a gesture nothing happens. Otherwise the pen
   * commits its path when it has more than one point (the release point is
   * not added), circle and rectangle always commit press-to-release, and
   * the gesture ends.
   */
  function MouseUp(o: Overlay, pos: Point, now: int): (r: Overlay)
    ensures !o.isDrawing || o.selectedTool.None? ==> r == o
    ensures o.isDrawing && o.selectedTool.Some? ==>
      && !r.isDrawing && r.currentPath == []
      && r.startPos == o.startPos && r.selectedTool == o.selectedTool
      && r.annotations == o.annotations + (match Released(o, pos, now) case None => [] case Some(x) => [x])
  {
    if !o.isDrawing || o.selectedTool.None? then o
    else
      var annotations :=
        match Released(o, pos, now)
        case None => o.annotations
        case Some(shape) => o.annotations + [shape];
      o.(annotations := annotations, isDrawing := false, currentPath := [])
  }

  /** The canvas's `onMouseLeave`: abandon the gesture without committing anything. */
  function MouseLeave(o: Overlay): (r: Overlay)
    ensures !r.isDrawing && r.currentPath == []
    ensures r.annotations == o.annotations && r.selectedTool == o.selectedTool
  {
    o.(isDrawing := false, currentPath := [])
  }

  datatype Event =
    | Down(pos: Point, typed: Option<string>, now: int)
    | Move(pos: Point)
    | Up(pos: Point, now: int)
    | Leave
    /** The parent passes a different tool, colour, size or annotation list. */
    | Props(tool: Option<ScreenTool>, color: string, size: int, annotations: seq<Shape>)

  /**
   * Dispatches one event. Only a press or a release can commit a shape, and
   * only the parent changes the tool, colour or size or replaces the list;
   * new props leave a gesture in progress alone.
   */
  function Step(o: Overlay, e: Event): (r: Overlay)
    ensures e.Move? || e.Leave? ==> r.annotations == o.annotations
    ensures !e.Props? ==>
      r.selectedTool == o.selectedTool && r.selectedColor == o.selectedColor && r.selectedSize == o.selectedSize
    ensures e.Props? ==>
      && r.annotations == e.annotations
      && r.selectedTool == e.tool && r.selectedColor == e.color && r.selectedSize == e.size
      && r.isDrawing == o.isDrawing && r.currentPath == o.currentPath && r.startPos == o.startPos
  {
    match e
    case Down(pos, typed, now) => MouseDown(o, pos, typed, now)
    case Move(pos) => MouseMove(o, pos)
    case Up(pos, now) => MouseUp(o, pos, now)
    case Leave => MouseLeave(o)
    case Props(tool, color, size, annotations) =>
      o.(selectedTool := tool, selectedColor := color, selectedSize := size, annotations := annotations)
  }

  /**
   * Every pointer event either keeps the list or appends exactly one shape
   * to it; only the parent's props replace it.
   */
  lemma StepAppendsOnly(o: Overlay, e: Event)
    ensures var r := Step(o, e);
      !e.Props? ==>
        r.annotations == o.annotations ||
        (|r.annotations| == |o.annotations| + 1 && r.annotations[..|o.annotations|] == o.annotations)
    ensures e.Props? ==> Step(o, e).annotations == e.annotations
  {
  }

  /** With no tool selected, pointer events change nothing at all. */
  lemma NoToolNoChange(o: Overlay, e: Event)
    requires o.selectedTool.None?
    requires !e.Props? && !e.Leave?
    ensures Step(o, e) == o
  {
  }

  /** Every stored pen stroke has at least two points. */
  predicate PenStrokesHaveTwoPoints(annotations: seq<Shape>) {
    forall i :: 0 <= i < |annotations| && annotations[i].PenShape? ==> |annotations[i].path| >= 2
  }

  /**
   * No pointer event can store a pen stroke of fewer than two points; a list
   * from the parent keeps the property when it had it.
   */
  lemma StepKeepsPenStrokes(o: Overlay, e: Event)
    requires PenStrokesHaveTwoPoints(o.annotations)
    ensures !e.Props? || PenStrokesHaveTwoPoints(e.annotations) ==> PenStrokesHaveTwoPoints(Step(o, e).annotations)
  {
  }

  /** Applies mouse moves in order. */
  function Moves(o: Overlay, points: seq<Point>): (r: Overlay)
    ensures r.selectedTool == o.selectedTool && r.annotations == o.annotations && r.isDrawing == o.isDrawing
    ensures r.startPos == o.startPos && r.selectedColor == o.selectedColor && r.selectedSize == o.selectedSize
    decreases |points|
  {
    if |points| == 0 then o else Moves(MouseMove(o, points[0]), points[1..])
  }

  /** While drawing with the pen, a run of moves appends exactly those points to the path. */
  lemma {:induction false} PenMovesExtend(o: Overlay, points: seq<Point>)
    requires o.isDrawing && o.selectedTool == Some(Pen)
    ensures Moves(o, points).currentPath == o.currentPath + points
    decreases |points|
  {
    if |points| > 0 {
      PenMovesExtend(MouseMove(o, points[0]), points[1..]);
      assert o.currentPath + [points[0]] + points[1..] == o.currentPath + points;
    }
  }

  /**
   * A whole pen gesture: press at `p`, move through `qs`, release at `r`.
   * It stores the stroke `[p] + qs` exactly when there was at least one
   * move; the release point never joins the stroke.
   */
  lemma PenGesture(o: Overlay, p: Point, qs: seq<Point>, r: Point, t0: int, t1: int)
    requires o.selectedTool == Some(Pen)
    ensures var after := MouseUp(Moves(MouseDown(o, p, None, t0), qs), r, t1);
      && !after.isDrawing && after.currentPath == []
      && (|qs| >= 1 ==> after.annotations == o.annotations + [PenShape(t1, [p] + qs, o.selectedColor, o.selectedSize)])
      && (|qs| == 0 ==> after.annotations == o.annotations)
  {
    var down := MouseDown(o, p, None, t0);
    PenMovesExtend(down, qs);
  }

  /**
   * A circle or rectangle gesture commits from press point to release
   * point whatever the moves in between, even when the two coincide.
   */
  lemma ShapeGesture(o: Overlay, p: Point, qs: seq<Point>, r: Point, t0: int, t1: int)
    requires o.selectedTool == Some(Circle) || o.selectedTool == Some(Rectangle)
    ensures var after := MouseUp(Moves(MouseDown(o, p, None, t0), qs), r, t1);
      && !after.isDrawing
      && |after.annotations| == |o.annotations| + 1
      && after.annotations[..|o.annotations|] == o.annotations
      && after.annotations[|o.annotations|].at == p
      && after.annotations[|o.annotations|].end == r
      && (o.selectedTool == Some(Circle) <==> after.annotations[|o.annotations|].CircleShape?)
  {
    var down := MouseDown(o, p, None, t0);
    var moved := Moves(down, qs);
    assert moved.isDrawing && moved.startPos == p;
  }

  // ---------------------------------------------------------------------
  // Painting

  /** What `drawAnnotation` paints for one shape, with the canvas arithmetic left symbolic. */
  datatype Paint =
    | Nothing
    /** `moveTo(start)`, then `lineTo` every point in order. */
    | Polyline(start: Point, lineTo: seq<Point>, width: int, color: string)
    /** A filled disc of radius 8 and the pin glyph 4 pixels below its centre. */
    | Dot(center: Point, radius: int, glyphAt: Point, color: string)
    /** A stroked circle, given by the square of its radius. */
    | Ring(center: Point, radiusSquared: int, width: int, color: string)
    /** A stroked rectangle with signed extent. */
    | Frame(origin: Point, width: int, height: int, lineWidth: int, color: string)
    | Label(text: string, at: Point, fontSize: int, color: string)

  const MarkerRadius: int := 8
  const DefaultText: string := "Text"

  function Square(n: int): (r: int)
    ensures r >= 0
  {
    n * n
  }

  /**
   * `drawAnnotation`: each shape is painted as its own kind of figure, in its
   * own colour; only a pen stroke of fewer than two points paints nothing.
   */
  function DrawShape(s: Shape): (p: Paint)
    ensures p.Nothing? <==> s.PenShape? && |s.path| <= 1
    ensures !p.Nothing? ==> p.color == s.color
    ensures s.MarkerShape? ==>
      p.Dot? && p.center == s.at && p.radius == MarkerRadius && p.glyphAt == Point(s.at.x, s.at.y + 4)
    ensures s.CircleShape? ==> p.Ring? && p.center == s.at && p.width == s.size
    ensures s.RectangleShape? ==> p.Frame? && p.origin == s.at && p.lineWidth == s.size
    ensures s.PenShape? && |s.path| > 1 ==> p.Polyline? && p.width == s.size
  {
    match s
    case PenShape(_, path, color, size) =>
      if |path| > 1 then Polyline(path[0], path, size, color) else Nothing
    case MarkerShape(_, at, color, _) =>
      Dot(at, MarkerRadius, Point(at.x, at.y + 4), color)
    case CircleShape(_, at, end, color, size) =>
      Ring(at, Square(end.x - at.x) + Square(end.y - at.y), size, color)
    case RectangleShape(_, at, end, color, size) =>
      Frame(at, end.x - at.x, end.y - at.y, size, color)
    case TextShape(_, at, text, color, size) =>
      Label(if |text| > 0 then text else DefaultText, at, size * 4, color)
  }

  /** A rectangle is painted from its press corner so that it reaches exactly its release corner. */
  lemma RectangleReachesEnd(s: Shape)
    requires s.RectangleShape?
    ensures var p := DrawShape(s);
      p.Frame? && p.origin == s.at && p.origin.x + p.width == s.end.x && p.origin.y + p.height == s.end.y
  {
  }

  /** A circle is centred on its press point and passes through its release point. */
  lemma CirclePassesThroughEnd(s: Shape)
    requires s.CircleShape?
    ensures var p := DrawShape(s);
      p.Ring? && p.center == s.at &&
      p.radiusSquared == (s.end.x - s.at.x) * (s.end.x - s.at.x) + (s.end.y - s.at.y) * (s.end.y - s.at.y)
      && (p.radiusSquared == 0 <==> s.end == s.at)
  {
    var dx := s.end.x - s.at.x;
    var dy := s.end.y - s.at.y;
    if dx != 0 {
      assert dx * dx > 0 by { SquarePositive(dx); }
    }
    if dy != 0 {
      assert dy * dy > 0 by { SquarePositive(dy); }
    }
  }

  lemma SquarePositive(n: int)
    requires n != 0
    ensures n * n > 0
  {
    if n < 0 {
      assert n * n == (-n) * (-n);
    }
  }

  /**
   * A pen stroke is painted as a move to its first point followed by a line
   * to every point, the first included; a stroke of one point or none paints
   * nothing.
   */
  lemma PenPaint(s: Shape)
    requires s.PenShape?
    ensures |s.path| <= 1 <==> DrawShape(s) == Nothing
    ensures |s.path| > 1 ==> DrawShape(s).start == s.path[0] && DrawShape(s).lineTo == s.path
  {
  }

  /** Text is painted at four times the pen size, with "Text" standing in for an empty string. */
  lemma TextPaint(s: Shape)
    requires s.TextShape?
    ensures DrawShape(s).Label? && DrawShape(s).fontSize == 4 * s.size
    ensures DrawShape(s).text == (if s.text == [] then DefaultText else s.text)
  {
  }

  /** `redrawCanvas`: every annotation, in list order. */
  function Redraw(annotations: seq<Shape>): (r: seq<Paint>)
    ensures |r| == |annotations|
    ensures forall i :: 0 <= i < |r| ==> r[i] == DrawShape(annotations[i])
  {
    seq(|annotations|, i requires 0 <= i < |annotations| => DrawShape(annotations[i]))
  }

  /**
   * The canvas follows the parent's list: after new props it repaints
   * exactly the figures of the list passed in, so an emptied list (the
   * toolbar's Clear All) leaves a blank canvas.
   */
  lemma RedrawFollowsProps(o: Overlay, tool: Option<ScreenTool>, color: string, size: int, annotations: seq<Shape>)
    ensures var r := Step(o, Props(tool, color, size, annotations));
      && |Redraw(r.annotations)| == |annotations|
      && (forall i :: 0 <= i < |annotations| ==> Redraw(r.annotations)[i] == DrawShape(annotations[i]))
    ensures Redraw(Step(o, Props(tool, color, size, [])).annotations) == []
  {
  }

  /**
   * The live preview painted during a move: the pen's extended path once it
   * has two points, or the circle or rectangle from the press point to the
   * cursor, in the selected colour and size.
   */
  function Preview(o: Overlay, pos: Point): (p: Paint)
    ensures !o.isDrawing || o.selectedTool.None? ==> p == Nothing
    ensures o.isDrawing && o.selectedTool == Some(Pen) ==>
      p == DrawShape(PenShape(0, MouseMove(o, pos).currentPath, o.selectedColor, o.selectedSize))
    ensures o.isDrawing && o.selectedTool == Some(Pen) && |o.currentPath| >= 1 ==>
      p.Polyline? && p.start == o.currentPath[0] && p.lineTo[|p.lineTo| - 1] == pos
    ensures o.isDrawing && (o.selectedTool == Some(Circle) || o.selectedTool == Some(Rectangle)) ==>
      !p.Nothing? && p.color == o.selectedColor
  {
    if !o.isDrawing then Nothing
    else
      match o.selectedTool
      case Some(Pen) =>
        var path := o.currentPath + [pos];
        if |path| > 1 then Polyline(path[0], path, o.selectedSize, o.selectedColor) else Nothing
      case Some(Circle) => DrawShape(CircleShape(0, o.startPos, pos, o.selectedColor, o.selectedSize))
      case Some(Rectangle) => DrawShape(RectangleShape(0, o.startPos, pos, o.selectedColor, o.selectedSize))
      case _ => Nothing
  }

  /** Releasing where the last preview was drawn paints the very shape the preview showed. */
  lemma PreviewMatchesCommit(o: Overlay, pos: Point, now: int)
    requires o.isDrawing
    requires o.selectedTool == Some(Circle) || o.selectedTool == Some(Rectangle)
    ensures var r := MouseUp(o, pos, now);
      DrawShape(r.annotations[|r.annotations| - 1]) == Preview(o, pos)
  {
  }

  /**
   * The pen's last preview is the stroke a release then commits: after a
   * move to `pos`, releasing anywhere stores a stroke painted exactly as
   * the preview of that move was.
   */
  lemma PenPreviewMatchesCommit(o: Overlay, pos: Point, release: Point, now: int)
    requires o.isDrawing && o.selectedTool == Some(Pen) && |o.currentPath| >= 1
    ensures var r := MouseUp(MouseMove(o, pos), release, now);
      && |r.annotations| == |o.annotations| + 1
      && DrawShape(r.annotations[|o.annotations|]) == Preview(o, pos)
  {
    var m := MouseMove(o, pos);
    assert |m.currentPath| > 1;
    assert Released(m, release, now) == Some(PenShape(now, m.currentPath, o.selectedColor, o.selectedSize));
  }
}

=== FILE: store.dfy ===
/**
 * The backend's in-memory database: uploaded files and generated images
 * keyed by id in insertion order, and the list of preview requests
 * addressed by position.
 */
module Store {
  import opened Wrappers
  import opened OrderedDict
  import GenerationService

  type Bytes = GenerationService.Bytes

  datatype UploadedFile = UploadedFile(filename: string, contentType: string, data: Bytes, size: int, uploadTime: int)

  datatype CameraSettings = CameraSettings(date: string, timeOfDay: string, focalLength: int, weather: string)

  const Pending: string := "pending"
  const Generating: string := "generating"
  const Completed: string := "completed"
  const Failed: string := "failed"

  /** A preview request; `status` is None only when a client posts one with a null status. */
  datatype PreviewRequest = PreviewRequest(
    screenshot: string,
    cameraSettings: CameraSettings,
    uploadTime: Option<int>,
    fileId: Option<string>,
    filename: Option<string>,
    generatedImageId: Option<string>,
    generatedDescription: Option<string>,
    status: Option<string>,
    generationError: Option<string>)

  datatype GeneratedImage = GeneratedImage(
    data: Bytes, contentType: string, generationTime: int, previewRequestIndex: int, description: Option<string>)

  datatype Db = Db(
    uploadedFiles: Dict<string, UploadedFile>,
    previewRequests: seq<PreviewRequest>,
    generatedImages: Dict<string, GeneratedImage>)

  const Empty: Db := Db(Dict([]), [], Dict([]))

  /** An HTTP error response: status code and detail text. */
  datatype HttpError = HttpError(status: int, detail: string)

  /** The store is well formed when neither table holds a key twice. */
  predicate Valid(db: Db) {
    OrderedDict.Valid(db.uploadedFiles) && OrderedDict.Valid(db.generatedImages)
  }

  /** The request list with position `i` rewritten by `f`, when there is such a position. */
  function UpdateRequest(requests: seq<PreviewRequest>, i: int, f: PreviewRequest -> PreviewRequest): (r: seq<PreviewRequest>)
    ensures |r| == |requests|
    ensures 0 <= i < |requests| ==> r[i] == f(requests[i])
    ensures forall j :: 0 <= j < |requests| && j != i ==> r[j] == requests[j]
  {
    if 0 <= i < |requests| then requests[i := f(requests[i])] else requests
  }
}

=== FILE: text.dfy ===
/** Character-level string helpers shared by the frontend and backend modules. */
module Text {

  /** ASCII upper-case letters map to lower case; every other character is kept. */
  function AsciiLowerChar(c: char): (r: char)
    ensures 'A' <= c <= 'Z' ==> 'a' <= r <= 'z'
    ensures !('A' <= c <= 'Z') ==> r == c
  {
    if 'A' <= c <= 'Z' then ((c as int) + 32) as char else c
  }

  function AsciiLower(s: string): (r: string)
    ensures |r| == |s|
    ensures forall i :: 0 <= i < |s| ==> r[i] == AsciiLowerChar(s[i])
  {
    if |s| == 0 then [] else [AsciiLowerChar(s[0])] + AsciiLower(s[1..])
  }

  /** Python's `str.startswith` / JavaScript's `String.prototype.startsWith`. */
  predicate StartsWith(s: string, prefix: string) {
    |prefix| <= |s| && s[..|prefix|] == prefix
  }

  predicate OccursAt(s: string, needle: string, i: int) {
    0 <= i && i + |needle| <= |s| && s[i..i + |needle|] == needle
  }

  /** Python's `needle in s`: some position of `s` starts a copy of `needle`. */
  function Contains(s: string, needle: string): (b: bool)
    ensures b <==> exists i :: OccursAt(s, needle, i)
    decreases |s|
  {
    if StartsWith(s, needle) then
      assert OccursAt(s, needle, 0);
      true
    else if |s| == 0 then
      false
    else
      var b := Contains(s[1..], needle);
      ContainsShift(s, needle);
      b
  }

  /** An occurrence in `s[1..]` is an occurrence in `s` one position later, and conversely. */
  lemma ContainsShift(s: string, needle: string)
    requires |s| > 0
    requires !OccursAt(s, needle, 0)
    ensures (exists i :: OccursAt(s, needle, i)) <==> (exists i :: OccursAt(s[1..], needle, i))
  {
    if exists i :: OccursAt(s, needle, i) {
      var i :| OccursAt(s, needle, i);
      assert i > 0;
      assert s[1..][i - 1..i - 1 + |needle|] == s[i..i + |needle|];
      assert OccursAt(s[1..], needle, i - 1);
    }
    if exists i :: OccursAt(s[1..], needle, i) {
      var i :| OccursAt(s[1..], needle, i);
      assert s[1..][i..i + |needle|] == s[i + 1..i + 1 + |needle|];
      assert OccursAt(s, needle, i + 1);
    }
  }
}

=== FILE: validation.dfy ===
/**
 * Client-side validators for image uploads, camera settings and
 * coordinates. Fields of the settings object are JavaScript values, whose
 * truthiness decides whether a field counts as present.
 */
module Validation {
  import opened Wrappers
  import opened Text

  /** The JavaScript values a settings field can hold. */
  datatype JsValue = Undefined | Null | Bool(b: bool) | Num(n: real) | Str(s: string)

  /** JavaScript truthiness: `undefined`, `null`, `false`, `0` and `""` are falsy. */
  predicate Truthy(v: JsValue) {
    match v
    case Undefined => false
    case Null => false
    case Bool(b) => b
    case Num(n) => n != 0.0
    case Str(s) => |s| > 0
  }

  datatype Verdict = Valid | Invalid(error: string)

  /** A selected file as the browser describes it; `mimeType` is empty when the browser cannot tell. */
  datatype ImageFile = ImageFile(mimeType: string, size: int)

  const MaxImageBytes: int := 10 * 1024 * 1024
  const ImageTypePrefix: string := "image/"

  const NoFile: string := "No file selected"
  const NotAnImage: string := "File must be an image"
  const TooLarge: string := "File size must be less than 10MB"

  /** `validateImageFile`: a file is required, then an `image/` type, then at most 10 MiB. */
  function ValidateImageFile(file: Option<ImageFile>): (v: Verdict)
    ensures file.None? ==> v == Invalid(NoFile)
    ensures file.Some? ==> (v == Invalid(NotAnImage) <==> !StartsWith(file.value.mimeType, ImageTypePrefix))
    ensures file.Some? ==> (v == Invalid(TooLarge) <==>
      StartsWith(file.value.mimeType, ImageTypePrefix) && file.value.size > MaxImageBytes)
    ensures v == Valid <==>
      file.Some? && StartsWith(file.value.mimeType, ImageTypePrefix) && file.value.size <= MaxImageBytes
  {
    match file
    case None => Invalid(NoFile)
    case Some(f) =>
      if |f.mimeType| == 0 || !StartsWith(f.mimeType, ImageTypePrefix) then Invalid(NotAnImage)
      else if f.size > MaxImageBytes then Invalid(TooLarge)
      else Valid
  }

  /** A file of exactly 10 MiB is still accepted; one byte more is not. */
  lemma TenMebibyteBoundary()
    ensures ValidateImageFile(Some(ImageFile("image/png", 10485760))) == Valid
    ensures ValidateImageFile(Some(ImageFile("image/png", 10485761))) == Invalid(TooLarge)
  {
    assert StartsWith("image/png", ImageTypePrefix) by {
      assert "image/png"[..6] == ImageTypePrefix;
    }
  }

  /** Focal length is a number or absent (`null`/`undefined`); the other fields are arbitrary values. */
  datatype CameraSettings = CameraSettings(date: JsValue, timeOfDay: JsValue, focalLength: Option<real>, weather: JsValue)

  const MinFocalLength: real := 10.0
  const MaxFocalLength: real := 500.0

  /** Whether a focal length that is present lies outside the accepted lens range. */
  predicate FocalLengthOutOfRange(f: real) {
    f < MinFocalLength || f > MaxFocalLength
  }

  const DateRequired: string := "Date is required"
  const TimeOfDayRequired: string := "Time of day is required"
  const FocalLengthRequired: string := "Focal length is required"
  const FocalLengthRange: string := "Focal length must be between 10 and 500mm"
  const WeatherRequired: string := "Weather is required"

  /** The keys of the error object, one per settings field. */
  datatype Field = DateField | TimeOfDayField | FocalLengthField | WeatherField

  datatype SettingsReport = SettingsReport(valid: bool, errors: map<Field, string>)

  /** `errors.key = message` when the check failed; other keys are untouched. */
  function Note(errors: map<Field, string>, failed: bool, key: Field, message: string): (r: map<Field, string>)
    ensures key in r <==> failed || key in errors
    ensures failed ==> r[key] == message
    ensures forall k :: k != key ==> (k in r <==> k in errors) && (k in r ==> r[k] == errors[k])
  {
    if failed then errors[key := message] else errors
  }

  /**
   * `validateCameraSettings`: an error per falsy date, time of day or
   * weather; focal length is required only when `null` or `undefined`, and
   * a present number must lie in [10, 500]. Valid iff no error was recorded.
   */
  function ValidateCameraSettings(s: CameraSettings): (r: SettingsReport)
    ensures r.valid <==> r.errors == map[]
    ensures DateField in r.errors <==> !Truthy(s.date)
    ensures TimeOfDayField in r.errors <==> !Truthy(s.timeOfDay)
    ensures WeatherField in r.errors <==> !Truthy(s.weather)
    ensures FocalLengthField in r.errors <==> s.focalLength.None? || FocalLengthOutOfRange(s.focalLength.value)
    ensures s.focalLength.None? ==> r.errors[FocalLengthField] == FocalLengthRequired
    ensures s.focalLength.Some? && FocalLengthOutOfRange(s.focalLength.value) ==>
      r.errors[FocalLengthField] == FocalLengthRange
    ensures r.errors.Keys <= {DateField, TimeOfDayField, FocalLengthField, WeatherField}
  {
    var focalError :=
      if s.focalLength.None? then FocalLengthRequired else FocalLengthRange;
    var e1 := Note(map[], !Truthy(s.date), DateField, DateRequired);
    var e2 := Note(e1, !Truthy(s.timeOfDay), TimeOfDayField, TimeOfDayRequired);
    var e3 := Note(e2, s.focalLength.None? || FocalLengthOutOfRange(s.focalLength.value), FocalLengthField, focalError);
    var e4 := Note(e3, !Truthy(s.weather), WeatherField, WeatherRequired);
    SettingsReport(e4 == map[], e4)
  }

  /** Settings are accepted exactly when every field is present and the lens is in range; both bounds are accepted. */
  lemma CameraSettingsAccepted(s: CameraSettings)
    ensures ValidateCameraSettings(s).valid <==>
      Truthy(s.date) && Truthy(s.timeOfDay) && Truthy(s.weather) &&
      s.focalLength.Some? && MinFocalLength <= s.focalLength.value <= MaxFocalLength
  {
    var r := ValidateCameraSettings(s);
    if !Truthy(s.date) { assert DateField in r.errors; }
    if !Truthy(s.timeOfDay) { assert TimeOfDayField in r.errors; }
    if !Truthy(s.weather) { assert WeatherField in r.errors; }
    if s.focalLength.None? || FocalLengthOutOfRange(s.focalLength.value) { assert FocalLengthField in r.errors; }
  }

  /**
   * Truthiness makes hour 0 count as a missing time of day, while the text
   * form of the same hour is accepted.
   */
  lemma MidnightCountsAsMissing(date: JsValue, weather: JsValue)
    ensures TimeOfDayField in ValidateCameraSettings(CameraSettings(date, Num(0.0), Some(50.0), weather)).errors
    ensures TimeOfDayField !in ValidateCameraSettings(CameraSettings(date, Str("0"), Some(50.0), weather)).errors
  {
  }

  const BadLongitude: string := "Longitude must be between -180 and 180"
  const BadLatitude: string := "Latitude must be between -90 and 90"

  /** `validateCoordinates`: longitude is checked first; both ranges are inclusive. */
  function ValidateCoordinates(longitude: real, latitude: real): (v: Verdict)
    ensures v == Valid <==> -180.0 <= longitude <= 180.0 && -90.0 <= latitude <= 90.0
    ensures v == Invalid(BadLongitude) <==> !(-180.0 <= longitude <= 180.0)
    ensures v == Invalid(BadLatitude) <==> -180.0 <= longitude <= 180.0 && !(-90.0 <= latitude <= 90.0)
  {
    if longitude < -180.0 || longitude > 180.0 then Invalid(BadLongitude)
    else if latitude < -90.0 || latitude > 90.0 then Invalid(BadLatitude)
    else Valid
  }
}

=== FILE: wrappers.dfy ===
/** Optional values and error-carrying results, shared by every module of the model. */
module Wrappers {

  /** A value that may be absent: JavaScript's `null`/`undefined` or Python's `None`. */
  datatype Option<+T> = None | Some(value: T) {

    /** Returns the value held in Some, or `default` when absent. */
    function GetOr(default: T): T {
      match this
      case Some(v) => v
      case None => default
    }
  }

  /** Either a successful value or a failure value. */
  datatype Result<+R, +E> = Ok(value: R) | Err(error: E)
}
